=== FILE: README.md ===
# Commit Life — a verified model of the habit and companion core

Commit Life (CommitGarden) is a gamified habit tracker. A user groups habits
into pillars ("gardens"); each pillar owns a companion, an animal or a plant,
that gains XP and evolves whenever one of the pillar's habits is committed.
This project models, in Dafny, the parts of the repository that carry logic:

- the server actions of `app/actions.ts`: the commit transaction with its
  level-up loop and stage recomputation, the frequency-based completion rule,
  the gates and derived companion of `createPillar`, bulk import, the
  subscription extension and the admin actions (modules `Records`,
  `Completion`, `Leveling`, `ActionRules` and the class `Database.Db`);
- the stand-alone leveling service `lib/services/petService.ts`, with its own
  25-XP rule and tables (module `PetService`);
- the streak and heatmap computations of `lib/api.ts` (module `Streaks`);
- the client-side store `stores/app-store.ts` (class `AppStore.Store`);
- the derived views: the sprite lookup, the commit heatmap, the analytics
  modal, the profile totals, the habits modal, the dashboard card, the chore
  lists, the streak card and the spreadsheet import (one module each).

Shared modules: `Wrappers` (Option and Result), `Text` (ASCII lowercasing,
substring search, trimming, slicing, splitting at a character, decimal
rendering), `Calendar` (day numbers, weekdays, ISO weeks, date-fns month and
year addition) and `Lists` (an order-keeping filter).

Conventions of the model:

- An instant is an integer number of milliseconds since 1970-01-01T00:00Z. A
  day is the integer `instant / 86400000`, and `Weekday(day) = (day + 4) % 7`
  numbers days as `Date.getDay` does (0 is Sunday).
- A threshold growth of `Math.floor(x * 1.2)` is the integer `(6 * x) / 5`.
- Database rows live in sequences and maps of one `Db` object. Every server
  action either completes or leaves the tables as they were, with one
  exception: `completePurchase` writes the payment and the user in two steps,
  so a failed user update leaves the payment recorded.
- Results of the network, the clock and randomness are parameters: the API
  outcome of each store action, `now`, `today`, the heatmap's random counts
  and the ids the database assigns.

Points where the code behaves in a way a reader might not expect, all
modelled as the code has them:

- The commit path in `app/actions.ts` and the service in
  `lib/services/petService.ts` each have their own rules. The commit path
  credits 10 XP and uses the stages egg, baby, adult and ancient (seed,
  sprout, bloom and ancient for plants). The service credits 25 XP and uses
  egg, baby, toddler, child, teen and adult. Both are modelled, separately.
- Bulk import inserts all rows with one `createMany` after sanitising them,
  rather than creating the habits one by one.
- The completion rule uses the server's calendar, with no explicit time zone;
  the model uses UTC day numbers.
- `getStreakData` normalises the dates to local midnight in place, with
  `setHours(0, 0, 0, 0)` inside the current-streak loop. The best-streak loop
  then reads the same Date objects. Off UTC, the two loops therefore see
  different instants for the dates the first loop visited. The model, on UTC
  days, does not capture this (see "## Left out").
- `commitHabit` reads the companion through the habit's pillar
  (`habit.pillar.pet`). A habit whose pillar row is missing makes that read
  throw, before any write.

Definitions that carry no `ensures` of their own have no row. The rows of
the members that state them say what they mean:
`Completion.IsCompletedForCurrentPeriod` (by the `Completion` lemmas),
`Leveling.AddXp` (by `Leveling.CarryAdditive` and `Leveling.CommitTimesIsOneCredit`),
`PetService.Credit` (by `PetService.CarryAdditive` and `PetService.OneMoreCredit`),
`ActionRules.CompanionName` (by `ActionRules.CompanionFor`, `BlankNameIgnored` and `CustomNameTrimmed`),
`ActionRules.SubscriptionBase` (by `ActionRules.NewSubscriptionEnd`),
`PetSprite.ImageFile` (by the `PetSprite` image lemmas),
`BulkImportModal.Transform`, `RowName` and `MissingNameError` (by `BulkImportModal.HasNameIff`, `TransformFromMeaning` and `MissingNameErrorText`),
`BulkImportModal.ErrorLine` and `ReadingLog` (by `BulkImportModal.HandleUpload`),
`Analytics.Key` and `CountsOf` (by `Analytics.DailyCounts` and `LaterStatWins`),
`Analytics.FetchErrorMessage` (by `Analytics.PremiumRefusalAsksForUpgrade` and `OtherRefusalsFail`),
`CommitHeatmap.Cell` (by `CommitHeatmap.GenerateHeatmapData`),
`CommitHeatmap.Weeks` (by `CommitHeatmap.WeeksMeaning` and `SplitIsUnique`),
`CommitHeatmap.TotalCommits` (by `CommitHeatmap.WeekTotals` and `TotalOfAppend`),
`ProfilePage.SumCommits`, `SumXp` and `BestPet` (by `ProfilePage.CalculateTotalStats`, `TotalsOfAppend` and `BestPetIsFirstAtHighest`),
`HabitsModal.MatchesFilter` and `MatchesSearch` (by `HabitsModal.FilteredHabits` and `SearchIgnoresCase`),
`HomePage.DueDaily` and `DueWeekly` (by `HomePage.TodaysChores` and `WeeklyChores`),
`TodaysHabits.ShowSeeAll` and `ShowBanner` (by `TodaysHabits.SeeAllIffSomethingHidden` and `BannerIffAllDone`),
`Text.Trim` and `IsSpace` (by `Text.TrimStart`, `TrimEnd`, `TrimEmptyIffBlank` and `TrimIsTrimmed`).
`Database.Db.constructor` builds an empty database. It sets up the model and
has no counterpart in the source.

## Model

| member | source | states |
|---|---|---|
| Completion.CompletionRule | app/actions.ts:39-56 | a habit never completed is open; a completed one-time habit stays done; a weekly habit is done iff its last completion is in the current ISO week; daily and any other frequency are done iff it is on the current day |
| Completion.UnknownFrequencyIsDaily | app/actions.ts:52-55 | a frequency other than daily, weekly and onetime gives exactly the daily answer |
| Completion.CompletedAtCommitTime | app/actions.ts:42-56 | a habit whose last completion is `now` reads as done at `now`, whatever its frequency |
| Completion.DailyResetsNextDay | app/actions.ts:46-47 | a daily habit completed the day before is open again |
| Completion.WeeklyResetsOnMonday | app/actions.ts:48-49 | a weekly habit completed on a Sunday is open again on the Monday after |
| Completion.WeeklyHoldsWithinWeek | app/actions.ts:48-49 | on any next day other than a Monday a weekly habit stays done |
| Completion.DailyDoneImpliesWeeklyDone | app/actions.ts:46-49 | done for the day implies done for the week |
| Calendar.Weekday | components/CommitHeatmap.tsx:66 | the weekday number lies in 0..6 |
| Calendar.SameDayIsSameWeek | app/actions.ts:46-49 | two instants on the same day are in the same ISO week |
| Calendar.IsoWeekStartsOnMonday | app/actions.ts:48-49 | the ISO week number changes from one day to the next exactly when the next day is a Monday, and then by one |
| Calendar.DaysInMonth | app/actions.ts:379-383 | every month has 28 to 31 days |
| Calendar.AddMonths | app/actions.ts:382 | adding n months gives a valid date n months later whose day is the original day, or the month's last day when that month is shorter; the time of day is kept |
| Calendar.AddYears | app/actions.ts:380 | adding n years gives a valid date in the same month n years later, on the same day or the month's last day when it is shorter (29 February), at the same time of day |
| Calendar.MonthIndexOrder | app/actions.ts:374-383 | a later month is a later instant |
| Calendar.AddMonthsIsLater | app/actions.ts:379-383 | adding at least one month moves strictly forward |
| Calendar.BeforeTransitive | app/actions.ts:374 | the order on instants is transitive |
| Calendar.AddMonthsClampsToMonthEnd | app/actions.ts:379-383 | 31 January 2024 plus a month is 29 February 2024, 15 January plus a month is 15 February, and 29 February 2024 plus a year is 28 February 2025 |
| Records.FirstIndex | lib/services/petService.ts:69 | the index found is the first element satisfying the test; none is found only when no element does |
| Records.StoredRemark | app/actions.ts:213 | the stored remark is present iff a non-empty remark was given, and is then that remark |
| Leveling.Grow | app/actions.ts:241 | the next threshold is the floor of 1.2 times the previous one and is at least as large |
| Leveling.Carry | app/actions.ts:238-242 | after the level-up loop the leftover XP is below the threshold, level and threshold have not decreased, and a progress already below its threshold is unchanged |
| Leveling.GrowN | app/actions.ts:241 | k level-ups never lower the threshold |
| Leveling.CarryConserves | app/actions.ts:238-242 | the XP before the loop is the leftover plus the thresholds of every level gained |
| Leveling.LevelUp | app/actions.ts:238-242 | the `while` loop computes the carried progress |
| Leveling.CarryAdditive | app/actions.ts:231-242 | crediting a + b XP at once or a then b, with the loop after each, ends in the same progress |
| Leveling.CarrySettlesFirst | app/actions.ts:238-242 | running the loop before a credit or only after it makes no difference |
| Leveling.CommitTimes | app/actions.ts:231-242 | n commits one after the other leave the companion settled |
| Leveling.CommitTimesIsOneCredit | app/actions.ts:231-242 | n commits one after the other equal one credit of 10n XP |
| Leveling.OneMoreCommit | app/actions.ts:231-242 | one commit followed by m commits at once equals m + 1 commits at once |
| Leveling.LevelUpExample | app/actions.ts:231-242 | 95 of 100 XP at level 1 plus one commit is 5 of 120 XP at level 2 |
| Leveling.StageFor | app/actions.ts:250-261 | the stage is the family's stage at the level's evolution tier |
| Leveling.EvolutionTier | app/actions.ts:244-248 | the tier is one of four |
| Leveling.StageNeverRegresses | app/actions.ts:250-261 | a higher level never has a lower tier, so the stage never regresses |
| ActionRules.PillarGate | app/actions.ts:97-106 | creation is allowed iff the user is premium, or owns fewer than two pillars and picks neither Dragon nor CrystalTree; otherwise the free-limit error comes first and the premium-companion error second |
| ActionRules.CompanionFor | app/actions.ts:108-121 | Sunflower and CrystalTree are plants and the rest animals; Dragon and CrystalTree are legendary and the rest common; the stage is the first stage of the family |
| ActionRules.CreationStageMatchesLevel | app/actions.ts:110-115 | the creation stage is the stage the commit path gives every level below 10 |
| ActionRules.BlankNameIgnored | app/actions.ts:121 | a custom name of white space only gives the default name |
| ActionRules.CustomNameTrimmed | app/actions.ts:121 | any other custom name is used trimmed, and is non-empty |
| ActionRules.Sanitized | app/actions.ts:456-460 | the name is cut to its first 100 characters, a known frequency is kept and any other becomes daily |
| ActionRules.SanitizeAll | app/actions.ts:456-460 | one sanitised habit per input, in order |
| ActionRules.SanitizeIdempotent | app/actions.ts:456-460 | sanitising twice is sanitising once |
| ActionRules.NewSubscriptionEnd | app/actions.ts:373-383 | the new end is 12 months after the base for "annually" and one month after it for any other plan; the base is the current end when it lies in the future, else now; the new end keeps the base's day (clamped to the month's last day) and time of day |
| ActionRules.PurchaseExtends | app/actions.ts:373-383 | the new end is after now and after the old end |
| Database.HabitIndex | app/actions.ts:194-199 | the index found holds the habit; none is found only when no habit has the id |
| Database.PillarIndex | app/actions.ts:153-158 | the index found holds the pillar; none is found only when no pillar has the id |
| Database.PillarCount | app/actions.ts:97 | the count of a user's pillars is at most the number of pillars |
| Database.Committed | app/actions.ts:207-215 | a commit keeps the habit's identity, raises the streak by one, marks it done at `now`, stores the remark or null, and the habit then reads as completed |
| Database.OneTimeCommitsOnce | app/actions.ts:202-204 | right after a commit the one-time guard blocks the habit iff it is one-time |
| Database.RepeatedCommitsCountTwice | app/actions.ts:207-215 | daily and weekly habits have no guard: two commits raise the streak by two |
| Database.Credited | app/actions.ts:228-271 | a commit gives the companion 10 XP with level-ups, changes only xp, level, threshold and stage, keeps its invariant and sets the stage of the new level |
| Database.CreditCompanion | app/actions.ts:231-271 | the imperative update computes the credited companion |
| Database.CreditedStageNeverRegresses | app/actions.ts:244-261 | a commit never lowers the companion's evolution tier |
| Database.NewPet | app/actions.ts:108-137 | the new companion carries the chosen species and colour and the name, type and rarity the species calls for; it starts at level 1 with 0 of 100 XP (assumed defaults, see Left out), in the stage its level calls for |
| Database.ImportedRows | app/actions.ts:456-464 | one new row per imported habit, with the assigned id, the pillar, the name and frequency, no streak and no completion |
| Database.WithCompletion | app/actions.ts:39-62 | each habit read back has its completion flag replaced by the computed rule, nothing else changed |
| Database.CommittedReadsAsCompleted | app/actions.ts:39-62 | a habit read right after a commit shows as completed, and a habit never completed never does, whatever the stored flag |
| Database.PillarsOf | app/actions.ts:25-29 | exactly the user's pillars, as many as the user's pillar count |
| Database.HabitsOfUser | app/actions.ts:32-36 | exactly the habits of pillars the user owns |
| Database.HabitsOfPillar | app/actions.ts:160-163 | exactly the habits of the pillar |
| Database.PillarsOfAppend | app/actions.ts:25-29 | the user's pillars keep the table's creation order: the query distributes over concatenation |
| Database.NewestPillarListedLast | app/actions.ts:25-29 | a pillar created last is listed last among its owner's pillars |
| Database.HabitsOfUserAppend | app/actions.ts:32-36 | the user's habits keep the table's creation order |
| Database.HabitsOfPillarAppend | app/actions.ts:160-163 | a pillar's habits keep the table's creation order |
| Database.CompanionOf | app/actions.ts:27 | a pillar's companion is present exactly when the pillar has one, and is that companion |
| Database.CompanionsOf | app/actions.ts:25-29 | one companion slot per pillar, in the pillars' order |
| Database.FlippedRole | app/actions.ts:321 | the new role is ADMIN iff the old one was not |
| Database.FlippedRoleTwice | app/actions.ts:321 | toggling a well-formed role twice restores it |
| Database.Db.CommitHabit | app/actions.ts:191-284 | an unknown habit fails with "Habit not found" and changes nothing; a completed one-time habit is returned unchanged with no write; a habit whose pillar row is missing fails with the null-reference error of `habit.pillar.pet` and changes nothing; otherwise the writes of a commit happen and the updated habit is returned |
| Database.Db.WriteCommit | app/actions.ts:207-278 | the habit is committed, the companion of its pillar (if any) credited, one log entry appended when the log table exists, the pillar's commit count raised by one; users and payments unchanged |
| Database.Db.CreatePillar | app/actions.ts:88-145 | no session fails with "Unauthorized"; a closed gate fails with its message; otherwise the pillar is appended, with no commits counted (an assumed default, see Left out), together with its new companion, and nothing else changes |
| Database.Db.BulkImportHabits | app/actions.ts:434-468 | no session, no premium or a pillar not owned fail with their messages and change nothing; otherwise the sanitised rows are appended and the count of inputs is returned |
| Database.Db.CompletePurchase | app/actions.ts:354-397 | the payment is recorded; the user becomes premium until the new end, or the update fails on a missing user and the payment stays |
| Database.Db.DeleteUser | app/actions.ts:288-303 | only an admin may delete, never themselves; a missing user fails; the user row is removed and no other table changes (the referential action is under Left out) |
| Database.Db.ToggleRole | app/actions.ts:305-327 | only an admin may toggle, never on themselves; a missing user fails; the role flips and nothing else changes |
| Database.Db.TogglePremium | app/actions.ts:329-352 | only an admin may toggle, themselves included; a missing user fails; the premium flag flips and nothing else changes |
| Database.Db.DashboardData | app/actions.ts:11-71 | a visitor gets empty lists and the default title; a user gets their pillars (the query's rows, in creation order) each with its companion, their habits in creation order with completion recomputed, and their garden title when it is a non-empty string, otherwise "Your Gardens" |
| Database.Db.GetPillarDetails | app/actions.ts:149-181 | no session fails with "Unauthorized", an unknown pillar with "Pillar not found"; otherwise it succeeds with the pillar of that id, its companion when it has one, and exactly the pillar's habits in creation order with completion recomputed |
| PetService.NextThreshold | lib/services/petService.ts:45 | reaching level L gives the table's entry for L in 1..10 and 500 more than before otherwise, always positive |
| PetService.Carry | lib/services/petService.ts:42-46 | after the loop the leftover is below a positive threshold and non-negative when the XP was, the level has not decreased, and the progress is unchanged iff no level is gained |
| PetService.ThresholdAfter | lib/services/petService.ts:42-46 | after k level-ups the threshold is the table's entry for a level in 1..10 and 500 more per level past the table, always positive |
| PetService.CarryThreshold | lib/services/petService.ts:42-46 | the threshold the loop ends with is the one reached through the levels gained |
| PetService.LevelUps | lib/services/petService.ts:42-46 | the `while` loop computes the carried progress |
| PetService.CarryConserves | lib/services/petService.ts:42-46 | the XP before the loop is the leftover plus the thresholds of every level gained |
| PetService.StageAfter | lib/services/petService.ts:49-53 | with no entry at or below the level the input stage is kept |
| PetService.StageAfterIsLast | lib/services/petService.ts:49-53 | otherwise the stage is that of the last entry at or below the level |
| PetService.Added | lib/services/petService.ts:35-62 | the new pet keeps a positive threshold |
| PetService.AddXP | lib/services/petService.ts:35-62 | 25 XP per commit, the level-up loop and the stage walk; only xp, level, threshold and stage change; the leftover ends below the threshold and the level never decreases |
| PetService.GetXPPerCommit | lib/services/petService.ts:65 | the XP per commit is positive and is what one commit adds to a pet below its threshold |
| PetService.StageTableOrdered | lib/services/petService.ts:21-28 | stage levels strictly increase and stage names are distinct |
| PetService.StageAtLevel | lib/services/petService.ts:49-53 | a level between entry k and entry k + 1 has the stage of entry k |
| PetService.StageTableBounds | lib/services/petService.ts:21-28 | every level from 12 on is adult; below level 1 the input stage is kept |
| PetService.StageMonotone | lib/services/petService.ts:49-53 | a higher level never has an earlier entry's stage |
| PetService.StageAfterAbsorbs | lib/services/petService.ts:49-53 | walking the table again at a higher level forgets the earlier walk |
| PetService.CarryAdditive | lib/services/petService.ts:36-46 | crediting a + b XP at once or a then b ends in the same progress |
| PetService.CarrySettlesFirst | lib/services/petService.ts:42-46 | running the loop before a credit or only after it makes no difference |
| PetService.AddedOneByOne | lib/services/petService.ts:35-62 | n single-commit calls keep a positive threshold |
| PetService.AddedIsCarry | lib/services/petService.ts:35-62 | a call is a credit of 25 XP per commit, the loop and the stage walk, changing nothing else |
| PetService.SplitFirstCommit | lib/services/petService.ts:35-62 | one commit then m commits equals m + 1 commits |
| PetService.OneMoreCredit | lib/services/petService.ts:36-46 | one credit of 25 XP and the loop, then 25m more, equals 25(m + 1) at once |
| PetService.CommitsAreAdditive | lib/services/petService.ts:35-62 | n calls with one commit each equal one call with n commits |
| PetService.StageIndex | lib/services/petService.ts:69 | the index found holds the stage; none is found only when no entry has it |
| PetService.GetNextEvolution | lib/services/petService.ts:68-76 | nothing at adult; the first entry for a stage not in the table; otherwise the next entry and the levels left to reach it |
| PetService.NextEvolutionIsReached | lib/services/petService.ts:68-76 | for a pet in the stage its level calls for, the announced stage is reached after exactly `levelsAway` more levels and not before |
| PetService.NextEvolutionFromEntry | lib/services/petService.ts:68-76 | the same, for a pet at a given entry below the last |
| Streaks.InsertDescending | lib/api.ts:308-311 | inserting keeps the days strictly descending and adds exactly the new day |
| Streaks.UniqueDescending | lib/api.ts:308-311 | the unique days, strictly descending, are exactly the days given |
| Streaks.RunEndingAt | lib/api.ts:336-353 | the run ending at a position has length between 1 and the position |
| Streaks.RunEndingAtIsMaximal | lib/api.ts:336-353 | it is a run of days one apart and no run ending there is longer |
| Streaks.LongestRun | lib/api.ts:336-353 | the longest run is at most the number of days and at least 1 when there is a day |
| Streaks.LongestRunIsLongest | lib/api.ts:336-353 | no run is longer and some run is that long |
| Streaks.StreakData | lib/api.ts:299-355 | current is the longest prefix of the unique descending days equal to today, yesterday, ...; best is the longest run |
| Streaks.CurrentStreak | lib/api.ts:321-333 | the first `current` days are today, yesterday, ... and the next one breaks the chain |
| Streaks.BestStreak | lib/api.ts:336-353 | the loop computes the longest run |
| Streaks.CurrentAtMostBest | lib/api.ts:320-355 | current ≤ best ≤ number of unique days, and best is 0 iff there are no days |
| Streaks.StreakExamples | lib/api.ts:313-355 | no days give no streak; the same day twice counts once; one day gives a best of one |
| Streaks.Count | lib/api.ts:247-257 | a key's count is at most the number of rows and is 0 iff the key is absent |
| Streaks.DateKeys | lib/api.ts:249-252 | each row's key is its date up to the first "T" |
| Streaks.Tally | lib/api.ts:247-257 | the reduce lists each key once with its number of rows, the keys in order of their first appearance |
| Streaks.Record | lib/api.ts:253 | one step raises a seen key's count or lists a new key with count one |
| Streaks.GroupByDate | lib/api.ts:246-259 | the entries have distinct dates, each a row's date, in order of first appearance; each count is the number of rows with that date and positive; every row's date has an entry; the counts add up to the number of rows |
| Streaks.GroupedEntries | lib/api.ts:259 | the entries listed from a finished grouping have those properties and keep its order |
| Streaks.GroupedStep | lib/api.ts:253 | one step of the reduce keeps the grouping |
| Streaks.FirstIndexOf | lib/api.ts:247-257 | the first position at which a key occurs |
| Streaks.OrderStep | lib/api.ts:248-255 | one step of the reduce keeps the listed keys in order of first appearance, a new key going last |
| Streaks.TotalIsSumCounts | lib/api.ts:259 | the listed entries sum to the tallied counts |
| PetSprite.MentionsAnyIff | components/ui/PetSprite.tsx:47-55 | a keyword group is mentioned iff one of its keywords occurs |
| PetSprite.CanonicalStage | components/ui/PetSprite.tsx:41-55 | on the lowercased stage: ancient if an ancient keyword occurs, else adult, else baby, else egg, else baby |
| PetSprite.AncientKeywordWins | components/ui/PetSprite.tsx:47-48 | any ancient keyword, in any letter case, makes the stage ancient whatever else it says |
| PetSprite.CanonicalStageIgnoresCase | components/ui/PetSprite.tsx:41 | a stage and its lowercase form give the same canonical stage |
| PetSprite.SeedIsEgg | components/ui/PetSprite.tsx:53-54 | "seed" is drawn as an egg |
| PetSprite.SproutIsBaby | components/ui/PetSprite.tsx:51-52 | "sprout" is drawn as a baby |
| PetSprite.BloomIsAdult | components/ui/PetSprite.tsx:49-50 | "bloom" is drawn as an adult |
| PetSprite.SpeciesNamed | components/ui/PetSprite.tsx:58 | the three named species keep their table, a name inherited from `Object.prototype` finds that inherited member, and every other name gets the Chicken table |
| PetSprite.Entry | components/ui/PetSprite.tsx:61 | a present, non-empty entry is used, else the fallback |
| PetSprite.TablesComplete | components/ui/PetSprite.tsx:13-38 | every species table has a file for each canonical stage |
| PetSprite.ImageFromTable | components/ui/PetSprite.tsx:58-61 | for any name that is not an inherited property the file comes from the species table at the canonical stage, never from a fallback |
| PetSprite.UnknownSpeciesIsChicken | components/ui/PetSprite.tsx:58 | an unknown species that is not an inherited property name is drawn as a Chicken |
| PetSprite.InheritedNameIsLastResort | components/ui/PetSprite.tsx:58-61 | an inherited name such as "constructor" finds no stage file, so the last-resort image is drawn at every stage, unlike a Chicken outside the baby stage |
| PetSprite.SunflowerSeedImage | components/ui/PetSprite.tsx:20-25 | a Sunflower seed gets the seed image |
| PetSprite.SunflowerSproutImage | components/ui/PetSprite.tsx:20-25 | a Sunflower sprout gets the sprout image |
| PetSprite.SunflowerBloomImage | components/ui/PetSprite.tsx:20-25 | a Sunflower bloom gets the bloom image |
| AppStore.PillarRow | stores/app-store.ts:101-116 | the created pillar has the stamp's id, owner and creation time and the supplied name and icon |
| AppStore.HabitRow | stores/app-store.ts:161-179 | the created habit has the stamp's id and creation time and the supplied pillar, name, frequency type, target per period and metric type |
| AppStore.ActionRow | stores/app-store.ts:220-234 | the created action has the stamp's id, owner and creation time and the supplied habit and date |
| AppStore.FailureMessage | stores/app-store.ts:109-115 | the error's own message when it has one, else the action's fallback text |
| AppStore.PillarsWithout | stores/app-store.ts:143-148 | exactly the pillars without the id remain |
| AppStore.PillarsMerged | stores/app-store.ts:121-130 | each pillar with the id becomes the returned row, habits kept; the others are unchanged |
| AppStore.HabitAdded | stores/app-store.ts:164-171 | the habit is appended to each pillar with the request's pillar id; pillars and other habit lists are unchanged |
| AppStore.Replaced | stores/app-store.ts:184-190 | each habit with the id becomes the returned row, the others stay |
| AppStore.HabitsReplaced | stores/app-store.ts:184-190 | the replacement happens in every pillar, and no pillar is added or lost |
| AppStore.HabitsWithout | stores/app-store.ts:203-209 | every habit with the id is dropped from every pillar, and no pillar is lost |
| AppStore.ActionsWithout | stores/app-store.ts:240-246 | exactly the actions not matching both habit and date remain |
| AppStore.DeletePillarUndoesAdd | stores/app-store.ts:101-156 | deleting a pillar just added with a fresh id restores the list |
| AppStore.DeletePillarKeepsOrder | stores/app-store.ts:143-148 | deleting a pillar joins the pillars before and after it, in order |
| AppStore.MergeOfAbsentIdIsIdentity | stores/app-store.ts:121-130 | merging into an absent id changes nothing |
| AppStore.HabitAddedCount | stores/app-store.ts:164-171 | the habit count grows by the number of pillars with the id |
| AppStore.AddHabitAddsOne | stores/app-store.ts:164-171 | with unique pillar ids and a loaded pillar, the habit count grows by exactly one |
| AppStore.UniqueMatchOnce | stores/app-store.ts:164-171 | with unique ids a present id matches exactly one pillar |
| AppStore.UpdateHabitIdempotent | stores/app-store.ts:184-190 | replacing twice with the same row is replacing once |
| AppStore.HabitEditsKeepPillars | stores/app-store.ts:184-209 | updating or deleting a habit keeps every pillar in order, and updating keeps the habit count |
| AppStore.ReplacedKeepsCount | stores/app-store.ts:184-190 | replacing keeps the habit count |
| AppStore.DeleteHabitRemovesAll | stores/app-store.ts:203-209 | after deletion no pillar has a habit with the id |
| AppStore.DeleteHabitUndoesAdd | stores/app-store.ts:161-217 | deleting a habit just added with a fresh id restores the lists |
| AppStore.RemoveActionUndoesAdd | stores/app-store.ts:220-254 | removing after adding an action for a habit and date removes it again, restoring the list when nothing else matched |
| AppStore.RemoveActionKeepsOrder | stores/app-store.ts:240-246 | removal distributes over any split of the list, so the rest keep their order |
| AppStore.Store.constructor | stores/app-store.ts:43-50 | the store starts empty, not loading and without an error |
| AppStore.Store.LoadPillars | stores/app-store.ts:53-64 | success replaces the pillars; failure records the error and keeps them; loading ends false either way |
| AppStore.Store.LoadTodayActions | stores/app-store.ts:66-79 | success replaces today's actions; failure records the error and keeps them |
| AppStore.Store.AddPillar | stores/app-store.ts:101-116 | success appends the created pillar with no habits; failure records the error, keeps the lists and rethrows |
| AppStore.Store.UpdatePillar | stores/app-store.ts:118-138 | success merges the row into the pillars and into the selection when it has the id; failure records the error and rethrows |
| AppStore.Store.DeletePillar | stores/app-store.ts:140-156 | success drops the pillars with the id and clears the selection only when it had the id; failure records the error and rethrows |
| AppStore.Store.SetSelectedPillar | stores/app-store.ts:158 | only the selection changes |
| AppStore.Store.AddHabit | stores/app-store.ts:161-179 | success appends the habit to its pillar; failure records the error and rethrows |
| AppStore.Store.UpdateHabit | stores/app-store.ts:181-198 | success replaces the habit everywhere; failure records the error and rethrows |
| AppStore.Store.DeleteHabit | stores/app-store.ts:200-217 | success drops the habit everywhere; failure records the error and rethrows |
| AppStore.Store.AddAction | stores/app-store.ts:220-234 | success appends the created action; failure records the error and rethrows |
| AppStore.Store.RemoveAction | stores/app-store.ts:236-254 | success drops the actions of that habit and date; failure records the error and rethrows |
| AppStore.Store.SetLoading | stores/app-store.ts:257 | only the loading flag changes |
| AppStore.Store.SetError | stores/app-store.ts:258 | only the error changes |
| AppStore.Store.ClearError | stores/app-store.ts:259 | the error is cleared and nothing else changes |
| CommitHeatmap.DaysToShow | components/CommitHeatmap.tsx:22 | a positive number of days: 30 for the month, 365 for the year |
| CommitHeatmap.Level | components/CommitHeatmap.tsx:30-36 | the level lies in 0..4 and is 0 iff there are no commits |
| CommitHeatmap.LevelCountsThresholds | components/CommitHeatmap.tsx:30-36 | the level is the number of the thresholds 1, 3, 5 and 8 the count reaches |
| CommitHeatmap.LevelMonotone | components/CommitHeatmap.tsx:30-36 | more commits never give a lower level |
| CommitHeatmap.CellColor | components/CommitHeatmap.tsx:50-59 | the colour is the legend's colour of the level, and a legend colour in every case |
| CommitHeatmap.CellColorsDistinct | components/CommitHeatmap.tsx:51-57 | different levels get different colours |
| CommitHeatmap.OutOfRangeLevelIsBlank | components/CommitHeatmap.tsx:58 | a level outside the legend gets the level-0 colour |
| CommitHeatmap.BlankIffNoCommits | components/CommitHeatmap.tsx:30-59 | a cell has the no-activity colour iff its day has no commits |
| CommitHeatmap.GenerateHeatmapData | components/CommitHeatmap.tsx:19-46 | one cell per day shown, the k-th for today minus the days after it, with its count and level |
| CommitHeatmap.GeneratedDaysEndToday | components/CommitHeatmap.tsx:22-43 | the days ascend one by one to today, from 29 days back for the month and 364 for the year |
| CommitHeatmap.GroupDataByWeeks | components/CommitHeatmap.tsx:61-83 | the weeks joined give back the days; no days give no weeks; no week is empty and every week after the first starts on a Sunday with no other Sunday in it |
| CommitHeatmap.WeeksMeaning | components/CommitHeatmap.tsx:61-83 | the grouping function has those properties |
| CommitHeatmap.GroupStateInvariant | components/CommitHeatmap.tsx:65-80 | the loop state after any prefix of the days is a grouping of that prefix |
| CommitHeatmap.SplitIsUnique | components/CommitHeatmap.tsx:65-79 | only one split of a day list has those properties |
| CommitHeatmap.StreakDays | components/CommitHeatmap.tsx:87 | the active days are at most all days |
| CommitHeatmap.StreakDaysBoundedByCommits | components/CommitHeatmap.tsx:86-87 | there are no more active days than commits, and no active day iff no commit |
| CommitHeatmap.WeekTotals | components/CommitHeatmap.tsx:85-86 | the week totals add up to the total of the days |
| CommitHeatmap.TotalOfAppend | components/CommitHeatmap.tsx:86 | the commit total of two day lists joined is the sum of their totals |
| Analytics.Last30Days | components/ui/AnalyticsModal.tsx:60-64 | exactly 30 day keys |
| Analytics.Last30DaysSpan | components/ui/AnalyticsModal.tsx:60-64 | the keys ascend one day at a time and end today: exactly the days from 29 days ago to today |
| Analytics.DailyCounts | components/ui/AnalyticsModal.tsx:67-71 | the reduce builds the lookup of each statistic written over the earlier ones |
| Analytics.LaterStatWins | components/ui/AnalyticsModal.tsx:67-71 | a day has an entry iff some statistic falls on it, and the entry is the last such statistic's count |
| Analytics.CellCount | components/ui/AnalyticsModal.tsx:120 | a day without an entry shows 0 |
| Analytics.GridCounts | components/ui/AnalyticsModal.tsx:119-120 | one count per grid day |
| Analytics.GridShowsLastCount | components/ui/AnalyticsModal.tsx:119-120 | a day without statistics shows 0, a day with some shows the last one's count |
| Analytics.ProgressionData | components/ui/AnalyticsModal.tsx:74-81 | one point per statistic, in order, whose XP is 10 times the commits up to and including it |
| Analytics.SumCountsGrows | components/ui/AnalyticsModal.tsx:74-77 | with non-negative counts a longer prefix never sums lower |
| Analytics.ProgressionNeverFalls | components/ui/AnalyticsModal.tsx:74-81 | with non-negative counts the chart never falls and ends at 10 times all commits |
| Analytics.PremiumRefusalAsksForUpgrade | components/ui/AnalyticsModal.tsx:36-37 | the server's premium refusal shows the upgrade message |
| Analytics.OtherRefusalsFail | components/ui/AnalyticsModal.tsx:38-39 | the unauthorised and missing-garden refusals show the plain failure message |
| ProfilePage.HighestLevel | app/profile/page.tsx:15-25 | the highest level is never negative |
| ProfilePage.HighestLevelIsMaximum | app/profile/page.tsx:22-23 | it bounds every companion's level and, when positive, is some companion's level |
| ProfilePage.BestPetIsFirstAtHighest | app/profile/page.tsx:16-25 | no best companion iff the highest level is 0; otherwise the first companion at the highest level |
| ProfilePage.CalculateTotalStats | app/profile/page.tsx:12-30 | the loop returns the commit sum, the XP estimate, the highest level and the best companion |
| ProfilePage.TotalsOfAppend | app/profile/page.tsx:18-21 | every pillar adds its commits; only a companion adds xp + 100 × level |
| HabitsModal.TaggedOf | components/HabitsModal.tsx:97-102 | each of a pillar's habits, in order, tagged with the pillar's name, icon and id |
| HabitsModal.AllHabits | components/HabitsModal.tsx:96-103 | as many entries as habits over all pillars |
| HabitsModal.AllHabitsAppend | components/HabitsModal.tsx:96-103 | the flatMap goes pillar by pillar: the habits of earlier pillars come first, in order |
| HabitsModal.AllHabitsMembers | components/HabitsModal.tsx:96-103 | a tagged habit is listed iff it is a pillar's habit carrying that pillar's tags |
| HabitsModal.FilteredHabits | components/HabitsModal.tsx:111-124 | exactly the habits passing the filter and the search, no more than all |
| HabitsModal.FilteredKeepsOrder | components/HabitsModal.tsx:111-124 | filtering distributes over any split, so the order is kept |
| HabitsModal.AllFilterShowsEverything | components/HabitsModal.tsx:112-119 | the "all" filter with an empty search shows every habit |
| HabitsModal.CompletedPendingPartition | components/HabitsModal.tsx:115-116 | with an empty search, "completed" and "pending" split all habits into two disjoint lists |
| HabitsModal.SearchIgnoresCase | components/HabitsModal.tsx:118-121 | a query and its lowercase form find the same habits |
| HabitsModal.CompletedCount | components/HabitsModal.tsx:148-150 | the completed count is at most the number of habits |
| HabitsModal.ToggleHabit | components/HabitsModal.tsx:126-146 | a completed habit's actions for today are removed; an open one gets one action dated today; a failure leaves the actions as they were and sets the store error to the failure message, a success clears it |
| HabitsModal.TickCompletes | components/HabitsModal.tsx:106-108 | after the added action the habit is completed |
| HabitsModal.UntickClears | components/HabitsModal.tsx:106-108 | when all of a habit's actions are dated today, removing them leaves it open |
| TodaysHabits.TotalUnfinished | components/TodaysHabits.tsx:127-129 | the unfinished count is at most the number of habits |
| TodaysHabits.UnfinishedHabits | components/TodaysHabits.tsx:123-125 | at most three habits are listed |
| TodaysHabits.UnfinishedAreFirstPending | components/TodaysHabits.tsx:123-125 | the listed habits are the first open ones in order, as many as there are up to three |
| TodaysHabits.CountsAddUp | components/TodaysHabits.tsx:118-129 | completed plus unfinished is the number of habits |
| TodaysHabits.SeeAllIffSomethingHidden | components/TodaysHabits.tsx:185 | "See All" appears iff the card leaves some habit out |
| TodaysHabits.BannerIffAllDone | components/TodaysHabits.tsx:205 | the banner appears iff there are habits and all are completed today |
| TodaysHabits.HandleCommitHabit | components/TodaysHabits.tsx:99-116 | one action for the habit is appended and the habit is then completed; a failure changes no action and sets the store error to the failure message, a success clears it |
| TodaysHabits.PressCommit | components/TodaysHabits.tsx:25-37 | pressing a completed habit changes nothing; otherwise it commits: success appends the action, failure keeps the actions, the error is set or cleared accordingly, and pillars, selection and loading stay |
| HomePage.TodaysChores | app/page.tsx:19 | exactly the daily habits not completed |
| HomePage.WeeklyChores | app/page.tsx:20 | exactly the weekly habits not completed |
| HomePage.ChoreListsAreDisjoint | app/page.tsx:19-20 | the lists are disjoint, other frequencies appear in neither, and together they are no longer than the habits |
| HomePage.ChoreCounts | app/page.tsx:19-20 | the two chore lists together are no longer than the habits |
| HomePage.ChoresKeepOrder | app/page.tsx:19-20 | both lists distribute over any split, so they keep the habits' order |
| HomePage.CommittedHabitLeavesChores | app/page.tsx:19-20 | a habit committed now appears in neither list |
| StreakCard.StreakColor | components/StreakCard.tsx:13-18 | yellow iff ≥ 30, green iff 14..29, blue iff 7..13, gray iff below 7 |
| StreakCard.StreakEmoji | components/StreakCard.tsx:20-25 | fire iff ≥ 30, star iff 14..29, muscle iff 7..13, seedling iff below 7 |
| StreakCard.Tier | components/StreakCard.tsx:13-25 | the tier is one of four |
| StreakCard.ColourAndEmojiShareTier | components/StreakCard.tsx:13-25 | colour and emoji are chosen by the same tier, and a longer streak never has a lower tier |
| StreakCard.DayLabel | components/StreakCard.tsx:41 | "day" iff the streak is 1, else "days" |
| BulkImportModal.Or | components/ui/BulkImportModal.tsx:56-57 | the first cell when it holds text, else the second |
| BulkImportModal.HasNameIff | components/ui/BulkImportModal.tsx:56 | a row has a name iff one of Name, name and Task Name holds text, taken in that order |
| BulkImportModal.RowFrequency | components/ui/BulkImportModal.tsx:57-63 | the frequency is always daily, weekly or onetime |
| BulkImportModal.RowFrequencyRule | components/ui/BulkImportModal.tsx:57-63 | a known frequency in any letter case is kept lowercased; a missing or unknown one becomes daily |
| BulkImportModal.TransformFrom | components/ui/BulkImportModal.tsx:55-66 | a successful transform has one habit per row |
| BulkImportModal.MissingNameErrorText | components/ui/BulkImportModal.tsx:59 | the first row's error reads "Row 1: Missing Name" and the twelfth's "Row 12: Missing Name" |
| BulkImportModal.TransformFromMeaning | components/ui/BulkImportModal.tsx:55-66 | the transform succeeds iff every row has a name, giving each row's habit in order; otherwise it fails with "Row n: Missing Name" for the first row without one |
| BulkImportModal.ServerKeepsUploadedFrequencies | components/ui/BulkImportModal.tsx:62-63 | every frequency the upload sends is kept by the server's sanitising |
| BulkImportModal.HandleUpload | components/ui/BulkImportModal.tsx:40-84 | a row without a name aborts with its error before the server is called; otherwise the server's outcome is logged, and on success the sanitised habits are appended and every other table stays as it was |
| Text.LowerChar | components/ui/PetSprite.tsx:41 | ASCII capitals map to small letters, everything else is kept |
| Text.Lower | components/ui/PetSprite.tsx:41 | lowercasing keeps the length |
| Text.LowerIdempotent | components/HabitsModal.tsx:120 | lowercasing twice is lowercasing once |
| Text.Contains | components/HabitsModal.tsx:120 | a text contains another iff it occurs at some position |
| Text.TrimEmptyIffBlank | app/actions.ts:121 | trimming gives the empty text iff the text is all white space |
| Text.TrimIsTrimmed | app/actions.ts:121 | a trimmed text neither starts nor ends with white space |
| Text.TrimStart | app/actions.ts:121 | a suffix of the text, only white space dropped (the ECMAScript white space and line terminators), not starting with white space |
| Text.TrimEnd | app/actions.ts:121 | a prefix of the text, only white space dropped (the ECMAScript white space and line terminators), not ending with white space |
| Text.TrimKeepsTrimmed | app/actions.ts:121 | trimming a trimmed text leaves it unchanged |
| Text.IdeographicSpaceIsBlank | app/actions.ts:121 | an ideographic space alone trims to the empty text |
| Text.Take | app/actions.ts:458 | at most n characters, a prefix, the whole text when it is short enough |
| Text.BeforeFirst | lib/api.ts:251 | the text before the first separator, all of it when there is none |
| Text.BeforeFirstIdempotent | lib/api.ts:251 | cutting twice is cutting once |
| Text.NatToString | components/ui/BulkImportModal.tsx:59 | decimal digits that read back as the number |
| Text.NatToStringCanonical | components/ui/BulkImportModal.tsx:59 | the rendering is canonical: a single digit exactly below 10, and no leading zero |
| Text.NatToStringRoundTrip | components/ui/BulkImportModal.tsx:59 | reading the digits back gives the number |
| Lists.Filter | app/page.tsx:19-20 | exactly the kept elements, no more than the list |
| Lists.FilterAppend | app/page.tsx:19-20 | filtering distributes over concatenation |
| Lists.FilterIdempotent | app/page.tsx:19-20 | filtering twice with the same test is filtering once |
| Lists.FilterSplits | components/TodaysHabits.tsx:118-129 | a test and its negation split the list's length |

## Left out

- Persistence and framework calls (Prisma, Supabase, the session lookup, path revalidation) are not modelled. The tables are fields of `Database.Db`, the session is a parameter, and the transaction's isolation is reduced to "the action completes or changes nothing".
- Concurrency is not modelled: two commits racing on one companion, an un-awaited `addAction`, and `setTimeout` delays.
- `refreshData` of the store is not modelled. It only runs `loadPillars` and `loadTodayActions` in sequence, and both are modelled.
- `getAdminData`, `updateGardenTitle`, `createHabit` and the Supabase query parts of `lib/api.ts` are not modelled. They are reads or single writes with no rule of their own.
- The raw SQL analytics query is not modelled. Its time-zone bucketing runs in the database; its statistics are the input of module `Analytics`.
- Time zones, daylight saving and local time are not modelled. `toISOString`, `toLocaleDateString`, `setHours`, `setDate` and `getTimezoneOffset` all become UTC day numbers, dates written as YYYY-MM-DD become day numbers, and `today` is a parameter.
- Streaks.StreakData: the in-place `setHours(0, 0, 0, 0)` of the current-streak loop (lib/api.ts:322-323) is not modelled. It changes the Date objects that the best-streak loop then reads (lib/api.ts:336-353). Days are UTC day numbers here, so the model is the source on a device that runs in UTC. Elsewhere the best-streak loop can see a 23-hour or 25-hour gap and split a run: with actions on 30 March, 31 March and 1 April 2024 in Europe/Berlin, the source gives current 3 and best 2.
- Streaks.BestStreak: equals `LongestRun` only on a UTC device, for the reason above.
- Streaks.CurrentAtMostBest: holds only on a UTC device, for the reason above; the source can report a current streak above the best one.
- Calendar.AddMonths: date-fns month addition is modelled on the proleptic Gregorian calendar in UTC; date-fns works in local time.
- Leveling.Grow: the double multiplication `Math.floor(x * 1.2)` is the integer `(6 * x) / 5`, which can differ from JavaScript for very large thresholds.
- The floating-point opacity of the analytics grid, the progress percentages and `parseFloat` of the payment amount are not modelled.
- Text.Lower: only ASCII letters are lowercased; JavaScript's `toLowerCase` also folds other scripts.
- Randomness is not modelled: the heatmap's random counts are a parameter, and random action ids are left out.
- Client-made fields are not modelled: `client_action_id`, the temporary id, `created_at` and action notes and values. The action row keeps the habit, the date and the stamp the API returns.
- BulkImportModal.HandleUpload: reading the spreadsheet file is left out. Cells are modelled as optional texts, so a numeric cell's `toLowerCase` failure is not modelled, nor are the `loading` flag and the missing-file guard.
- TodaysHabits.PressCommit: the `isCommitting` spinner state is not modelled.
- The heatmap's week-column rendering, and the lookup of a cell for each column position, are presentation and are not modelled.
- `getPillarDetails` has no ownership check in the code, and the model keeps it that way.
- `completePurchase` writes the payment and the user in two separate steps. The model keeps the payment when the user row is missing, and assumes no foreign-key check on the payment's user: with one, the payment of a missing user would be refused before anything is written.
- Database.NewPet: the starting level 1, XP 0 and threshold 100 are assumed column defaults, because `createPillar` leaves them to the database schema, which is not part of this model. The level-up loop ends only because the threshold is positive.
- New pillar rows start with `totalCommits` 0: an assumed column default, because `createPillar` does not set it and `commitHabit` only increments it.
- New habit rows (bulk import) start with streak 0, not completed, with no completion time and no remark: assumed column defaults, for the same reason.
- Creation order: the tables are sequences whose order stands for `createdAt` order; the timestamps themselves are not modelled, so `orderBy: { createdAt: "asc" }` is the table order.
- Database.Db.DashboardData: each habit's attached pillar (`include: { pillar: true }`) is not carried; it is the row of `pillars` with the habit's `pillarId`.
- Database.Db.DeleteUser: the referential action of the schema is not modelled, because the schema is not part of this model. The model removes only the user row; a cascading delete would also remove the user's pillars, companions and habits, and a restricting one would refuse the delete.
- Text.Take: `slice(0, n)` counts UTF-16 code units and the model counts Unicode characters, so a name with characters outside the Basic Multilingual Plane, such as emoji, keeps more of them in the model. Cutting a surrogate pair in half cannot be expressed on Dafny strings.
- ActionRules.Sanitized: the 100-character cut inherits the UTF-16 gap of Text.Take.
- Payments (Stripe, PayPal, webhooks), authentication screens and the presentation components named by neither of the modules above are outside this model.

=== FILE: actions_completion.dfy ===
/**
 * Whether a habit counts as done for its current period, as `getDashboardData`
 * and `getPillarDetails` in `app/actions.ts` compute it when they read habits.
 */
module Completion {
  import opened Wrappers
  import opened Calendar

  /**
   * Never completed: not done. A one-time habit, once completed, stays done;
   * a weekly habit is done within the ISO week of its last completion; a
   * daily habit, and a habit of any other frequency, within the same day.
   */
  function IsCompletedForCurrentPeriod(frequency: string, lastCompletedAt: Option<int>, now: int): bool
  {
    match lastCompletedAt
    case None => false
    case Some(last) =>
      if frequency == "daily" then SameDay(last, now)
      else if frequency == "weekly" then SameIsoWeek(last, now)
      else if frequency == "onetime" then true
      else SameDay(last, now)
  }

  /** The rule, stated case by case on the frequency. */
  lemma CompletionRule(frequency: string, lastCompletedAt: Option<int>, now: int)
    ensures lastCompletedAt.None? ==> !IsCompletedForCurrentPeriod(frequency, lastCompletedAt, now)
    ensures lastCompletedAt.Some? && frequency == "onetime" ==>
      IsCompletedForCurrentPeriod(frequency, lastCompletedAt, now)
    ensures lastCompletedAt.Some? && frequency == "weekly" ==>
      (IsCompletedForCurrentPeriod(frequency, lastCompletedAt, now) <==> SameIsoWeek(lastCompletedAt.value, now))
    ensures lastCompletedAt.Some? && frequency != "weekly" && frequency != "onetime" ==>
      (IsCompletedForCurrentPeriod(frequency, lastCompletedAt, now) <==> SameDay(lastCompletedAt.value, now))
  {
  }

  /** Any frequency other than the three named ones behaves exactly like "daily". */
  lemma UnknownFrequencyIsDaily(frequency: string, lastCompletedAt: Option<int>, now: int)
    requires frequency != "daily" && frequency != "weekly" && frequency != "onetime"
    ensures IsCompletedForCurrentPeriod(frequency, lastCompletedAt, now)
         == IsCompletedForCurrentPeriod("daily", lastCompletedAt, now)
  {
  }

  /** A habit committed at `now` is done for its current period at `now`, whatever its frequency. */
  lemma CompletedAtCommitTime(frequency: string, now: int)
    ensures IsCompletedForCurrentPeriod(frequency, Some(now), now)
  {
  }

  /** A daily habit completed yesterday is open again today. */
  lemma DailyResetsNextDay(last: int, now: int)
    requires DayOf(now) == DayOf(last) + 1
    ensures !IsCompletedForCurrentPeriod("daily", Some(last), now)
  {
  }

  /** A weekly habit last completed on a Sunday is open again on the Monday after. */
  lemma WeeklyResetsOnMonday(last: int, now: int)
    requires DayOf(now) == DayOf(last) + 1 && Weekday(DayOf(now)) == 1
    ensures !IsCompletedForCurrentPeriod("weekly", Some(last), now)
  {
    IsoWeekStartsOnMonday(DayOf(last));
  }

  /** A weekly habit completed earlier in the same week, on a day other than Sunday, stays done the next day. */
  lemma WeeklyHoldsWithinWeek(last: int, now: int)
    requires DayOf(now) == DayOf(last) + 1 && Weekday(DayOf(now)) != 1
    ensures IsCompletedForCurrentPeriod("weekly", Some(last), now)
  {
    IsoWeekStartsOnMonday(DayOf(last));
  }

  /** Whatever is done for the day is done for the week. */
  lemma DailyDoneImpliesWeeklyDone(last: int, now: int)
    requires IsCompletedForCurrentPeriod("daily", Some(last), now)
    ensures IsCompletedForCurrentPeriod("weekly", Some(last), now)
  {
    SameDayIsSameWeek(last, now);
  }
}

=== FILE: actions_database.dfy ===
/**
 * The server actions of `app/actions.ts` that read and write the database,
 * modelled as methods of one object holding the tables. Every action either
 * completes or leaves every table as it was, which is what `commitHabit`'s
 * transaction guarantees; `completePurchase` runs without a transaction and
 * keeps the payment it recorded when the user update fails.
 */
module Database {
  import opened Wrappers
  import opened Calendar
  import opened Records
  import opened Leveling
  import opened Completion
  import opened ActionRules

  /**
   * The values a new companion starts with. `createPillar` leaves them to the
   * database, whose schema is not part of this model: these are assumed
   * defaults, chosen so that the progress invariant holds.
   */
  const InitialLevel: int := 1
  const InitialXp: int := 0
  const InitialXpToNextLevel: int := 100

  const DefaultGardenTitle: string := "Your Gardens"

  function HabitIndex(hs: seq<HabitRow>, id: string): (r: Option<nat>)
    ensures r.Some? ==> r.value < |hs| && hs[r.value].id == id
    ensures r.None? ==> forall j :: 0 <= j < |hs| ==> hs[j].id != id
  {
    FirstIndex(hs, (h: HabitRow) => h.id == id)
  }

  function PillarIndex(ps: seq<PillarRow>, id: string): (r: Option<nat>)
    ensures r.Some? ==> r.value < |ps| && ps[r.value].id == id
    ensures r.None? ==> forall j :: 0 <= j < |ps| ==> ps[j].id != id
  {
    FirstIndex(ps, (p: PillarRow) => p.id == id)
  }

  /** `prisma.pillar.count({ where: { userId } })`. */
  function PillarCount(ps: seq<PillarRow>, userId: string): (n: nat)
    ensures n <= |ps|
  {
    if ps == [] then 0 else (if ps[0].userId == userId then 1 else 0) + PillarCount(ps[1..], userId)
  }

  /** A one-time habit that has been completed; committing it again changes nothing. */
  predicate IsSpentOneTime(h: HabitRow)
  {
    h.frequency == "onetime" && h.lastCompletedAt.Some?
  }

  /** The habit row after a commit at `now` with an optional remark. */
  function Committed(h: HabitRow, remark: Option<string>, now: int): (r: HabitRow)
    ensures r.id == h.id && r.pillarId == h.pillarId && r.name == h.name && r.frequency == h.frequency
    ensures r.streak == h.streak + 1
    ensures r.completedToday && r.lastCompletedAt == Some(now)
    ensures r.lastRemark == StoredRemark(remark)
    ensures IsCompletedForCurrentPeriod(r.frequency, r.lastCompletedAt, now)
  {
    h.(completedToday := true, streak := h.streak + 1, lastCompletedAt := Some(now), lastRemark := StoredRemark(remark))
  }

  /** A one-time habit can be committed once: right after a commit the guard blocks it. */
  lemma OneTimeCommitsOnce(h: HabitRow, remark: Option<string>, now: int)
    ensures IsSpentOneTime(Committed(h, remark, now)) <==> h.frequency == "onetime"
  {
  }

  /**
   * Daily and weekly habits have no same-period guard: committing twice
   * raises the streak by two.
   */
  lemma RepeatedCommitsCountTwice(h: HabitRow, r1: Option<string>, r2: Option<string>, t1: int, t2: int)
    requires h.frequency != "onetime"
    ensures !IsSpentOneTime(Committed(h, r1, t1))
    ensures Committed(Committed(h, r1, t1), r2, t2).streak == h.streak + 2
  {
  }

  /** The companion after one commit: 10 XP, the level-up loop, and the stage of the new level. */
  function Credited(p: PetRow): (r: PetRow)
    requires PetValid(p)
    ensures PetValid(r)
    ensures r == p.(xp := r.xp, level := r.level, stage := r.stage, xpToNextLevel := r.xpToNextLevel)
    ensures r.level >= p.level && r.xpToNextLevel >= p.xpToNextLevel
    ensures r.stage == StageFor(p.petType, r.level)
    ensures Progress(r.xp, r.level, r.xpToNextLevel) == Carry(AddXp(Progress(p.xp, p.level, p.xpToNextLevel), XpGain))
  {
    var q := Carry(AddXp(Progress(p.xp, p.level, p.xpToNextLevel), XpGain));
    p.(xp := q.xp, level := q.level, xpToNextLevel := q.xpToNext, stage := StageFor(p.petType, q.level))
  }

  /** The companion update inside `commitHabit`: 10 XP, the level-up loop, and the stage of the new level. */
  method CreditCompanion(pet: PetRow) returns (credited: PetRow)
    requires PetValid(pet)
    ensures credited == Credited(pet)
  {
    var p := LevelUp(pet.xp + XpGain, pet.level, pet.xpToNextLevel);
    credited := pet.(xp := p.xp, level := p.level, stage := StageFor(pet.petType, p.level), xpToNextLevel := p.xpToNext);
  }

  /** A companion whose stage matched its level still does after a commit, one tier up at most per ten levels. */
  lemma CreditedStageNeverRegresses(p: PetRow)
    requires PetValid(p) && p.stage == StageFor(p.petType, p.level)
    ensures EvolutionTier(p.level) <= EvolutionTier(Credited(p).level)
    ensures Credited(p).stage == StagesOf(p.petType)[EvolutionTier(Credited(p).level)]
  {
    StageNeverRegresses(p.petType, p.level, Credited(p).level);
  }

  /** The companion `createPillar` stores. */
  function NewPet(species: string, companionName: Option<string>, color: string): (p: PetRow)
    ensures PetValid(p) && p.level == InitialLevel && p.species == species && p.color == color
    ensures p.stage == StageFor(p.petType, p.level)
    ensures var c := CompanionFor(species, companionName);
      p.name == c.name && p.petType == c.petType && p.rarity == c.rarity
    ensures p.xp == InitialXp && p.xpToNextLevel == InitialXpToNextLevel
  {
    var c := CompanionFor(species, companionName);
    CreationStageMatchesLevel(species, companionName, InitialLevel);
    PetRow(c.name, c.species, c.petType, c.rarity, color, c.stage, InitialLevel, InitialXp, InitialXpToNextLevel)
  }

  /** The rows `createMany` inserts for a bulk import, with the ids the database assigns. */
  function ImportedRows(pillarId: string, hs: seq<ImportedHabit>, ids: seq<string>): (r: seq<HabitRow>)
    requires |ids| == |hs|
    ensures |r| == |hs|
    ensures forall i :: 0 <= i < |hs| ==>
      r[i] == HabitRow(ids[i], pillarId, hs[i].name, hs[i].frequency, 0, false, None, None)
  {
    if hs == [] then [] else
      [HabitRow(ids[0], pillarId, hs[0].name, hs[0].frequency, 0, false, None, None)]
      + ImportedRows(pillarId, hs[1..], ids[1..])
  }

  /** `habits.map(habit => ({ ...habit, completedToday: <computed> }))`. */
  function WithCompletion(hs: seq<HabitRow>, now: int): (r: seq<HabitRow>)
    ensures |r| == |hs|
    ensures forall i :: 0 <= i < |hs| ==>
      r[i] == hs[i].(completedToday := IsCompletedForCurrentPeriod(hs[i].frequency, hs[i].lastCompletedAt, now))
  {
    if hs == [] then [] else
      [hs[0].(completedToday := IsCompletedForCurrentPeriod(hs[0].frequency, hs[0].lastCompletedAt, now))]
      + WithCompletion(hs[1..], now)
  }

  /**
   * Read right after a commit at the same instant, the committed habit shows
   * as completed whatever its frequency, and the stored flag is never trusted.
   */
  lemma CommittedReadsAsCompleted(hs: seq<HabitRow>, i: nat, remark: Option<string>, now: int)
    requires i < |hs|
    ensures WithCompletion(hs[i := Committed(hs[i], remark, now)], now)[i].completedToday
    ensures forall j :: 0 <= j < |hs| && hs[j].lastCompletedAt.None? ==> !WithCompletion(hs, now)[j].completedToday
  {
  }

  function PillarsOf(ps: seq<PillarRow>, userId: string): (r: seq<PillarRow>)
    ensures |r| == PillarCount(ps, userId)
    ensures forall p :: p in r <==> p in ps && p.userId == userId
  {
    if ps == [] then [] else
      (if ps[0].userId == userId then [ps[0]] else []) + PillarsOf(ps[1..], userId)
  }

  /** Filtering distributes over concatenation, so the rows keep the table's (creation) order. */
  lemma {:induction false} PillarsOfAppend(a: seq<PillarRow>, b: seq<PillarRow>, userId: string)
    ensures PillarsOf(a + b, userId) == PillarsOf(a, userId) + PillarsOf(b, userId)
  {
    if a == [] {
      assert a + b == b;
    } else {
      assert (a + b)[1..] == a[1..] + b;
      PillarsOfAppend(a[1..], b, userId);
    }
  }

  /** A pillar created last is listed last among its owner's pillars. */
  lemma NewestPillarListedLast(ps: seq<PillarRow>, p: PillarRow)
    ensures PillarsOf(ps + [p], p.userId) == PillarsOf(ps, p.userId) + [p]
  {
    PillarsOfAppend(ps, [p], p.userId);
  }

  predicate OwnsPillar(ps: seq<PillarRow>, pillarId: string, userId: string)
  {
    exists j :: 0 <= j < |ps| && ps[j].id == pillarId && ps[j].userId == userId
  }

  function HabitsOfUser(hs: seq<HabitRow>, ps: seq<PillarRow>, userId: string): (r: seq<HabitRow>)
    ensures forall h :: h in r <==> h in hs && OwnsPillar(ps, h.pillarId, userId)
  {
    if hs == [] then [] else
      (if OwnsPillar(ps, hs[0].pillarId, userId) then [hs[0]] else []) + HabitsOfUser(hs[1..], ps, userId)
  }

  lemma {:induction false} HabitsOfUserAppend(a: seq<HabitRow>, b: seq<HabitRow>, ps: seq<PillarRow>, userId: string)
    ensures HabitsOfUser(a + b, ps, userId) == HabitsOfUser(a, ps, userId) + HabitsOfUser(b, ps, userId)
  {
    if a == [] {
      assert a + b == b;
    } else {
      assert (a + b)[1..] == a[1..] + b;
      HabitsOfUserAppend(a[1..], b, ps, userId);
    }
  }

  function HabitsOfPillar(hs: seq<HabitRow>, pillarId: string): (r: seq<HabitRow>)
    ensures forall h :: h in r <==> h in hs && h.pillarId == pillarId
  {
    if hs == [] then [] else
      (if hs[0].pillarId == pillarId then [hs[0]] else []) + HabitsOfPillar(hs[1..], pillarId)
  }

  lemma {:induction false} HabitsOfPillarAppend(a: seq<HabitRow>, b: seq<HabitRow>, pillarId: string)
    ensures HabitsOfPillar(a + b, pillarId) == HabitsOfPillar(a, pillarId) + HabitsOfPillar(b, pillarId)
  {
    if a == [] {
      assert a + b == b;
    } else {
      assert (a + b)[1..] == a[1..] + b;
      HabitsOfPillarAppend(a[1..], b, pillarId);
    }
  }

  /** Appending rows whose ids are distinct and new keeps the habit ids unique. */
  lemma FreshIdsKeepUnique(hs: seq<HabitRow>, rows: seq<HabitRow>, ids: seq<string>)
    requires UniqueHabitIds(hs) && |rows| == |ids|
    requires forall i :: 0 <= i < |rows| ==> rows[i].id == ids[i]
    requires forall i, j :: 0 <= i < j < |ids| ==> ids[i] != ids[j]
    requires forall i :: 0 <= i < |ids| ==> HabitIndex(hs, ids[i]).None?
    ensures UniqueHabitIds(hs + rows)
  {
  }

  /** The companion of a pillar, as `include: { pet: true }` attaches it. */
  function CompanionOf(pets: map<string, PetRow>, pillarId: string): (r: Option<PetRow>)
    ensures r.Some? <==> pillarId in pets
    ensures r.Some? ==> r.value == pets[pillarId]
  {
    if pillarId in pets then Some(pets[pillarId]) else None
  }

  /** The companions of a list of pillars, one per pillar, in order. */
  function CompanionsOf(ps: seq<PillarRow>, pets: map<string, PetRow>): (r: seq<Option<PetRow>>)
    ensures |r| == |ps|
    ensures forall i :: 0 <= i < |ps| ==> r[i] == CompanionOf(pets, ps[i].id)
  {
    if ps == [] then [] else [CompanionOf(pets, ps[0].id)] + CompanionsOf(ps[1..], pets)
  }

  /** Whether the user has set a garden title that JavaScript reads as true (a non-empty string). */
  predicate HasGardenTitle(users: map<string, UserRow>, id: string)
  {
    id in users && users[id].gardenSectionTitle.Some? && users[id].gardenSectionTitle.value != ""
  }

  /** The dashboard: the user's pillars with, at the same index, each pillar's companion. */
  datatype Dashboard = Dashboard(pillars: seq<PillarRow>, pets: seq<Option<PetRow>>, habits: seq<HabitRow>, gardenTitle: string)

  datatype PillarDetails = PillarDetails(pillar: PillarRow, pet: Option<PetRow>, habits: seq<HabitRow>)

  /** The role an admin toggle gives: ADMIN becomes USER, anything else becomes ADMIN. */
  function FlippedRole(role: string): (r: string)
    ensures r == "ADMIN" || r == "USER"
    ensures r == "ADMIN" <==> role != "ADMIN"
  {
    if role == "ADMIN" then "USER" else "ADMIN"
  }

  /** Toggling twice restores a well-formed role. */
  lemma FlippedRoleTwice(role: string)
    requires role == "ADMIN" || role == "USER"
    ensures FlippedRole(FlippedRole(role)) == role
  {
  }

  predicate IsAdmin(users: map<string, UserRow>, id: string)
  {
    id in users && users[id].role == "ADMIN"
  }

  /** The tables, in creation order where the source reads them in creation order. */
  class Db {
    var users: map<string, UserRow>
    var pillars: seq<PillarRow>
    var pets: map<string, PetRow>        // keyed by the id of the owning pillar
    var habits: seq<HabitRow>
    var logs: seq<LogEntry>
    var payments: seq<Payment>
    /** Whether the habit-log table is present (the runtime check on `tx.habitLog`). */
    const hasLogTable: bool

    ghost predicate Valid()
      reads this
    {
      && UniquePillarIds(pillars)
      && UniqueHabitIds(habits)
      && (forall k :: k in pets ==> PetValid(pets[k]))
      && (forall u :: u in users && users[u].subscriptionEnd.Some? ==> ValidDateTime(users[u].subscriptionEnd.value))
    }

    constructor (hasLogTable: bool)
      ensures Valid() && this.hasLogTable == hasLogTable
      ensures users == map[] && pillars == [] && pets == map[] && habits == [] && logs == [] && payments == []
    {
      this.hasLogTable := hasLogTable;
      users, pillars, pets, habits, logs, payments := map[], [], map[], [], [], [];
    }

    /**
     * `commitHabit`: an unknown habit throws "Habit not found"; a completed
     * one-time habit is returned unchanged; otherwise the habit is marked
     * done, a log entry is written when the log table exists, the companion
     * (if any) gains 10 XP with level-ups and a recomputed stage, and the
     * pillar's commit count goes up by one. A habit whose pillar row is
     * missing throws on reading that pillar's companion, before any write. A
     * failure rolls everything back.
     */
    method CommitHabit(habitId: string, remark: Option<string>, now: int) returns (r: Result<HabitRow, Error>)
      requires Valid()
      modifies this
      ensures Valid()
      ensures HabitIndex(old(habits), habitId).None? ==>
        r == Failure(Thrown("Habit not found")) && unchanged(this)
      ensures var hi := HabitIndex(old(habits), habitId);
        hi.Some? && IsSpentOneTime(old(habits)[hi.value]) ==>
          r == Success(old(habits)[hi.value]) && unchanged(this)
      ensures var hi := HabitIndex(old(habits), habitId);
        hi.Some? && !IsSpentOneTime(old(habits)[hi.value])
        && PillarIndex(old(pillars), old(habits)[hi.value].pillarId).None? ==>
          r == Failure(NullReference) && unchanged(this)
      ensures var hi := HabitIndex(old(habits), habitId);
        hi.Some? && !IsSpentOneTime(old(habits)[hi.value])
        && PillarIndex(old(pillars), old(habits)[hi.value].pillarId).Some? ==>
          var h := old(habits)[hi.value];
          var pi := PillarIndex(old(pillars), h.pillarId).value;
          && r == Success(Committed(h, remark, now))
          && habits == old(habits)[hi.value := Committed(h, remark, now)]
          && pillars == old(pillars)[pi := old(pillars)[pi].(totalCommits := old(pillars)[pi].totalCommits + 1)]
          && pets == (if h.pillarId in old(pets) then old(pets)[h.pillarId := Credited(old(pets)[h.pillarId])] else old(pets))
          && logs == old(logs) + (if hasLogTable then [LogEntry(habitId, StoredRemark(remark), now)] else [])
          && users == old(users) && payments == old(payments)
    {
      var hi := HabitIndex(habits, habitId);
      if hi.None? {
        return Failure(Thrown("Habit not found"));
      }
      var habit := habits[hi.value];
      if habit.frequency == "onetime" && habit.lastCompletedAt.Some? {
        return Success(habit);
      }
      // The habit is read with its pillar included; reading the companion of a
      // missing pillar throws before any write, and the transaction keeps nothing.
      var pi := PillarIndex(pillars, habit.pillarId);
      if pi.None? {
        return Failure(NullReference);
      }
      var updated := Committed(habit, remark, now);
      WriteCommit(hi.value, pi.value, remark, now);
      r := Success(updated);
    }

    /**
     * The writes of a commit that passed the guards: the habit row, the log
     * entry, the companion and the pillar's commit count.
     */
    method WriteCommit(hi: nat, pi: nat, remark: Option<string>, now: int)
      requires Valid()
      requires hi < |habits| && pi < |pillars| && pillars[pi].id == habits[hi].pillarId
      modifies this
      ensures Valid()
      ensures var h := old(habits)[hi];
        && habits == old(habits)[hi := Committed(h, remark, now)]
        && pillars == old(pillars)[pi := old(pillars)[pi].(totalCommits := old(pillars)[pi].totalCommits + 1)]
        && pets == (if h.pillarId in old(pets) then old(pets)[h.pillarId := Credited(old(pets)[h.pillarId])] else old(pets))
        && logs == old(logs) + (if hasLogTable then [LogEntry(h.id, StoredRemark(remark), now)] else [])
        && users == old(users) && payments == old(payments)
    {
      var habit := habits[hi];
      var habits' := habits[hi := Committed(habit, remark, now)];
      assert forall i :: 0 <= i < |habits'| ==> habits'[i].id == habits[i].id;
      var logs' := logs;
      if hasLogTable {
        logs' := logs + [LogEntry(habit.id, StoredRemark(remark), now)];
      }
      var pets' := pets;
      if habit.pillarId in pets {
        var credited := CreditCompanion(pets[habit.pillarId]);
        pets' := pets[habit.pillarId := credited];
      }
      var pillar := pillars[pi];
      var pillars' := pillars[pi := pillar.(totalCommits := pillar.totalCommits + 1)];
      assert forall i :: 0 <= i < |pillars'| ==> pillars'[i].id == pillars[i].id;
      habits, logs, pets, pillars := habits', logs', pets', pillars';
    }

    /**
     * `createPillar`: requires a session; a free user with two pillars, or
     * choosing a premium species, is refused; otherwise the pillar is
     * appended with its companion.
     */
    method CreatePillar(session: Option<Session>, newId: string, name: string, description: string,
                        color: string, species: string, companionName: Option<string>)
      returns (r: Result<PillarRow, Error>)
      requires Valid()
      requires PillarIndex(pillars, newId).None?      // the database assigns a fresh id
      modifies this
      ensures Valid()
      ensures session.None? ==> r == Failure(Thrown("Unauthorized")) && unchanged(this)
      ensures session.Some? ==>
        var gate := PillarGate(session.value.isPremium, PillarCount(old(pillars), session.value.id), species);
        && (gate.Some? ==> r == Failure(Thrown(gate.value)) && unchanged(this))
        && (gate.None? ==>
              var row := PillarRow(newId, session.value.id, name, description, color, 0);
              && r == Success(row)
              && pillars == old(pillars) + [row]
              && pets == old(pets)[newId := NewPet(species, companionName, color)]
              && habits == old(habits) && logs == old(logs)
              && users == old(users) && payments == old(payments))
    {
      if session.None? {
        return Failure(Thrown("Unauthorized"));
      }
      var count := PillarCount(pillars, session.value.id);
      var gate := PillarGate(session.value.isPremium, count, species);
      if gate.Some? {
        return Failure(Thrown(gate.value));
      }
      var row := PillarRow(newId, session.value.id, name, description, color, 0);
      var pet := NewPet(species, companionName, color);
      assert UniquePillarIds(pillars + [row]);
      pillars, pets := pillars + [row], pets[newId := pet];
      r := Success(row);
    }

    /**
     * `bulkImportHabits`: requires a session and premium, and a pillar the
     * user owns; then inserts one sanitised habit per input and reports how
     * many.
     */
    method BulkImportHabits(session: Option<Session>, pillarId: string, input: seq<ImportedHabit>, newIds: seq<string>)
      returns (r: Result<nat, Error>)
      requires Valid()
      requires |newIds| == |input|
      requires forall i, j :: 0 <= i < j < |newIds| ==> newIds[i] != newIds[j]
      requires forall i :: 0 <= i < |newIds| ==> HabitIndex(habits, newIds[i]).None?
      modifies this
      ensures Valid()
      ensures session.None? ==> r == Failure(Thrown("Unauthorized")) && unchanged(this)
      ensures session.Some? && !session.value.isPremium ==>
        r == Failure(Thrown("Bulk import is a Premium feature.")) && unchanged(this)
      ensures session.Some? && session.value.isPremium && !OwnsPillar(old(pillars), pillarId, session.value.id) ==>
        r == Failure(Thrown("Garden not found or access denied.")) && unchanged(this)
      ensures session.Some? && session.value.isPremium && OwnsPillar(old(pillars), pillarId, session.value.id) ==>
        && r == Success(|input|)
        && habits == old(habits) + ImportedRows(pillarId, SanitizeAll(input), newIds)
        && pillars == old(pillars) && pets == old(pets) && logs == old(logs)
        && users == old(users) && payments == old(payments)
    {
      if session.None? {
        return Failure(Thrown("Unauthorized"));
      }
      if !session.value.isPremium {
        return Failure(Thrown("Bulk import is a Premium feature."));
      }
      var pi := PillarIndex(pillars, pillarId);
      if pi.None? || pillars[pi.value].userId != session.value.id {
        return Failure(Thrown("Garden not found or access denied."));
      }
      var rows := ImportedRows(pillarId, SanitizeAll(input), newIds);
      FreshIdsKeepUnique(habits, rows, newIds);
      habits := habits + rows;
      r := Success(|rows|);
    }

    /**
     * `completePurchase`: records the payment, then makes the user premium
     * until the extended end. The two writes are separate: when the user row
     * is missing the payment stays and the update fails.
     */
    method CompletePurchase(session: Option<Session>, orderId: string, amount: string, plan: string, now: DateTime)
      returns (r: Result<(), Error>)
      requires Valid() && ValidDateTime(now)
      modifies this
      ensures Valid()
      ensures session.None? ==> r == Failure(Thrown("Unauthorized")) && unchanged(this)
      ensures session.Some? ==>
        var id := session.value.id;
        && payments == old(payments) + [Payment(id, amount, orderId, plan)]
        && pillars == old(pillars) && pets == old(pets) && habits == old(habits) && logs == old(logs)
        && (id !in old(users) ==> r == Failure(MissingRecord) && users == old(users))
        && (id in old(users) ==>
              && r == Success(())
              && users == old(users)[id := old(users)[id].(isPremium := true,
                   subscriptionEnd := Some(NewSubscriptionEnd(old(users)[id].subscriptionEnd, now, plan)))])
    {
      if session.None? {
        return Failure(Thrown("Unauthorized"));
      }
      var id := session.value.id;
      payments := payments + [Payment(id, amount, orderId, plan)];
      if id !in users {
        return Failure(MissingRecord);
      }
      var user := users[id];
      var newEnd := NewSubscriptionEnd(user.subscriptionEnd, now, plan);
      users := users[id := user.(isPremium := true, subscriptionEnd := Some(newEnd))];
      r := Success(());
    }

    /**
     * `deleteUser`: admins only, never themselves. Only the user row is
     * removed here: the database schema's referential action for the user's
     * pillars, companions and habits (cascade or refusal) is not part of this
     * model.
     */
    method DeleteUser(session: Option<Session>, userId: string) returns (r: Result<(), Error>)
      requires Valid()
      modifies this
      ensures Valid()
      ensures session.None? ==> r == Failure(Thrown("Unauthorized")) && unchanged(this)
      ensures session.Some? && !IsAdmin(old(users), session.value.id) ==>
        r == Failure(Thrown("Forbidden: Admin Access Required")) && unchanged(this)
      ensures session.Some? && IsAdmin(old(users), session.value.id) && userId == session.value.id ==>
        r == Failure(Thrown("Cannot delete yourself")) && unchanged(this)
      ensures session.Some? && IsAdmin(old(users), session.value.id) && userId != session.value.id ==>
        && (userId !in old(users) ==> r == Failure(MissingRecord) && unchanged(this))
        && (userId in old(users) ==>
              (r == Success(()) && users == old(users) - {userId}
               && pillars == old(pillars) && pets == old(pets) && habits == old(habits)
               && logs == old(logs) && payments == old(payments)))
      ensures r.Success? ==> session.Some? && IsAdmin(users, session.value.id)
    {
      if session.None? {
        return Failure(Thrown("Unauthorized"));
      }
      if !IsAdmin(users, session.value.id) {
        return Failure(Thrown("Forbidden: Admin Access Required"));
      }
      if userId == session.value.id {
        return Failure(Thrown("Cannot delete yourself"));
      }
      if userId !in users {
        return Failure(MissingRecord);
      }
      users := users - {userId};
      r := Success(());
    }

    /** `toggleRole`: admins only, never on themselves; flips ADMIN and USER. */
    method ToggleRole(session: Option<Session>, userId: string) returns (r: Result<(), Error>)
      requires Valid()
      modifies this
      ensures Valid()
      ensures session.None? ==> r == Failure(Thrown("Unauthorized")) && unchanged(this)
      ensures session.Some? && !IsAdmin(old(users), session.value.id) ==>
        r == Failure(Thrown("Forbidden")) && unchanged(this)
      ensures session.Some? && IsAdmin(old(users), session.value.id) && userId == session.value.id ==>
        r == Failure(Thrown("Cannot demote yourself")) && unchanged(this)
      ensures session.Some? && IsAdmin(old(users), session.value.id) && userId != session.value.id ==>
        && (userId !in old(users) ==> r == Failure(Thrown("User not found")) && unchanged(this))
        && (userId in old(users) ==>
              (r == Success(())
               && users == old(users)[userId := old(users)[userId].(role := FlippedRole(old(users)[userId].role))]
               && pillars == old(pillars) && pets == old(pets) && habits == old(habits)
               && logs == old(logs) && payments == old(payments)))
      ensures r.Success? ==> session.Some? && IsAdmin(users, session.value.id)
    {
      if session.None? {
        return Failure(Thrown("Unauthorized"));
      }
      if !IsAdmin(users, session.value.id) {
        return Failure(Thrown("Forbidden"));
      }
      if userId == session.value.id {
        return Failure(Thrown("Cannot demote yourself"));
      }
      if userId !in users {
        return Failure(Thrown("User not found"));
      }
      var user := users[userId];
      users := users[userId := user.(role := FlippedRole(user.role))];
      r := Success(());
    }

    /** `togglePremium`: admins only (themselves included); flips the premium flag. */
    method TogglePremium(session: Option<Session>, userId: string) returns (r: Result<(), Error>)
      requires Valid()
      modifies this
      ensures Valid()
      ensures session.None? ==> r == Failure(Thrown("Unauthorized")) && unchanged(this)
      ensures session.Some? && !IsAdmin(old(users), session.value.id) ==>
        r == Failure(Thrown("Forbidden")) && unchanged(this)
      ensures session.Some? && IsAdmin(old(users), session.value.id) ==>
        && (userId !in old(users) ==> r == Failure(Thrown("User not found")) && unchanged(this))
        && (userId in old(users) ==>
              (r == Success(())
               && users == old(users)[userId := old(users)[userId].(isPremium := !old(users)[userId].isPremium)]
               && pillars == old(pillars) && pets == old(pets) && habits == old(habits)
               && logs == old(logs) && payments == old(payments)))
    {
      if session.None? {
        return Failure(Thrown("Unauthorized"));
      }
      if !IsAdmin(users, session.value.id) {
        return Failure(Thrown("Forbidden"));
      }
      if userId !in users {
        return Failure(Thrown("User not found"));
      }
      var user := users[userId];
      users := users[userId := user.(isPremium := !user.isPremium)];
      r := Success(());
    }

    /**
     * `getDashboardData`: nothing for a visitor; otherwise the user's pillars,
     * each with its companion, and habits in table (creation) order, each
     * habit's completion recomputed at `now`, and the garden title or its
     * default.
     */
    function DashboardData(session: Option<Session>, now: int): (d: Dashboard)
      reads this
      ensures session.None? ==> d == Dashboard([], [], [], DefaultGardenTitle)
      ensures session.Some? ==>
        && d.pillars == PillarsOf(pillars, session.value.id)
        && (forall p :: p in d.pillars <==> p in pillars && p.userId == session.value.id)
        && |d.pets| == |d.pillars|
        && (forall i :: 0 <= i < |d.pillars| ==> d.pets[i] == CompanionOf(pets, d.pillars[i].id))
        && |d.habits| == |HabitsOfUser(habits, pillars, session.value.id)|
        && (forall i :: 0 <= i < |d.habits| ==>
              var h := HabitsOfUser(habits, pillars, session.value.id)[i];
              d.habits[i] == h.(completedToday := IsCompletedForCurrentPeriod(h.frequency, h.lastCompletedAt, now)))
        && (HasGardenTitle(users, session.value.id) ==>
              d.gardenTitle == users[session.value.id].gardenSectionTitle.value)
        && (!HasGardenTitle(users, session.value.id) ==> d.gardenTitle == DefaultGardenTitle)
        && d.gardenTitle != ""
    {
      match session
      case None => Dashboard([], [], [], DefaultGardenTitle)
      case Some(s) =>
        var title := if HasGardenTitle(users, s.id) then users[s.id].gardenSectionTitle.value else DefaultGardenTitle;
        var ps := PillarsOf(pillars, s.id);
        Dashboard(ps, CompanionsOf(ps, pets), WithCompletion(HabitsOfUser(habits, pillars, s.id), now), title)
    }

    /**
     * `getPillarDetails`: requires a session and an existing pillar (any
     * pillar: ownership is not checked); returns it with its companion and
     * its habits, completion recomputed at `now`.
     */
    function GetPillarDetails(session: Option<Session>, pillarId: string, now: int): (r: Result<PillarDetails, Error>)
      reads this
      ensures session.None? ==> r == Failure(Thrown("Unauthorized"))
      ensures session.Some? && PillarIndex(pillars, pillarId).None? ==> r == Failure(Thrown("Pillar not found"))
      ensures session.Some? && PillarIndex(pillars, pillarId).Some? ==>
        r == Success(PillarDetails(pillars[PillarIndex(pillars, pillarId).value], CompanionOf(pets, pillarId),
                                   WithCompletion(HabitsOfPillar(habits, pillarId), now)))
      ensures r.Success? ==>
        && r.value.pillar in pillars && r.value.pillar.id == pillarId
        && (r.value.pet.Some? <==> pillarId in pets)
        && (forall h :: h in r.value.habits ==> h.pillarId == pillarId)
        && |r.value.habits| == |HabitsOfPillar(habits, pillarId)|
        && (forall i :: 0 <= i < |r.value.habits| ==>
              r.value.habits[i].completedToday ==
                IsCompletedForCurrentPeriod(r.value.habits[i].frequency, r.value.habits[i].lastCompletedAt, now))
    {
      if session.None? then Failure(Thrown("Unauthorized"))
      else match PillarIndex(pillars, pillarId)
        case None => Failure(Thrown("Pillar not found"))
        case Some(i) =>
          var hs := HabitsOfPillar(habits, pillarId);
          assert forall j :: 0 <= j < |hs| ==> hs[j].pillarId == pillarId by {
            forall j | 0 <= j < |hs| ensures hs[j].pillarId == pillarId {
              assert hs[j] in hs;
            }
          }
          Success(PillarDetails(pillars[i], CompanionOf(pets, pillarId), WithCompletion(hs, now)))
    }
  }
}

=== FILE: actions_leveling.dfy ===
/**
 * The companion progression used when a habit is committed (`commitHabit` in
 * `app/actions.ts`): each commit is worth 10 XP, a level-up consumes the
 * current threshold and raises the next one by a factor of 1.2 (rounded
 * down), and the life stage follows the level in steps of ten.
 */
module Leveling {

  /** XP credited per commit on the commit path. */
  const XpGain: int := 10

  /**
   * `Math.floor(t * 1.2)` for a positive integer threshold, computed exactly
   * in integers as `(6 * t) / 5`.
   */
  function Grow(t: int): (r: int)
    requires t > 0
    ensures r >= t
    ensures 5 * r <= 6 * t < 5 * r + 5
  {
    (6 * t) / 5
  }

  /** The three numbers the level-up loop updates. */
  datatype Progress = Progress(xp: int, level: int, xpToNext: int)

  /** The companion invariant: leftover XP is below the next threshold. */
  predicate Settled(p: Progress)
  {
    0 <= p.xp < p.xpToNext
  }

  /**
   * The result of the level-up loop: while the XP reaches the threshold,
   * spend the threshold, gain a level and grow the threshold.
   */
  function Carry(p: Progress): (r: Progress)
    requires 0 <= p.xp && 0 < p.xpToNext
    ensures Settled(r)
    ensures r.level >= p.level && r.xpToNext >= p.xpToNext && r.xp <= p.xp
    ensures p.xp < p.xpToNext <==> r == p
    decreases p.xp
  {
    if p.xp < p.xpToNext then p
    else Carry(Progress(p.xp - p.xpToNext, p.level + 1, Grow(p.xpToNext)))
  }

  /** The threshold after `k` level-ups starting from threshold `t`. */
  function GrowN(t: int, k: nat): (r: int)
    requires t > 0
    ensures r >= t
    decreases k
  {
    if k == 0 then t else GrowN(Grow(t), k - 1)
  }

  /** The XP spent by `k` level-ups starting from threshold `t`. */
  function Spent(t: int, k: nat): int
    requires t > 0
    decreases k
  {
    if k == 0 then 0 else t + Spent(Grow(t), k - 1)
  }

  /**
   * Nothing is lost or invented: the levels gained are exactly the thresholds
   * paid for, in order, and the XP left over is what remains after paying them.
   */
  lemma {:induction false} CarryConserves(p: Progress)
    requires 0 <= p.xp && 0 < p.xpToNext
    ensures var r := Carry(p);
      && p.xp == r.xp + Spent(p.xpToNext, r.level - p.level)
      && r.xpToNext == GrowN(p.xpToNext, r.level - p.level)
    decreases p.xp
  {
    if p.xp >= p.xpToNext {
      CarryConserves(Progress(p.xp - p.xpToNext, p.level + 1, Grow(p.xpToNext)));
    }
  }

  /** The `while` loop of `commitHabit`, run on local variables. */
  method LevelUp(xp: int, level: int, xpToNext: int) returns (r: Progress)
    requires 0 <= xp && 0 < xpToNext
    ensures r == Carry(Progress(xp, level, xpToNext))
  {
    var newXp, newLevel, threshold := xp, level, xpToNext;
    while newXp >= threshold
      invariant 0 <= newXp && 0 < threshold
      invariant Carry(Progress(newXp, newLevel, threshold)) == Carry(Progress(xp, level, xpToNext))
      decreases newXp
    {
      newXp := newXp - threshold;
      newLevel := newLevel + 1;
      threshold := Grow(threshold);
    }
    r := Progress(newXp, newLevel, threshold);
  }

  /** Adds `gain` XP to the leftover of a progress. */
  function AddXp(p: Progress, gain: int): Progress
  {
    Progress(p.xp + gain, p.level, p.xpToNext)
  }

  /**
   * Carrying is pure bookkeeping: crediting XP all at once gives the same
   * progress as crediting part of it, settling, and crediting the rest.
   */
  lemma CarryAdditive(p: Progress, a: int, b: int)
    requires 0 <= p.xp && 0 < p.xpToNext && 0 <= a && 0 <= b
    ensures Carry(AddXp(p, a + b)) == Carry(AddXp(Carry(AddXp(p, a)), b))
  {
    assert AddXp(AddXp(p, a), b) == AddXp(p, a + b);
    CarrySettlesFirst(AddXp(p, a), b);
  }

  /** Settling before a credit of `b` XP or only after it ends in the same progress. */
  lemma {:induction false} CarrySettlesFirst(q: Progress, b: int)
    requires 0 <= q.xp && 0 < q.xpToNext && 0 <= b
    ensures Carry(AddXp(q, b)) == Carry(AddXp(Carry(q), b))
    decreases q.xp
  {
    if q.xp >= q.xpToNext {
      var next := Progress(q.xp - q.xpToNext, q.level + 1, Grow(q.xpToNext));
      var qb := AddXp(q, b);
      assert Progress(qb.xp - qb.xpToNext, qb.level + 1, Grow(qb.xpToNext)) == AddXp(next, b);
      calc {
        Carry(qb);
        Carry(AddXp(next, b));
        { CarrySettlesFirst(next, b); }
        Carry(AddXp(Carry(next), b));
        Carry(AddXp(Carry(q), b));
      }
    } else {
      assert Carry(q) == q;
    }
  }

  /** `n` commits credited one at a time, each followed by the level-up loop. */
  function CommitTimes(p: Progress, n: nat): (r: Progress)
    requires 0 <= p.xp && 0 < p.xpToNext
    ensures Settled(r)
    decreases n
  {
    if n == 0 then Carry(p) else CommitTimes(Carry(AddXp(p, XpGain)), n - 1)
  }

  /** Committing `n` times gives the same progress as one credit of `n * 10` XP. */
  lemma {:induction false} CommitTimesIsOneCredit(p: Progress, n: nat)
    requires 0 <= p.xp && 0 < p.xpToNext
    ensures CommitTimes(p, n) == Carry(AddXp(p, XpGain * n))
    decreases n
  {
    if n > 0 {
      var q := Carry(AddXp(p, XpGain));
      CommitTimesIsOneCredit(q, n - 1);
      OneMoreCommit(p, n - 1);
    } else {
      assert AddXp(p, 0) == p;
    }
  }

  /** Crediting one commit, settling, then `m` commits at once is `m + 1` commits at once. */
  lemma OneMoreCommit(p: Progress, m: nat)
    requires 0 <= p.xp && 0 < p.xpToNext
    ensures Carry(AddXp(Carry(AddXp(p, XpGain)), XpGain * m)) == Carry(AddXp(p, XpGain * (m + 1)))
  {
    CarryAdditive(p, XpGain, XpGain * m);
    assert XpGain + XpGain * m == XpGain * (m + 1);
  }

  /** The example of a level-up: 95/100 XP plus one commit is level 2 with 5/120 XP. */
  lemma LevelUpExample()
    ensures Carry(AddXp(Progress(95, 1, 100), XpGain)) == Progress(5, 2, 120)
  {
    assert Carry(Progress(5, 2, 120)) == Progress(5, 2, 120);
  }

  /** The life stages of each companion family, in order of evolution. */
  const AnimalStages: seq<string> := ["egg", "baby", "adult", "ancient"]
  const PlantStages: seq<string> := ["seed", "sprout", "bloom", "ancient"]

  function StagesOf(petType: string): seq<string>
  {
    if petType == "ANIMAL" then AnimalStages else PlantStages
  }

  /** The stage the commit path assigns: an if-chain on the new level. */
  function StageFor(petType: string, level: int): (stage: string)
    ensures stage == StagesOf(petType)[EvolutionTier(level)]
  {
    if petType == "ANIMAL" then
      if level < 10 then "egg" else if level < 20 then "baby" else if level < 30 then "adult" else "ancient"
    else
      if level < 10 then "seed" else if level < 20 then "sprout" else if level < 30 then "bloom" else "ancient"
  }

  /** "Every 10 levels = Evolution": the tier is the level's tens digit, capped at 3. */
  function EvolutionTier(level: int): (t: nat)
    ensures t < 4
  {
    if level < 0 then 0 else if level / 10 > 3 then 3 else level / 10
  }

  /** Stages never regress as the level grows. */
  lemma StageNeverRegresses(petType: string, l1: int, l2: int)
    requires l1 <= l2
    ensures EvolutionTier(l1) <= EvolutionTier(l2)
    ensures StageFor(petType, l1) == StagesOf(petType)[EvolutionTier(l1)]
    ensures StageFor(petType, l2) == StagesOf(petType)[EvolutionTier(l2)]
  {
  }
}

=== FILE: actions_records.dfy ===
/**
 * The database rows that the server actions of `app/actions.ts` read and
 * write: users, pillars, companions (pets), habits, habit logs and payments.
 * Identifiers are strings, instants are milliseconds (see module Calendar),
 * and `null` columns are `Option`s.
 */
module Records {
  import opened Wrappers
  import opened Calendar

  /** The signed-in user as the session carries it. */
  datatype Session = Session(id: string, isPremium: bool)

  datatype UserRow = UserRow(
    role: string,                        // "ADMIN" or "USER"
    isPremium: bool,
    subscriptionEnd: Option<DateTime>,
    gardenSectionTitle: Option<string>)

  datatype PillarRow = PillarRow(
    id: string,
    userId: string,
    name: string,
    description: string,
    color: string,
    totalCommits: int)

  /** A companion; it belongs to exactly one pillar. */
  datatype PetRow = PetRow(
    name: string,
    species: string,
    petType: string,                     // "ANIMAL" or "PLANT"
    rarity: string,                      // "COMMON" or "LEGENDARY"
    color: string,
    stage: string,
    level: int,
    xp: int,
    xpToNextLevel: int)

  datatype HabitRow = HabitRow(
    id: string,
    pillarId: string,
    name: string,
    frequency: string,                   // "daily", "weekly", "onetime" or anything else
    streak: int,
    completedToday: bool,
    lastCompletedAt: Option<int>,
    lastRemark: Option<string>)

  /** One entry of the append-only commit ledger. */
  datatype LogEntry = LogEntry(habitId: string, remark: Option<string>, date: int)

  datatype Payment = Payment(userId: string, amount: string, reference: string, plan: string)

  /**
   * What a server action throws: one of its own messages, the database's
   * refusal to update or delete a row that does not exist, or the TypeError
   * of reading a property of a related row that is null.
   */
  datatype Error = Thrown(message: string) | MissingRecord | NullReference

  /** A companion's numbers are consistent: the progress invariant. */
  predicate PetValid(p: PetRow)
  {
    0 <= p.xp < p.xpToNextLevel
  }

  /** The index of the first element satisfying `p`, if any. */
  function FirstIndex<T>(s: seq<T>, p: T -> bool): (r: Option<nat>)
    ensures r.Some? ==> r.value < |s| && p(s[r.value]) && forall j :: 0 <= j < r.value ==> !p(s[j])
    ensures r.None? ==> forall j :: 0 <= j < |s| ==> !p(s[j])
  {
    if s == [] then None
    else if p(s[0]) then Some(0)
    else match FirstIndex(s[1..], p)
      case None => None
      case Some(i) => Some(i + 1)
  }

  /** No two habits share an id, and no two pillars do. */
  predicate UniqueHabitIds(hs: seq<HabitRow>)
  {
    forall i, j :: 0 <= i < j < |hs| ==> hs[i].id != hs[j].id
  }

  predicate UniquePillarIds(ps: seq<PillarRow>)
  {
    forall i, j :: 0 <= i < j < |ps| ==> ps[i].id != ps[j].id
  }

  /** The `remark || null` of the source: an empty or missing remark is stored as null. */
  function StoredRemark(remark: Option<string>): (r: Option<string>)
    ensures r.Some? <==> remark.Some? && remark.value != ""
    ensures r.Some? ==> r == remark
  {
    if remark.Some? && remark.value != "" then remark else None
  }
}

=== FILE: actions_rules.dfy ===
/**
 * The value-level rules of the server actions in `app/actions.ts`: the
 * freemium gates and derived companion of `createPillar`, the sanitising of
 * `bulkImportHabits`, and the subscription extension of `completePurchase`.
 */
module ActionRules {
  import opened Wrappers
  import opened Text
  import opened Calendar
  import Leveling

  /** A free account may own this many pillars. */
  const FreePillarLimit: int := 2

  const FreeLimitMessage: string := "Free limit reached. Upgrade to unlock more realms."
  const PremiumCompanionMessage: string := "Premium companion requires subscription."

  /** Species that only premium users may choose. */
  predicate IsPremiumSpecies(species: string)
  {
    species == "Dragon" || species == "CrystalTree"
  }

  /** Species of the plant family. */
  predicate IsPlantSpecies(species: string)
  {
    species == "Sunflower" || species == "CrystalTree"
  }

  /** The gates of `createPillar`, in the order it checks them; `None` lets the creation through. */
  function PillarGate(isPremium: bool, pillarCount: int, species: string): (r: Option<string>)
    ensures r.None? <==> isPremium || (pillarCount < FreePillarLimit && !IsPremiumSpecies(species))
    ensures !isPremium && pillarCount >= FreePillarLimit ==> r == Some(FreeLimitMessage)
    ensures !isPremium && pillarCount < FreePillarLimit && IsPremiumSpecies(species) ==>
      r == Some(PremiumCompanionMessage)
  {
    if pillarCount >= FreePillarLimit && !isPremium then Some(FreeLimitMessage)
    else if IsPremiumSpecies(species) && !isPremium then Some(PremiumCompanionMessage)
    else None
  }

  /** The attributes `createPillar` gives a new companion. */
  datatype Companion = Companion(name: string, species: string, petType: string, stage: string, rarity: string)

  /**
   * `companionName?.trim() || (species === 'Chicken' ? "Chick" : species)`:
   * a custom name counts only when something is left after trimming.
   */
  function CompanionName(species: string, companionName: Option<string>): string
  {
    if companionName.Some? && Trim(companionName.value) != "" then Trim(companionName.value)
    else if species == "Chicken" then "Chick"
    else species
  }

  /** The companion derived from the chosen species and optional custom name. */
  function CompanionFor(species: string, companionName: Option<string>): (c: Companion)
    ensures c.species == species && c.name == CompanionName(species, companionName)
    ensures c.petType == "PLANT" <==> IsPlantSpecies(species)
    ensures c.petType == "ANIMAL" <==> !IsPlantSpecies(species)
    ensures c.rarity == (if IsPremiumSpecies(species) then "LEGENDARY" else "COMMON")
    ensures c.stage == Leveling.StagesOf(c.petType)[0]
  {
    var plant := IsPlantSpecies(species);
    Companion(
      CompanionName(species, companionName),
      species,
      if plant then "PLANT" else "ANIMAL",
      if plant then "seed" else "egg",
      if IsPremiumSpecies(species) then "LEGENDARY" else "COMMON")
  }

  /**
   * The creation stage is the stage the commit path assigns at every level
   * below 10, so a new companion starts in the stage its level calls for.
   */
  lemma CreationStageMatchesLevel(species: string, companionName: Option<string>, level: int)
    requires level < 10
    ensures CompanionFor(species, companionName).stage
         == Leveling.StageFor(CompanionFor(species, companionName).petType, level)
  {
  }

  /** A custom name made only of white space is ignored. */
  lemma BlankNameIgnored(species: string, custom: string)
    requires Blank(custom)
    ensures CompanionName(species, Some(custom)) == CompanionName(species, None)
  {
    TrimEmptyIffBlank(custom);
  }

  /** Any other custom name is used, without its surrounding white space. */
  lemma CustomNameTrimmed(species: string, custom: string)
    requires !Blank(custom)
    ensures var n := CompanionName(species, Some(custom)); n == Trim(custom) && n != [] && Trimmed(n)
  {
    TrimEmptyIffBlank(custom);
    TrimIsTrimmed(custom);
  }

  /** One habit of a bulk import: a name and a frequency. */
  datatype ImportedHabit = ImportedHabit(name: string, frequency: string)

  const MaxHabitNameLength: nat := 100

  predicate IsKnownFrequency(f: string)
  {
    f == "daily" || f == "weekly" || f == "onetime"
  }

  /** The server-side sanitising of one imported habit. */
  function Sanitized(h: ImportedHabit): (r: ImportedHabit)
    ensures |r.name| <= MaxHabitNameLength && |r.name| <= |h.name| && r.name == h.name[..|r.name|]
    ensures |h.name| <= MaxHabitNameLength ==> r.name == h.name
    ensures IsKnownFrequency(r.frequency)
    ensures IsKnownFrequency(h.frequency) ==> r.frequency == h.frequency
    ensures !IsKnownFrequency(h.frequency) ==> r.frequency == "daily"
  {
    ImportedHabit(Take(h.name, MaxHabitNameLength), if IsKnownFrequency(h.frequency) then h.frequency else "daily")
  }

  /** `habits.map(...)` of `bulkImportHabits`: one sanitised habit per input, in order. */
  function SanitizeAll(hs: seq<ImportedHabit>): (r: seq<ImportedHabit>)
    ensures |r| == |hs|
    ensures forall i :: 0 <= i < |hs| ==> r[i] == Sanitized(hs[i])
  {
    if hs == [] then [] else [Sanitized(hs[0])] + SanitizeAll(hs[1..])
  }

  /** Sanitising twice is sanitising once. */
  lemma SanitizeIdempotent(hs: seq<ImportedHabit>)
    ensures SanitizeAll(SanitizeAll(hs)) == SanitizeAll(hs)
  {
    var once := SanitizeAll(hs);
    forall i | 0 <= i < |hs| ensures Sanitized(once[i]) == once[i] {
    }
  }

  /**
   * The new end of a subscription after a purchase: counted from the current
   * end when that is still in the future, otherwise from now; one year for
   * the "annually" plan, one month for any other.
   */
  function SubscriptionBase(existingEnd: Option<DateTime>, now: DateTime): DateTime
  {
    if existingEnd.Some? && Before(now, existingEnd.value) then existingEnd.value else now
  }

  function NewSubscriptionEnd(existingEnd: Option<DateTime>, now: DateTime, plan: string): (r: DateTime)
    requires ValidDateTime(now)
    requires existingEnd.Some? ==> ValidDateTime(existingEnd.value)
    ensures ValidDateTime(r)
    ensures MonthIndex(r)
         == MonthIndex(SubscriptionBase(existingEnd, now)) + (if plan == "annually" then 12 else 1)
    ensures plan == "annually" ==>
      r.year == SubscriptionBase(existingEnd, now).year + 1 && r.month == SubscriptionBase(existingEnd, now).month
    ensures var base := SubscriptionBase(existingEnd, now);
      r.day == (if base.day <= DaysInMonth(r.year, r.month) then base.day else DaysInMonth(r.year, r.month))
    ensures r.msOfDay == SubscriptionBase(existingEnd, now).msOfDay
  {
    var base := SubscriptionBase(existingEnd, now);
    if plan == "annually" then AddYears(base, 1) else AddMonths(base, 1)
  }

  /**
   * A purchase always extends: the new end is after now and after the old
   * end, so no time already paid for is lost.
   */
  lemma PurchaseExtends(existingEnd: Option<DateTime>, now: DateTime, plan: string)
    requires ValidDateTime(now)
    requires existingEnd.Some? ==> ValidDateTime(existingEnd.value)
    ensures Before(now, NewSubscriptionEnd(existingEnd, now, plan))
    ensures existingEnd.Some? ==> Before(existingEnd.value, NewSubscriptionEnd(existingEnd, now, plan))
  {
    var base := SubscriptionBase(existingEnd, now);
    var r := NewSubscriptionEnd(existingEnd, now, plan);
    MonthIndexOrder(base, r);
    if existingEnd.Some? && !Before(now, existingEnd.value) {
      if existingEnd.value != now {
        BeforeTransitive(existingEnd.value, now, r);
      }
    }
  }
}

=== FILE: analytics.dfy ===
/**
 * The client side of `components/ui/AnalyticsModal.tsx`: the 30 day keys of
 * the consistency grid, the day → count lookup built from the per-day
 * statistics the server returns, each grid cell's count, the cumulative XP
 * progression, and the message shown when loading fails.
 *
 * A statistic's date is an instant (milliseconds since the epoch) and a day
 * key is the UTC day number of module Calendar; today's local day number is
 * a parameter.
 */
module Analytics {
  import opened Text
  import opened Calendar

  /** One row of `getAnalyticsData`: a day's instant and its commit count. */
  datatype Stat = Stat(date: int, count: int)

  /** One point of the XP chart: the statistic's instant and the XP reached by then. */
  datatype ProgressPoint = ProgressPoint(date: int, xp: int)

  /** XP per commit on the chart. */
  const XpPerCommit: int := 10

  /** `last30Days`: the 30 days up to and including `today`, oldest first. */
  function Last30Days(today: int): (r: seq<int>)
    ensures |r| == 30
  {
    seq(30, i requires 0 <= i < 30 => today - (29 - i))
  }

  /**
   * The keys run one day apart, in ascending order, and end today; they are
   * exactly the days from 29 days ago to today.
   */
  lemma Last30DaysSpan(today: int)
    ensures var r := Last30Days(today);
      && r[29] == today
      && (forall i :: 0 <= i < 29 ==> r[i + 1] == r[i] + 1)
      && (forall d :: d in r <==> today - 29 <= d <= today)
  {
    var r := Last30Days(today);
    forall d | today - 29 <= d <= today ensures d in r {
      assert r[d - today + 29] == d;
    }
  }

  /** The day key of a statistic: `new Date(stat.date).toISOString().split('T')[0]`. */
  function Key(s: Stat): int
  {
    DayOf(s.date)
  }

  /** The lookup `dailyCounts` should hold: each statistic written over the earlier ones. */
  function CountsOf(stats: seq<Stat>): map<int, int>
  {
    if stats == [] then map[]
    else CountsOf(stats[..|stats| - 1])[Key(stats[|stats| - 1]) := stats[|stats| - 1].count]
  }

  /** `dailyCounts`: `stats.reduce(...)` writing each statistic's count under its day key. */
  method DailyCounts(stats: seq<Stat>) returns (acc: map<int, int>)
    ensures acc == CountsOf(stats)
  {
    acc := map[];
    for i := 0 to |stats|
      invariant acc == CountsOf(stats[..i])
    {
      assert stats[..i + 1][..i] == stats[..i];
      var dateStr := Key(stats[i]);
      acc := acc[dateStr := stats[i].count];
    }
    assert stats[..|stats|] == stats;
  }

  /**
   * A day has an entry exactly when some statistic falls on it, and its
   * entry is the count of the last such statistic: a later statistic for
   * the same day wins.
   */
  lemma {:induction false} LaterStatWins(stats: seq<Stat>, day: int)
    ensures day in CountsOf(stats) <==> exists i :: 0 <= i < |stats| && Key(stats[i]) == day
    ensures forall i :: (0 <= i < |stats| && Key(stats[i]) == day &&
      (forall j :: i < j < |stats| ==> Key(stats[j]) != day)) ==> CountsOf(stats)[day] == stats[i].count
  {
    if stats != [] {
      var init := stats[..|stats| - 1];
      LaterStatWins(init, day);
      forall i | 0 <= i < |init| ensures init[i] == stats[i] {
      }
    }
  }

  /** A grid cell's count: `dailyCounts[dateStr] || 0`. */
  function CellCount(dailyCounts: map<int, int>, day: int): (c: int)
    ensures day !in dailyCounts ==> c == 0
  {
    if day in dailyCounts && dailyCounts[day] != 0 then dailyCounts[day] else 0
  }

  /** The counts of the 30 grid cells, oldest first. */
  function GridCounts(stats: seq<Stat>, today: int): (r: seq<int>)
    ensures |r| == 30
  {
    var days := Last30Days(today);
    seq(30, i requires 0 <= i < 30 => CellCount(CountsOf(stats), days[i]))
  }

  /**
   * The cell of a day without statistics shows 0, and the cell of a day with
   * statistics shows the count of the last statistic for that day.
   */
  lemma GridShowsLastCount(stats: seq<Stat>, today: int, i: int)
    requires 0 <= i < 30
    ensures var day := Last30Days(today)[i];
      (forall k :: 0 <= k < |stats| ==> Key(stats[k]) != day) ==> GridCounts(stats, today)[i] == 0
    ensures var day := Last30Days(today)[i];
      forall k :: (0 <= k < |stats| && Key(stats[k]) == day &&
        (forall j :: k < j < |stats| ==> Key(stats[j]) != day)) ==> GridCounts(stats, today)[i] == stats[k].count
  {
    LaterStatWins(stats, Last30Days(today)[i]);
  }

  /** The commits of `stats`, added up. */
  function SumCounts(stats: seq<Stat>): int
  {
    if stats == [] then 0 else SumCounts(stats[..|stats| - 1]) + stats[|stats| - 1].count
  }

  /**
   * `progressionData`: one point per statistic, in order, whose XP is ten
   * times the commits of that statistic and all before it.
   */
  method ProgressionData(stats: seq<Stat>) returns (points: seq<ProgressPoint>)
    ensures |points| == |stats|
    ensures forall i :: 0 <= i < |stats| ==>
      points[i] == ProgressPoint(stats[i].date, XpPerCommit * SumCounts(stats[..i + 1]))
  {
    var cumulativeXp := 0;
    points := [];
    for i := 0 to |stats|
      invariant |points| == i
      invariant cumulativeXp == XpPerCommit * SumCounts(stats[..i])
      invariant forall k :: 0 <= k < i ==>
        points[k] == ProgressPoint(stats[k].date, XpPerCommit * SumCounts(stats[..k + 1]))
    {
      assert stats[..i + 1][..i] == stats[..i];
      cumulativeXp := cumulativeXp + stats[i].count * XpPerCommit;
      points := points + [ProgressPoint(stats[i].date, cumulativeXp)];
    }
  }

  /** Adding more statistics with non-negative counts never lowers the sum. */
  lemma {:induction false} SumCountsGrows(stats: seq<Stat>, i: nat, j: nat)
    requires i <= j <= |stats|
    requires forall k :: 0 <= k < |stats| ==> stats[k].count >= 0
    ensures SumCounts(stats[..i]) <= SumCounts(stats[..j])
    decreases j - i
  {
    if i < j {
      SumCountsGrows(stats, i, j - 1);
      assert stats[..j][..j - 1] == stats[..j - 1];
    }
  }

  /**
   * With non-negative counts the chart never goes down, and its last point
   * is ten times all the commits.
   */
  lemma ProgressionNeverFalls(stats: seq<Stat>, points: seq<ProgressPoint>)
    requires |points| == |stats|
    requires forall i :: 0 <= i < |stats| ==>
      points[i] == ProgressPoint(stats[i].date, XpPerCommit * SumCounts(stats[..i + 1]))
    requires forall k :: 0 <= k < |stats| ==> stats[k].count >= 0
    ensures forall i, j :: 0 <= i <= j < |points| ==> points[i].xp <= points[j].xp
    ensures |points| > 0 ==> points[|points| - 1].xp == XpPerCommit * SumCounts(stats)
  {
    forall i, j | 0 <= i <= j < |points| ensures points[i].xp <= points[j].xp {
      PointsGrow(stats, points, i, j);
    }
    assert stats[..|stats|] == stats;
  }

  lemma PointsGrow(stats: seq<Stat>, points: seq<ProgressPoint>, i: nat, j: nat)
    requires |points| == |stats|
    requires forall i :: 0 <= i < |stats| ==>
      points[i] == ProgressPoint(stats[i].date, XpPerCommit * SumCounts(stats[..i + 1]))
    requires forall k :: 0 <= k < |stats| ==> stats[k].count >= 0
    requires i <= j < |stats|
    ensures points[i].xp <= points[j].xp
  {
    SumCountsGrows(stats, i + 1, j + 1);
  }

  /** The error shown when loading fails: premium errors ask for an upgrade. */
  function FetchErrorMessage(thrown: string): string
  {
    if Contains(thrown, "Premium") then "Premium Feature Locked. Upgrade to view insights."
    else "Failed to load analytics."
  }

  /** The server's premium refusal asks for an upgrade. */
  lemma PremiumRefusalAsksForUpgrade()
    ensures FetchErrorMessage("Analytics is a Premium feature.") == "Premium Feature Locked. Upgrade to view insights."
  {
    assert OccursAt("Analytics is a Premium feature.", "Premium", 15);
  }

  /** The server's other refusals show the plain failure message. */
  lemma OtherRefusalsFail()
    ensures FetchErrorMessage("Unauthorized") == "Failed to load analytics."
    ensures FetchErrorMessage("Garden not found.") == "Failed to load analytics."
  {
    LacksFirstChar("Unauthorized", "Premium");
    LacksFirstChar("Garden not found.", "Premium");
  }

  /** A text without the first character of `sub` does not contain `sub`. */
  lemma LacksFirstChar(s: string, sub: string)
    requires |sub| > 0 && sub[0] !in s
    ensures !Contains(s, sub)
  {
  }
}

=== FILE: app_store.dfy ===
/**
 * The client-side state container of `stores/app-store.ts`: the signed-in
 * user's pillars with their habits, the selected pillar, today's actions and
 * the loading and error flags. Every store action calls the API first and
 * then replaces the lists it affects; the outcome of the API call is a
 * parameter of the method.
 */
module AppStore {
  import opened Wrappers
  import opened Lists

  /** The row types of `lib/types.ts` that the store holds. */
  datatype Pillar = Pillar(id: string, userId: string, name: string, icon: string, createdAt: string)

  datatype Habit = Habit(
    id: string, pillarId: string, name: string, frequencyType: string,
    targetPerPeriod: int, metricType: string, createdAt: string)

  datatype Action = Action(id: string, habitId: string, userId: string, date: string, createdAt: string)

  datatype PillarWithHabits = PillarWithHabits(pillar: Pillar, habits: seq<Habit>)

  /** The fields the database adds to an inserted row: its id, its owner and its creation time. */
  datatype RowStamp = RowStamp(id: string, userId: string, createdAt: string)

  /** What the caller supplies when creating a pillar, a habit or an action. */
  datatype NewPillar = NewPillar(name: string, icon: string)
  datatype NewHabit = NewHabit(pillarId: string, name: string, frequencyType: string, targetPerPeriod: int, metricType: string)
  datatype NewAction = NewAction(habitId: string, date: string)

  /** The rows the API returns for an insert: the supplied fields plus the stamp. */
  function PillarRow(d: NewPillar, s: RowStamp): (p: Pillar)
    ensures p.id == s.id && p.userId == s.userId && p.createdAt == s.createdAt
    ensures p.name == d.name && p.icon == d.icon
  {
    Pillar(s.id, s.userId, d.name, d.icon, s.createdAt)
  }

  function HabitRow(d: NewHabit, s: RowStamp): (h: Habit)
    ensures h.id == s.id && h.createdAt == s.createdAt
    ensures h.pillarId == d.pillarId && h.name == d.name && h.frequencyType == d.frequencyType
    ensures h.targetPerPeriod == d.targetPerPeriod && h.metricType == d.metricType
  {
    Habit(s.id, d.pillarId, d.name, d.frequencyType, d.targetPerPeriod, d.metricType, s.createdAt)
  }

  function ActionRow(d: NewAction, s: RowStamp): (a: Action)
    ensures a.id == s.id && a.userId == s.userId && a.createdAt == s.createdAt
    ensures a.habitId == d.habitId && a.date == d.date
  {
    Action(s.id, d.habitId, s.userId, d.date, s.createdAt)
  }

  /**
   * The outcome of an awaited API call: its value, or the thrown value,
   * which carries a message when it is an `Error` and none otherwise.
   */
  datatype ApiResult<T> = Ok(value: T) | Failed(errorMessage: Option<string>)

  /** `error instanceof Error ? error.message : fallback`. */
  function FailureMessage<T>(r: ApiResult<T>, fallback: string): (m: string)
    requires r.Failed?
    ensures r.errorMessage.Some? ==> m == r.errorMessage.value
    ensures r.errorMessage.None? ==> m == fallback
  {
    r.errorMessage.GetOr(fallback)
  }

  /** The number of habits over all pillars. */
  function HabitCount(ps: seq<PillarWithHabits>): nat
  {
    if ps == [] then 0 else |ps[0].habits| + HabitCount(ps[1..])
  }

  predicate HasPillarId(ps: seq<PillarWithHabits>, id: string)
  {
    exists i :: 0 <= i < |ps| && ps[i].pillar.id == id
  }

  /** No two pillars share an id, as the database's primary key guarantees. */
  predicate UniquePillarIds(ps: seq<PillarWithHabits>)
  {
    forall i, j :: 0 <= i < j < |ps| ==> ps[i].pillar.id != ps[j].pillar.id
  }

  predicate HasHabitId(ps: seq<PillarWithHabits>, id: string)
  {
    exists i, j :: 0 <= i < |ps| && 0 <= j < |ps[i].habits| && ps[i].habits[j].id == id
  }

  // ---------------------------------------------------------------------------
  // The list updates of the store actions
  // ---------------------------------------------------------------------------

  function SamePillar(id: string): PillarWithHabits -> bool
  {
    (p: PillarWithHabits) => p.pillar.id == id
  }

  function OtherPillar(id: string): PillarWithHabits -> bool
  {
    (p: PillarWithHabits) => p.pillar.id != id
  }

  /** `pillars.filter((p) => p.id !== pillarId)` of `deletePillar`. */
  function PillarsWithout(ps: seq<PillarWithHabits>, id: string): (r: seq<PillarWithHabits>)
    ensures forall p :: p in r <==> p in ps && p.pillar.id != id
  {
    Filter(ps, OtherPillar(id))
  }

  /**
   * `pillars.map((p) => p.id === id ? { ...p, ...updated } : p)` of
   * `updatePillar`: the returned row's fields replace those of every pillar
   * with the id, and every pillar keeps its habits.
   */
  function PillarsMerged(ps: seq<PillarWithHabits>, id: string, updated: Pillar): (r: seq<PillarWithHabits>)
    ensures |r| == |ps|
    ensures forall i :: 0 <= i < |ps| ==> r[i].habits == ps[i].habits
    ensures forall i :: 0 <= i < |ps| ==> r[i].pillar == (if ps[i].pillar.id == id then updated else ps[i].pillar)
  {
    if ps == [] then []
    else [if ps[0].pillar.id == id then ps[0].(pillar := updated) else ps[0]] + PillarsMerged(ps[1..], id, updated)
  }

  /** The habit list of `addHabit`: `h` appended to every pillar whose id is `pillarId`. */
  function HabitAdded(ps: seq<PillarWithHabits>, pillarId: string, h: Habit): (r: seq<PillarWithHabits>)
    ensures |r| == |ps|
    ensures forall i :: 0 <= i < |ps| ==> r[i].pillar == ps[i].pillar
    ensures forall i :: 0 <= i < |ps| ==>
      r[i].habits == (if ps[i].pillar.id == pillarId then ps[i].habits + [h] else ps[i].habits)
  {
    if ps == [] then []
    else
      var first := if ps[0].pillar.id == pillarId then ps[0].(habits := ps[0].habits + [h]) else ps[0];
      [first] + HabitAdded(ps[1..], pillarId, h)
  }

  /** `habits.map((h) => h.id === id ? updated : h)` within one pillar. */
  function Replaced(hs: seq<Habit>, id: string, updated: Habit): (r: seq<Habit>)
    ensures |r| == |hs|
    ensures forall j :: 0 <= j < |hs| ==> r[j] == (if hs[j].id == id then updated else hs[j])
  {
    if hs == [] then [] else [if hs[0].id == id then updated else hs[0]] + Replaced(hs[1..], id, updated)
  }

  /** The habit lists of `updateHabit`: every habit with the id, in every pillar, becomes the returned row. */
  function HabitsReplaced(ps: seq<PillarWithHabits>, id: string, updated: Habit): (r: seq<PillarWithHabits>)
    ensures |r| == |ps|
    ensures forall i :: 0 <= i < |ps| ==>
      r[i].pillar == ps[i].pillar && r[i].habits == Replaced(ps[i].habits, id, updated)
  {
    if ps == [] then []
    else [ps[0].(habits := Replaced(ps[0].habits, id, updated))] + HabitsReplaced(ps[1..], id, updated)
  }

  function OtherHabit(id: string): Habit -> bool
  {
    (h: Habit) => h.id != id
  }

  /** The habit lists of `deleteHabit`: every habit with the id is dropped from every pillar. */
  function HabitsWithout(ps: seq<PillarWithHabits>, id: string): (r: seq<PillarWithHabits>)
    ensures |r| == |ps|
    ensures forall i :: 0 <= i < |ps| ==>
      r[i].pillar == ps[i].pillar && r[i].habits == Filter(ps[i].habits, OtherHabit(id))
  {
    if ps == [] then []
    else [ps[0].(habits := Filter(ps[0].habits, OtherHabit(id)))] + HabitsWithout(ps[1..], id)
  }

  function OtherAction(habitId: string, date: string): Action -> bool
  {
    (a: Action) => !(a.habitId == habitId && a.date == date)
  }

  /** `todayActions.filter(...)` of `removeAction`: drops the actions of that habit on that date. */
  function ActionsWithout(actions: seq<Action>, habitId: string, date: string): (r: seq<Action>)
    ensures forall a :: a in r <==> a in actions && !(a.habitId == habitId && a.date == date)
  {
    Filter(actions, OtherAction(habitId, date))
  }

  // ---------------------------------------------------------------------------
  // Properties of the list updates
  // ---------------------------------------------------------------------------

  /**
   * Deleting a pillar that was just added with a fresh id gives back the
   * list from before the addition; the other pillars keep their order.
   */
  lemma DeletePillarUndoesAdd(ps: seq<PillarWithHabits>, p: Pillar)
    requires !HasPillarId(ps, p.id)
    ensures PillarsWithout(ps + [PillarWithHabits(p, [])], p.id) == ps
  {
    FilterAppend(ps, [PillarWithHabits(p, [])], OtherPillar(p.id));
    FilterKeepsAll(ps, OtherPillar(p.id));
    assert Filter([PillarWithHabits(p, [])], OtherPillar(p.id)) == [];
  }

  /** Deleting removes only pillars with the id: the rest keep their order, so a deletion of `p` between `a` and `b` joins them. */
  lemma DeletePillarKeepsOrder(a: seq<PillarWithHabits>, p: PillarWithHabits, b: seq<PillarWithHabits>)
    requires !HasPillarId(a, p.pillar.id) && !HasPillarId(b, p.pillar.id)
    ensures PillarsWithout(a + [p] + b, p.pillar.id) == a + b
  {
    var keep := OtherPillar(p.pillar.id);
    FilterAppend(a + [p], b, keep);
    FilterAppend(a, [p], keep);
    assert Filter([p], keep) == [];
    assert Filter(a + [p], keep) == Filter(a, keep);
    FilterKeepsAll(a, keep);
    FilterKeepsAll(b, keep);
  }

  /** Merging a row into an id no pillar has changes nothing. */
  lemma {:induction false} MergeOfAbsentIdIsIdentity(ps: seq<PillarWithHabits>, id: string, updated: Pillar)
    requires !HasPillarId(ps, id)
    ensures PillarsMerged(ps, id, updated) == ps
  {
    if ps != [] {
      assert !HasPillarId(ps[1..], id) by {
        forall i | 0 <= i < |ps[1..]| ensures ps[1..][i].pillar.id != id {
          assert ps[1..][i] == ps[i + 1];
        }
      }
      MergeOfAbsentIdIsIdentity(ps[1..], id, updated);
    }
  }

  /** `addHabit` grows the habit count by one for each pillar with the id: by exactly one when the ids are unique and the pillar is loaded. */
  lemma {:induction false} HabitAddedCount(ps: seq<PillarWithHabits>, pillarId: string, h: Habit)
    ensures HabitCount(HabitAdded(ps, pillarId, h)) == HabitCount(ps) + |Filter(ps, SamePillar(pillarId))|
  {
    if ps != [] {
      var r := HabitAdded(ps, pillarId, h);
      assert r[1..] == HabitAdded(ps[1..], pillarId, h);
      HabitAddedCount(ps[1..], pillarId, h);
    }
  }

  /** With unique pillar ids, a habit added to a loaded pillar raises the habit count by exactly one. */
  lemma AddHabitAddsOne(ps: seq<PillarWithHabits>, pillarId: string, h: Habit)
    requires UniquePillarIds(ps) && HasPillarId(ps, pillarId)
    ensures HabitCount(HabitAdded(ps, pillarId, h)) == HabitCount(ps) + 1
  {
    HabitAddedCount(ps, pillarId, h);
    UniqueMatchOnce(ps, pillarId);
  }

  /** Among pillars with unique ids, exactly one carries a present id. */
  lemma {:induction false} UniqueMatchOnce(ps: seq<PillarWithHabits>, id: string)
    requires UniquePillarIds(ps) && HasPillarId(ps, id)
    ensures |Filter(ps, SamePillar(id))| == 1
  {
    var k :| 0 <= k < |ps| && ps[k].pillar.id == id;
    var same := SamePillar(id);
    var before, after := ps[..k], ps[k + 1..];
    assert ps == before + [ps[k]] + after;
    forall i | 0 <= i < |before| ensures before[i].pillar.id != id {
      assert before[i] == ps[i];
    }
    forall i | 0 <= i < |after| ensures after[i].pillar.id != id {
      assert after[i] == ps[k + 1 + i];
    }
    NoMatch(before, id);
    NoMatch(after, id);
    assert Filter([ps[k]], same) == [ps[k]];
    FilterAppend(before, [ps[k]], same);
    FilterAppend(before + [ps[k]], after, same);
  }

  lemma NoMatch(ps: seq<PillarWithHabits>, id: string)
    requires forall i :: 0 <= i < |ps| ==> ps[i].pillar.id != id
    ensures Filter(ps, SamePillar(id)) == []
  {
  }

  /** Replacing twice with the same row is replacing once. */
  lemma UpdateHabitIdempotent(ps: seq<PillarWithHabits>, id: string, updated: Habit)
    ensures HabitsReplaced(HabitsReplaced(ps, id, updated), id, updated) == HabitsReplaced(ps, id, updated)
  {
    var once := HabitsReplaced(ps, id, updated);
    forall i | 0 <= i < |ps|
      ensures Replaced(once[i].habits, id, updated) == once[i].habits
    {
    }
  }

  /** `updateHabit` and `deleteHabit` keep every pillar, in order. */
  lemma HabitEditsKeepPillars(ps: seq<PillarWithHabits>, id: string, updated: Habit)
    ensures var r := HabitsReplaced(ps, id, updated);
      |r| == |ps| && forall i :: 0 <= i < |ps| ==> r[i].pillar == ps[i].pillar
    ensures var r := HabitsWithout(ps, id);
      |r| == |ps| && forall i :: 0 <= i < |ps| ==> r[i].pillar == ps[i].pillar
    ensures HabitCount(HabitsReplaced(ps, id, updated)) == HabitCount(ps)
  {
    ReplacedKeepsCount(ps, id, updated);
  }

  lemma {:induction false} ReplacedKeepsCount(ps: seq<PillarWithHabits>, id: string, updated: Habit)
    ensures HabitCount(HabitsReplaced(ps, id, updated)) == HabitCount(ps)
  {
    if ps != [] {
      var r := HabitsReplaced(ps, id, updated);
      assert r[1..] == HabitsReplaced(ps[1..], id, updated);
      ReplacedKeepsCount(ps[1..], id, updated);
    }
  }

  /** After `deleteHabit` no pillar holds a habit with the id. */
  lemma DeleteHabitRemovesAll(ps: seq<PillarWithHabits>, id: string)
    ensures !HasHabitId(HabitsWithout(ps, id), id)
  {
    var r := HabitsWithout(ps, id);
    forall i, j | 0 <= i < |r| && 0 <= j < |r[i].habits| ensures r[i].habits[j].id != id {
      assert r[i].habits[j] in Filter(ps[i].habits, OtherHabit(id));
    }
  }

  /** Deleting a habit that was just added with a fresh id gives back the lists from before. */
  lemma DeleteHabitUndoesAdd(ps: seq<PillarWithHabits>, pillarId: string, h: Habit)
    requires !HasHabitId(ps, h.id)
    ensures HabitsWithout(HabitAdded(ps, pillarId, h), h.id) == ps
  {
    var added := HabitAdded(ps, pillarId, h);
    var r := HabitsWithout(added, h.id);
    forall i | 0 <= i < |ps| ensures r[i] == ps[i] {
      var keep := OtherHabit(h.id);
      assert forall j :: 0 <= j < |ps[i].habits| ==> keep(ps[i].habits[j]);
      FilterKeepsAll(ps[i].habits, keep);
      if ps[i].pillar.id == pillarId {
        FilterAppend(ps[i].habits, [h], keep);
        assert Filter([h], keep) == [];
      }
    }
  }

  /**
   * Removing the actions of a habit on a date after adding one for that
   * habit and date is the same as removing them before the addition; when
   * there were none, the list is back to what it was.
   */
  lemma RemoveActionUndoesAdd(actions: seq<Action>, a: Action)
    ensures ActionsWithout(actions + [a], a.habitId, a.date) == ActionsWithout(actions, a.habitId, a.date)
    ensures (forall i :: 0 <= i < |actions| ==> !(actions[i].habitId == a.habitId && actions[i].date == a.date)) ==>
      ActionsWithout(actions + [a], a.habitId, a.date) == actions
  {
    var keep := OtherAction(a.habitId, a.date);
    FilterAppend(actions, [a], keep);
    assert Filter([a], keep) == [];
    if forall i :: 0 <= i < |actions| ==> keep(actions[i]) {
      FilterKeepsAll(actions, keep);
    }
  }

  /** Removing the actions of a habit and date keeps the others in their order. */
  lemma RemoveActionKeepsOrder(a: seq<Action>, b: seq<Action>, habitId: string, date: string)
    ensures ActionsWithout(a + b, habitId, date) == ActionsWithout(a, habitId, date) + ActionsWithout(b, habitId, date)
  {
    FilterAppend(a, b, OtherAction(habitId, date));
  }

  // ---------------------------------------------------------------------------
  // The store
  // ---------------------------------------------------------------------------

  const LoadPillarsFailure: string := "Failed to load pillars"
  const LoadActionsFailure: string := "Failed to load today's actions"
  const CreatePillarFailure: string := "Failed to create pillar"
  const UpdatePillarFailure: string := "Failed to update pillar"
  const DeletePillarFailure: string := "Failed to delete pillar"
  const CreateHabitFailure: string := "Failed to create habit"
  const UpdateHabitFailure: string := "Failed to update habit"
  const DeleteHabitFailure: string := "Failed to delete habit"
  const CommitFailure: string := "Failed to commit habit"
  const RemoveActionFailure: string := "Failed to remove action"

  /**
   * `useAppStore`. Actions that rethrow a failed API call report it through
   * their `rethrown` result; on failure they set `error` and leave every list
   * as it was.
   */
  class Store {
    var pillars: seq<PillarWithHabits>
    var selectedPillar: Option<Pillar>
    var todayActions: seq<Action>
    var loading: bool
    var error: Option<string>

    /** The initial state. */
    constructor ()
      ensures pillars == [] && selectedPillar == None && todayActions == []
      ensures !loading && error == None
    {
      pillars, selectedPillar, todayActions := [], None, [];
      loading, error := false, None;
    }

    /** `loadPillars`: the fetched list replaces the pillars; `loading` ends false on both paths and the error is swallowed. */
    method LoadPillars(fetched: ApiResult<seq<PillarWithHabits>>)
      modifies this
      ensures !loading
      ensures fetched.Ok? ==> pillars == fetched.value && error == None
      ensures fetched.Failed? ==> pillars == old(pillars) && error == Some(FailureMessage(fetched, LoadPillarsFailure))
      ensures selectedPillar == old(selectedPillar) && todayActions == old(todayActions)
    {
      loading, error := true, None;
      match fetched {
        case Ok(ps) =>
          pillars, loading := ps, false;
        case Failed(_) =>
          error, loading := Some(FailureMessage(fetched, LoadPillarsFailure)), false;
      }
    }

    /** `loadTodayActions`: the fetched actions replace today's actions; the error is swallowed. */
    method LoadTodayActions(fetched: ApiResult<seq<Action>>)
      modifies this
      ensures fetched.Ok? ==> todayActions == fetched.value && error == None
      ensures fetched.Failed? ==> todayActions == old(todayActions) && error == Some(FailureMessage(fetched, LoadActionsFailure))
      ensures pillars == old(pillars) && selectedPillar == old(selectedPillar) && loading == old(loading)
    {
      error := None;
      match fetched {
        case Ok(actions) =>
          todayActions := actions;
        case Failed(_) =>
          error := Some(FailureMessage(fetched, LoadActionsFailure));
      }
    }

    /** `addPillar`: the created row, with no habits, is appended after the existing pillars. */
    method AddPillar(data: NewPillar, created: ApiResult<RowStamp>) returns (rethrown: bool)
      modifies this
      ensures rethrown <==> created.Failed?
      ensures !loading
      ensures created.Ok? ==>
        pillars == old(pillars) + [PillarWithHabits(PillarRow(data, created.value), [])] && error == None
      ensures created.Failed? ==>
        pillars == old(pillars) && error == Some(FailureMessage(created, CreatePillarFailure))
      ensures selectedPillar == old(selectedPillar) && todayActions == old(todayActions)
    {
      loading, error := true, None;
      match created {
        case Ok(stamp) =>
          pillars := pillars + [PillarWithHabits(PillarRow(data, stamp), [])];
          loading := false;
          rethrown := false;
        case Failed(_) =>
          error, loading := Some(FailureMessage(created, CreatePillarFailure)), false;
          rethrown := true;
      }
    }

    /** `updatePillar`: the returned row is merged into the pillars with the id and into the selected pillar when it has the id. */
    method UpdatePillar(id: string, updated: ApiResult<Pillar>) returns (rethrown: bool)
      modifies this
      ensures rethrown <==> updated.Failed?
      ensures updated.Ok? ==> && pillars == PillarsMerged(old(pillars), id, updated.value)
                              && selectedPillar == (if old(selectedPillar).Some? && old(selectedPillar).value.id == id
                                                    then Some(updated.value) else old(selectedPillar))
                              && error == None
      ensures updated.Failed? ==> && pillars == old(pillars) && selectedPillar == old(selectedPillar)
                                  && error == Some(FailureMessage(updated, UpdatePillarFailure))
      ensures todayActions == old(todayActions) && loading == old(loading)
    {
      error := None;
      match updated {
        case Ok(row) =>
          pillars := PillarsMerged(pillars, id, row);
          if selectedPillar.Some? && selectedPillar.value.id == id {
            selectedPillar := Some(row);
          }
          rethrown := false;
        case Failed(_) =>
          error := Some(FailureMessage(updated, UpdatePillarFailure));
          rethrown := true;
      }
    }

    /** `deletePillar`: the pillars with the id are dropped, and the selection is cleared only when it had the id. */
    method DeletePillar(pillarId: string, deleted: ApiResult<()>) returns (rethrown: bool)
      modifies this
      ensures rethrown <==> deleted.Failed?
      ensures deleted.Ok? ==> && pillars == PillarsWithout(old(pillars), pillarId)
                              && selectedPillar == (if old(selectedPillar).Some? && old(selectedPillar).value.id == pillarId
                                                    then None else old(selectedPillar))
                              && error == None
      ensures deleted.Failed? ==> && pillars == old(pillars) && selectedPillar == old(selectedPillar)
                                  && error == Some(FailureMessage(deleted, DeletePillarFailure))
      ensures todayActions == old(todayActions) && loading == old(loading)
    {
      error := None;
      if deleted.Ok? {
        pillars := PillarsWithout(pillars, pillarId);
        if selectedPillar.Some? && selectedPillar.value.id == pillarId {
          selectedPillar := None;
        }
        rethrown := false;
      } else {
        error := Some(FailureMessage(deleted, DeletePillarFailure));
        rethrown := true;
      }
    }

    /** `setSelectedPillar`. */
    method SetSelectedPillar(p: Option<Pillar>)
      modifies this
      ensures selectedPillar == p
      ensures pillars == old(pillars) && todayActions == old(todayActions)
      ensures loading == old(loading) && error == old(error)
    {
      selectedPillar := p;
    }

    /** `addHabit`: the created habit is appended to the pillar named by the request's `pillarId`. */
    method AddHabit(data: NewHabit, created: ApiResult<RowStamp>) returns (rethrown: bool)
      modifies this
      ensures rethrown <==> created.Failed?
      ensures created.Ok? ==> pillars == HabitAdded(old(pillars), data.pillarId, HabitRow(data, created.value)) && error == None
      ensures created.Failed? ==> pillars == old(pillars) && error == Some(FailureMessage(created, CreateHabitFailure))
      ensures selectedPillar == old(selectedPillar) && todayActions == old(todayActions) && loading == old(loading)
    {
      error := None;
      if created.Ok? {
        pillars := HabitAdded(pillars, data.pillarId, HabitRow(data, created.value));
        rethrown := false;
      } else {
        error := Some(FailureMessage(created, CreateHabitFailure));
        rethrown := true;
      }
    }

    /** `updateHabit`: every habit with the id, in every pillar, becomes the returned row. */
    method UpdateHabit(id: string, updated: ApiResult<Habit>) returns (rethrown: bool)
      modifies this
      ensures rethrown <==> updated.Failed?
      ensures updated.Ok? ==> pillars == HabitsReplaced(old(pillars), id, updated.value) && error == None
      ensures updated.Failed? ==> pillars == old(pillars) && error == Some(FailureMessage(updated, UpdateHabitFailure))
      ensures selectedPillar == old(selectedPillar) && todayActions == old(todayActions) && loading == old(loading)
    {
      error := None;
      if updated.Ok? {
        pillars := HabitsReplaced(pillars, id, updated.value);
        rethrown := false;
      } else {
        error := Some(FailureMessage(updated, UpdateHabitFailure));
        rethrown := true;
      }
    }

    /** `deleteHabit`: every habit with the id is dropped; every pillar stays. */
    method DeleteHabit(habitId: string, deleted: ApiResult<()>) returns (rethrown: bool)
      modifies this
      ensures rethrown <==> deleted.Failed?
      ensures deleted.Ok? ==> pillars == HabitsWithout(old(pillars), habitId) && error == None
      ensures deleted.Failed? ==> pillars == old(pillars) && error == Some(FailureMessage(deleted, DeleteHabitFailure))
      ensures selectedPillar == old(selectedPillar) && todayActions == old(todayActions) && loading == old(loading)
    {
      error := None;
      if deleted.Ok? {
        pillars := HabitsWithout(pillars, habitId);
        rethrown := false;
      } else {
        error := Some(FailureMessage(deleted, DeleteHabitFailure));
        rethrown := true;
      }
    }

    /** `addAction`: the created action is appended to today's actions. */
    method AddAction(data: NewAction, created: ApiResult<RowStamp>) returns (rethrown: bool)
      modifies this
      ensures rethrown <==> created.Failed?
      ensures created.Ok? ==> todayActions == old(todayActions) + [ActionRow(data, created.value)] && error == None
      ensures created.Failed? ==> todayActions == old(todayActions) && error == Some(FailureMessage(created, CommitFailure))
      ensures pillars == old(pillars) && selectedPillar == old(selectedPillar) && loading == old(loading)
    {
      error := None;
      if created.Ok? {
        todayActions := todayActions + [ActionRow(data, created.value)];
        rethrown := false;
      } else {
        error := Some(FailureMessage(created, CommitFailure));
        rethrown := true;
      }
    }

    /** `removeAction`: the actions of that habit on that date are dropped, the others keep their order. */
    method RemoveAction(habitId: string, date: string, removed: ApiResult<()>) returns (rethrown: bool)
      modifies this
      ensures rethrown <==> removed.Failed?
      ensures removed.Ok? ==> todayActions == ActionsWithout(old(todayActions), habitId, date) && error == None
      ensures removed.Failed? ==> todayActions == old(todayActions) && error == Some(FailureMessage(removed, RemoveActionFailure))
      ensures pillars == old(pillars) && selectedPillar == old(selectedPillar) && loading == old(loading)
    {
      error := None;
      if removed.Ok? {
        todayActions := ActionsWithout(todayActions, habitId, date);
        rethrown := false;
      } else {
        error := Some(FailureMessage(removed, RemoveActionFailure));
        rethrown := true;
      }
    }

    /** `setLoading`. */
    method SetLoading(value: bool)
      modifies this
      ensures loading == value
      ensures pillars == old(pillars) && selectedPillar == old(selectedPillar)
      ensures todayActions == old(todayActions) && error == old(error)
    {
      loading := value;
    }

    /** `setError`. */
    method SetError(value: Option<string>)
      modifies this
      ensures error == value
      ensures pillars == old(pillars) && selectedPillar == old(selectedPillar)
      ensures todayActions == old(todayActions) && loading == old(loading)
    {
      error := value;
    }

    /** `clearError`. */
    method ClearError()
      modifies this
      ensures error == None
      ensures pillars == old(pillars) && selectedPillar == old(selectedPillar)
      ensures todayActions == old(todayActions) && loading == old(loading)
    {
      error := None;
    }
  }
}

=== FILE: bulk_import_modal.dfy ===
/**
 * The spreadsheet upload of `components/ui/BulkImportModal.tsx`: each sheet
 * row becomes a `{name, frequency}` habit, a row without a name aborts the
 * whole upload before anything is sent, and the habits are handed to the
 * `bulkImportHabits` server action. Cells are read as text; an absent cell is
 * `None`.
 */
module BulkImportModal {
  import opened Wrappers
  import opened Text
  import opened Records
  import opened ActionRules
  import opened Database

  /** The cells of one row that the upload reads, by column header. */
  datatype SheetRow = SheetRow(
    nameCell: Option<string>,        // "Name"
    lowerNameCell: Option<string>,   // "name"
    taskNameCell: Option<string>,    // "Task Name"
    frequencyCell: Option<string>,   // "Frequency"
    lowerFrequencyCell: Option<string>) // "frequency"

  /** A cell JavaScript treats as true: present and not the empty string. */
  predicate Truthy(c: Option<string>)
  {
    c.Some? && c.value != ""
  }

  /** `a || b`, on cells. */
  function Or(a: Option<string>, b: Option<string>): (r: Option<string>)
    ensures Truthy(a) ==> r == a
    ensures !Truthy(a) ==> r == b
  {
    if Truthy(a) then a else b
  }

  /** `row.Name || row.name || row['Task Name']`. */
  function RowName(row: SheetRow): Option<string>
  {
    Or(row.nameCell, Or(row.lowerNameCell, row.taskNameCell))
  }

  predicate HasName(row: SheetRow)
  {
    Truthy(RowName(row))
  }

  /** A row has a name exactly when one of its three name columns holds a non-empty text. */
  lemma HasNameIff(row: SheetRow)
    ensures HasName(row) <==> Truthy(row.nameCell) || Truthy(row.lowerNameCell) || Truthy(row.taskNameCell)
    ensures Truthy(row.nameCell) ==> RowName(row) == row.nameCell
    ensures !Truthy(row.nameCell) && Truthy(row.lowerNameCell) ==> RowName(row) == row.lowerNameCell
  {
  }

  const KnownFrequencies: seq<string> := ["daily", "weekly", "onetime"]

  /**
   * `row.Frequency || row.frequency || 'daily'`, lowercased, and replaced by
   * "daily" when it is not one of the three known frequencies.
   */
  function RowFrequency(row: SheetRow): (f: string)
    ensures IsKnownFrequency(f)
  {
    var chosen := Or(row.frequencyCell, Or(row.lowerFrequencyCell, Some("daily")));
    var lowered := Lower(chosen.value);
    if lowered in KnownFrequencies then lowered else "daily"
  }

  /** A known frequency in any letter case is kept, lowercased; a missing one is daily. */
  lemma RowFrequencyRule(row: SheetRow)
    ensures Truthy(row.frequencyCell) && IsKnownFrequency(Lower(row.frequencyCell.value)) ==>
      RowFrequency(row) == Lower(row.frequencyCell.value)
    ensures !Truthy(row.frequencyCell) && !Truthy(row.lowerFrequencyCell) ==> RowFrequency(row) == "daily"
    ensures Truthy(row.frequencyCell) && !IsKnownFrequency(Lower(row.frequencyCell.value)) ==>
      RowFrequency(row) == "daily"
  {
    LowerOfDaily();
  }

  lemma LowerOfDaily()
    ensures Lower("daily") == "daily"
  {
    var s := "daily";
    assert Lower(s) == [LowerChar(s[0])] + Lower(s[1..]);
  }

  /** The error that aborts an upload at the row with zero-based index `i`. */
  function MissingNameError(i: nat): string
  {
    "Row " + NatToString(i + 1) + ": Missing Name"
  }

  /** The error text names the sheet's row number, counting from 1. */
  lemma MissingNameErrorText()
    ensures MissingNameError(0) == "Row 1: Missing Name"
    ensures MissingNameError(11) == "Row 12: Missing Name"
  {
  }

  /** The habits of `rows`, the first of which is row number `start` of the sheet. */
  function TransformFrom(rows: seq<SheetRow>, start: nat): (r: Result<seq<ImportedHabit>, string>)
    ensures r.Success? ==> |r.value| == |rows|
  {
    if rows == [] then Success([])
    else if !HasName(rows[0]) then Failure(MissingNameError(start))
    else
      match TransformFrom(rows[1..], start + 1)
      case Success(rest) => Success([ImportedHabit(RowName(rows[0]).value, RowFrequency(rows[0]))] + rest)
      case Failure(e) => Failure(e)
  }

  /** `json.map((row, i) => ...)`: one habit per row, or the error of the first row without a name. */
  function Transform(rows: seq<SheetRow>): Result<seq<ImportedHabit>, string>
  {
    TransformFrom(rows, 0)
  }

  /**
   * The transform succeeds exactly when every row has a name; it then gives
   * one habit per row, in order, named and timed as that row says. Otherwise
   * it fails with the error of the first row without a name.
   */
  lemma {:induction false} TransformFromMeaning(rows: seq<SheetRow>, start: nat)
    ensures var r := TransformFrom(rows, start);
      r.Success? <==> forall i :: 0 <= i < |rows| ==> HasName(rows[i])
    ensures var r := TransformFrom(rows, start);
      r.Success? ==> forall i :: 0 <= i < |rows| ==>
        r.value[i] == ImportedHabit(RowName(rows[i]).value, RowFrequency(rows[i]))
    ensures var r := TransformFrom(rows, start);
      r.Failure? ==> exists k :: && 0 <= k < |rows| && !HasName(rows[k])
                                 && (forall i :: 0 <= i < k ==> HasName(rows[i]))
                                 && r.error == MissingNameError(start + k)
  {
    if rows != [] && HasName(rows[0]) {
      var tail := rows[1..];
      TransformFromMeaning(tail, start + 1);
      var r := TransformFrom(rows, start);
      var rest := TransformFrom(tail, start + 1);
      if rest.Success? {
        forall i | 0 <= i < |rows| ensures r.value[i] == ImportedHabit(RowName(rows[i]).value, RowFrequency(rows[i])) {
          if i > 0 {
            assert rows[i] == tail[i - 1];
          }
        }
      } else {
        var k :| && 0 <= k < |tail| && !HasName(tail[k])
                 && (forall i :: 0 <= i < k ==> HasName(tail[i]))
                 && rest.error == MissingNameError(start + 1 + k);
        assert rows[k + 1] == tail[k];
        forall i | 0 <= i < k + 1 ensures HasName(rows[i]) {
          if i > 0 {
            assert rows[i] == tail[i - 1];
          }
        }
      }
      if forall i :: 0 <= i < |rows| ==> HasName(rows[i]) {
        forall i | 0 <= i < |tail| ensures HasName(tail[i]) {
          assert tail[i] == rows[i + 1];
        }
      }
    }
  }

  /** Every frequency the upload sends is one the server keeps as it is. */
  lemma ServerKeepsUploadedFrequencies(rows: seq<SheetRow>)
    requires Transform(rows).Success?
    ensures var hs := Transform(rows).value;
      forall i :: 0 <= i < |hs| ==> SanitizeAll(hs)[i].frequency == hs[i].frequency
  {
    TransformFromMeaning(rows, 0);
  }

  /** The log line of a failed upload: `Error: ${err.message}`. */
  function ErrorLine(message: string): string
  {
    "Error: " + message
  }

  /** The first two lines of the upload log. */
  function ReadingLog(rows: seq<SheetRow>): seq<string>
  {
    ["Reading file...", "Found " + NatToString(|rows|) + " rows."]
  }

  /**
   * `handleUpload`: reads the rows, aborts with the missing-name error before
   * calling the server when a row has no name, and otherwise sends the habits
   * to `bulkImportHabits`. Returns the progress log shown in the dialog.
   */
  method HandleUpload(db: Db, session: Option<Session>, pillarId: string, rows: seq<SheetRow>, newIds: seq<string>)
    returns (log: seq<string>)
    requires db.Valid()
    requires |newIds| == |rows|
    requires forall i, j :: 0 <= i < j < |newIds| ==> newIds[i] != newIds[j]
    requires forall i :: 0 <= i < |newIds| ==> HabitIndex(db.habits, newIds[i]).None?
    modifies db
    ensures db.Valid()
    ensures Transform(rows).Failure? ==>
      unchanged(db) && log == ReadingLog(rows) + [ErrorLine(Transform(rows).error)]
    ensures Transform(rows).Success? && session.None? ==>
      unchanged(db) && log == ReadingLog(rows) + ["Uploading to garden...", ErrorLine("Unauthorized")]
    ensures Transform(rows).Success? && session.Some? && !session.value.isPremium ==>
      unchanged(db) && log == ReadingLog(rows) + ["Uploading to garden...", ErrorLine("Bulk import is a Premium feature.")]
    ensures Transform(rows).Success? && session.Some? && session.value.isPremium
            && !OwnsPillar(old(db.pillars), pillarId, session.value.id) ==>
      unchanged(db) && log == ReadingLog(rows) + ["Uploading to garden...", ErrorLine("Garden not found or access denied.")]
    ensures Transform(rows).Success? && session.Some? && session.value.isPremium
            && OwnsPillar(old(db.pillars), pillarId, session.value.id) ==>
      && db.habits == old(db.habits) + ImportedRows(pillarId, SanitizeAll(Transform(rows).value), newIds)
      && db.pillars == old(db.pillars) && db.pets == old(db.pets) && db.logs == old(db.logs)
      && db.users == old(db.users) && db.payments == old(db.payments)
      && log == ReadingLog(rows) + ["Uploading to garden...", "Success! closing..."]
  {
    log := ReadingLog(rows);
    var transformed := Transform(rows);
    if transformed.Failure? {
      log := log + [ErrorLine(transformed.error)];
      return;
    }
    log := log + ["Uploading to garden..."];
    var r := db.BulkImportHabits(session, pillarId, transformed.value, newIds);
    if r.Success? {
      log := log + ["Success! closing..."];
    } else if r.error.Thrown? {
      log := log + [ErrorLine(r.error.message)];
    } else {
      assert false;
    }
  }
}

=== FILE: calendar.dfy ===
/**
 * Calendar arithmetic that the core borrows from JavaScript's `Date` and from
 * date-fns (`isSameDay`, `isSameISOWeek`, `addMonths`, `addYears`, `getDay`).
 *
 * Instants are whole milliseconds since 1970-01-01T00:00:00Z and calendar days
 * are whole days since 1970-01-01, both in UTC. That day was a Thursday.
 * Subscription ends are kept as calendar date-times, the form on which
 * month arithmetic is defined.
 */
module Calendar {

  const MsPerDay: int := 86400000

  /** The calendar day on which instant `t` falls (floor division). */
  function DayOf(t: int): int
  {
    t / MsPerDay
  }

  /** Day of the week as `Date.getDay` numbers it: 0 is Sunday, 1 Monday, ... 6 Saturday. */
  function Weekday(day: int): (w: int)
    ensures 0 <= w < 7
  {
    (day + 4) % 7
  }

  /**
   * The index of the ISO week (Monday to Sunday) containing `day`.
   * Day -3, Monday 1969-12-29, is the first day of week 0.
   */
  function IsoWeek(day: int): int
  {
    (day + 3) / 7
  }

  /** `isSameDay(a, b)` for two instants. */
  predicate SameDay(a: int, b: int)
  {
    DayOf(a) == DayOf(b)
  }

  /** `isSameISOWeek(a, b)` for two instants. */
  predicate SameIsoWeek(a: int, b: int)
  {
    IsoWeek(DayOf(a)) == IsoWeek(DayOf(b))
  }

  /** Two instants on the same day are in the same ISO week. */
  lemma SameDayIsSameWeek(a: int, b: int)
    requires SameDay(a, b)
    ensures SameIsoWeek(a, b)
  {
  }

  /** A new ISO week begins exactly on Mondays. */
  lemma IsoWeekStartsOnMonday(day: int)
    ensures IsoWeek(day + 1) != IsoWeek(day) <==> Weekday(day + 1) == 1
    ensures IsoWeek(day + 1) == IsoWeek(day) || IsoWeek(day + 1) == IsoWeek(day) + 1
  {
    var q, r := (day + 3) / 7, (day + 3) % 7;
    assert day + 3 == 7 * q + r && 0 <= r < 7;
    if r == 6 {
      assert day + 4 == 7 * (q + 1);
      assert IsoWeek(day + 1) == q + 1;
      assert Weekday(day + 1) == 1;
    } else {
      assert day + 4 == 7 * q + (r + 1);
      assert IsoWeek(day + 1) == q;
      assert (day + 5) == 7 * q + (r + 2);
      assert Weekday(day + 1) == (r + 2) % 7;
    }
  }

  /** A calendar date-time (proleptic Gregorian, UTC). */
  datatype DateTime = DateTime(year: int, month: int, day: int, msOfDay: int)

  predicate IsLeapYear(y: int)
  {
    (y % 4 == 0 && y % 100 != 0) || y % 400 == 0
  }

  function DaysInMonth(y: int, m: int): (n: int)
    requires 1 <= m <= 12
    ensures 28 <= n <= 31
  {
    if m == 2 then (if IsLeapYear(y) then 29 else 28)
    else if m == 4 || m == 6 || m == 9 || m == 11 then 30
    else 31
  }

  predicate ValidDateTime(d: DateTime)
  {
    && 1 <= d.month <= 12
    && 1 <= d.day <= DaysInMonth(d.year, d.month)
    && 0 <= d.msOfDay < MsPerDay
  }

  /** `a < b` on instants: lexicographic on year, month, day and time of day. */
  predicate Before(a: DateTime, b: DateTime)
  {
    || a.year < b.year
    || (a.year == b.year && a.month < b.month)
    || (a.year == b.year && a.month == b.month && a.day < b.day)
    || (a.year == b.year && a.month == b.month && a.day == b.day && a.msOfDay < b.msOfDay)
  }

  /** Months since January of year 0. */
  function MonthIndex(d: DateTime): int
  {
    d.year * 12 + d.month - 1
  }

  /**
   * date-fns `addMonths(d, n)`: the same day of the month `n` months later,
   * moved back to the last day of that month when it is shorter; the time of
   * day is kept.
   */
  function AddMonths(d: DateTime, n: nat): (r: DateTime)
    requires ValidDateTime(d)
    ensures ValidDateTime(r)
    ensures MonthIndex(r) == MonthIndex(d) + n
    ensures r.day == (if d.day <= DaysInMonth(r.year, r.month) then d.day else DaysInMonth(r.year, r.month))
    ensures r.day <= d.day && r.msOfDay == d.msOfDay
  {
    var total := MonthIndex(d) + n;
    var y, m := total / 12, total % 12 + 1;
    var last := DaysInMonth(y, m);
    DateTime(y, m, if d.day <= last then d.day else last, d.msOfDay)
  }

  /** date-fns `addYears(d, n)`, which date-fns defines as `addMonths(d, 12 * n)`. */
  function AddYears(d: DateTime, n: nat): (r: DateTime)
    requires ValidDateTime(d)
    ensures ValidDateTime(r)
    ensures r.year == d.year + n && r.month == d.month
    ensures r.day == (if d.day <= DaysInMonth(r.year, d.month) then d.day else DaysInMonth(r.year, d.month))
    ensures r.msOfDay == d.msOfDay
  {
    AddMonths(d, 12 * n)
  }

  /** A later month is a later instant, whatever the day and time. */
  lemma MonthIndexOrder(a: DateTime, b: DateTime)
    requires 1 <= a.month <= 12 && 1 <= b.month <= 12
    requires MonthIndex(a) < MonthIndex(b)
    ensures Before(a, b)
  {
  }

  /** Adding at least one month always moves strictly forward. */
  lemma AddMonthsIsLater(d: DateTime, n: nat)
    requires ValidDateTime(d) && n >= 1
    ensures Before(d, AddMonths(d, n))
  {
    MonthIndexOrder(d, AddMonths(d, n));
  }

  lemma BeforeTransitive(a: DateTime, b: DateTime, c: DateTime)
    requires Before(a, b) && Before(b, c)
    ensures Before(a, c)
  {
  }

  /**
   * Examples: one month after 31 January 2024 is 29 February 2024 (a leap
   * year), one month after 15 January is 15 February, and one year after
   * 29 February 2024 is 28 February 2025.
   */
  lemma AddMonthsClampsToMonthEnd()
    ensures AddMonths(DateTime(2024, 1, 31, 0), 1) == DateTime(2024, 2, 29, 0)
    ensures AddMonths(DateTime(2024, 1, 15, 0), 1) == DateTime(2024, 2, 15, 0)
    ensures AddYears(DateTime(2024, 2, 29, 0), 1) == DateTime(2025, 2, 28, 0)
  {
  }
}

=== FILE: commit_heatmap.dfy ===
/**
 * The activity heatmap of `components/CommitHeatmap.tsx`: one cell per day
 * for the last month or year, each with a commit count and a GitHub-style
 * intensity level, the days split into Sunday-started weeks, and the two
 * totals shown above the grid. A day is an integer day number (see module
 * Calendar); the random counts the component draws are a parameter.
 */
module CommitHeatmap {
  import opened Calendar
  import opened Lists

  /** One heatmap cell: its day, its commit count and its intensity level. */
  datatype HeatmapDay = HeatmapDay(day: int, count: nat, level: nat)

  datatype Period = Month | Year

  /** `daysToShow`: 30 days for the month view, 365 for the year view. */
  function DaysToShow(period: Period): (n: nat)
    ensures n > 0
  {
    match period
    case Month => 30
    case Year => 365
  }

  /** The intensity level of a day with `count` commits. */
  function Level(count: nat): (l: nat)
    ensures l <= 4
    ensures l == 0 <==> count == 0
  {
    if count == 0 then 0
    else if count <= 2 then 1
    else if count <= 4 then 2
    else if count <= 7 then 3
    else 4
  }

  /** The counts at which the level goes up: 1, 3, 5 and 8. */
  const Thresholds: seq<nat> := [1, 3, 5, 8]

  /** How many of the thresholds `count` reaches. */
  function Reached(count: nat, ts: seq<nat>): nat
  {
    if ts == [] then 0 else (if count >= ts[0] then 1 else 0) + Reached(count, ts[1..])
  }

  /** The level is the number of thresholds the count reaches. */
  lemma LevelCountsThresholds(count: nat)
    ensures Level(count) == Reached(count, Thresholds)
  {
    assert Thresholds[1..] == [3, 5, 8];
    assert Thresholds[1..][1..] == [5, 8];
    assert Thresholds[1..][1..][1..] == [8];
    assert Reached(count, [8]) == (if count >= 8 then 1 else 0) + Reached(count, []);
    assert Reached(count, [5, 8]) == (if count >= 5 then 1 else 0) + Reached(count, [8]);
    assert Reached(count, [3, 5, 8]) == (if count >= 3 then 1 else 0) + Reached(count, [5, 8]);
  }

  /** More commits never give a lighter cell. */
  lemma LevelMonotone(a: nat, b: nat)
    requires a <= b
    ensures Level(a) <= Level(b)
  {
  }

  /** The legend's colours, from no activity to very high activity. */
  const Colors: seq<string> := ["bg-gray-100", "bg-green-200", "bg-green-300", "bg-green-400", "bg-green-500"]

  /** `getCellColor`: the colour of a level, or the no-activity colour for a level outside 0..4. */
  function CellColor(level: int): (c: string)
    ensures c in Colors
    ensures 0 <= level < |Colors| ==> c == Colors[level]
  {
    if 0 <= level < |Colors| then Colors[level] else Colors[0]
  }

  /** The digit that tells the legend's colours apart: 1 for level 0 up to 5 for level 4. */
  function Shade(c: string): char
  {
    if |c| >= 3 then c[|c| - 3] else ' '
  }

  /** Every level of the legend has a colour of its own. */
  lemma CellColorsDistinct(a: int, b: int)
    requires 0 <= a < |Colors| && 0 <= b < |Colors| && a != b
    ensures CellColor(a) != CellColor(b)
  {
    assert Shade(Colors[0]) == '1' && Shade(Colors[1]) == '2' && Shade(Colors[2]) == '3';
    assert Shade(Colors[3]) == '4' && Shade(Colors[4]) == '5';
  }

  /** A level outside the legend is drawn like level 0. */
  lemma OutOfRangeLevelIsBlank(level: int)
    requires !(0 <= level < |Colors|)
    ensures CellColor(level) == CellColor(0)
  {
  }

  /** A cell has the no-activity colour exactly when its day has no commits. */
  lemma BlankIffNoCommits(count: nat)
    ensures CellColor(Level(count)) == Colors[0] <==> count == 0
  {
    if count != 0 {
      CellColorsDistinct(Level(count), 0);
    }
  }

  /** The cell of day `day` with `count` commits. */
  function Cell(day: int, count: nat): HeatmapDay
  {
    HeatmapDay(day, count, Level(count))
  }

  /**
   * `generateHeatmapData`: one cell per day, from `DaysToShow(period) - 1`
   * days before `today` up to `today`, with the given counts in order.
   */
  method GenerateHeatmapData(period: Period, today: int, counts: seq<nat>) returns (days: seq<HeatmapDay>)
    requires |counts| == DaysToShow(period)
    ensures |days| == DaysToShow(period)
    ensures forall k :: 0 <= k < |days| ==> days[k] == Cell(today - (|days| - 1 - k), counts[k])
  {
    var n := DaysToShow(period);
    days := [];
    var i: int := n - 1;
    while i >= 0
      invariant -1 <= i <= n - 1
      invariant |days| == n - 1 - i
      invariant forall k :: 0 <= k < |days| ==> days[k] == Cell(today - (n - 1 - k), counts[k])
    {
      var date := today - i;
      days := days + [Cell(date, counts[n - 1 - i])];
      i := i - 1;
    }
  }

  /** The days of `days` run one by one, in ascending order, up to `today`. */
  predicate EndsToday(days: seq<HeatmapDay>, today: int)
  {
    && |days| > 0 && days[|days| - 1].day == today
    && forall k :: 0 <= k < |days| - 1 ==> days[k + 1].day == days[k].day + 1
  }

  /** The generated days are distinct, ascending and end today; the year view starts 364 days back. */
  lemma GeneratedDaysEndToday(period: Period, today: int, counts: seq<nat>, days: seq<HeatmapDay>)
    requires |days| == DaysToShow(period) && |counts| == |days|
    requires forall k :: 0 <= k < |days| ==> days[k] == Cell(today - (|days| - 1 - k), counts[k])
    ensures EndsToday(days, today)
    ensures forall j, k :: 0 <= j < k < |days| ==> days[j].day < days[k].day
    ensures period == Year ==> days[0].day == today - 364
    ensures period == Month ==> days[0].day == today - 29
  {
  }

  /** The weeks' days, one week after the other. */
  function Flatten(weeks: seq<seq<HeatmapDay>>): seq<HeatmapDay>
  {
    if weeks == [] then [] else Flatten(weeks[..|weeks| - 1]) + weeks[|weeks| - 1]
  }

  lemma FlattenAppend(weeks: seq<seq<HeatmapDay>>, week: seq<HeatmapDay>)
    ensures Flatten(weeks + [week]) == Flatten(weeks) + week
  {
    assert (weeks + [week])[..|weeks|] == weeks;
  }

  predicate IsSunday(d: HeatmapDay)
  {
    Weekday(d.day) == 0
  }

  /**
   * A well-formed week: not empty, starting on a Sunday unless it is the
   * first week, and with no Sunday anywhere but at its start.
   */
  predicate GoodWeek(week: seq<HeatmapDay>, isFirst: bool)
  {
    && week != []
    && (!isFirst ==> IsSunday(week[0]))
    && forall j :: 0 < j < |week| ==> !IsSunday(week[j])
  }

  /** The week split: every week is well formed. */
  predicate SplitAtSundays(weeks: seq<seq<HeatmapDay>>)
  {
    forall k :: 0 <= k < |weeks| ==> GoodWeek(weeks[k], k == 0)
  }

  /** The weeks closed so far and the week still being filled. */
  datatype Grouping = Grouping(closed: seq<seq<HeatmapDay>>, open: seq<HeatmapDay>)

  /** The grouping after the days of `s`: a Sunday closes a non-empty open week and opens a new one. */
  function GroupState(s: seq<HeatmapDay>): Grouping
  {
    if s == [] then Grouping([], [])
    else
      var g := GroupState(s[..|s| - 1]);
      var day := s[|s| - 1];
      if IsSunday(day) && g.open != [] then Grouping(g.closed + [g.open], [day])
      else Grouping(g.closed, g.open + [day])
  }

  /** The weeks of `data`: the closed weeks and, once there is a day, the open one. */
  function Weeks(data: seq<HeatmapDay>): seq<seq<HeatmapDay>>
  {
    if data == [] then [] else GroupState(data).closed + [GroupState(data).open]
  }

  /** The grouping `g` of the days `s`: the closed weeks form a split, and with the open week they hold `s`. */
  predicate GroupingOf(s: seq<HeatmapDay>, g: Grouping)
  {
    && SplitAtSundays(g.closed)
    && Flatten(g.closed) + g.open == s
    && (s != [] ==> GoodWeek(g.open, g.closed == []))
  }

  /** Every prefix is grouped into a split and a well-formed open week. */
  lemma {:induction false} GroupStateInvariant(s: seq<HeatmapDay>)
    ensures GroupingOf(s, GroupState(s))
  {
    if s != [] {
      var init := s[..|s| - 1];
      GroupStateInvariant(init);
      GroupStep(init, s[|s| - 1]);
      assert init + [s[|s| - 1]] == s;
    }
  }

  /** One more day keeps the grouping well formed. */
  lemma GroupStep(init: seq<HeatmapDay>, day: HeatmapDay)
    requires GroupingOf(init, GroupState(init))
    ensures GroupingOf(init + [day], GroupState(init + [day]))
  {
    var s := init + [day];
    assert s[..|s| - 1] == init;
    var g := GroupState(init);
    if IsSunday(day) && g.open != [] {
      CloseWeek(g.closed, g.open);
      assert GoodWeek([day], false);
    } else {
      assert Flatten(g.closed) + (g.open + [day]) == (Flatten(g.closed) + g.open) + [day];
      if init == [] {
        assert g.open + [day] == [day];
      } else {
        ExtendWeek(g.open, day, g.closed == []);
      }
    }
  }

  /**
   * The weeks put back together are the input, an empty input gives no
   * weeks, and the weeks form a split at Sundays.
   */
  lemma WeeksMeaning(data: seq<HeatmapDay>)
    ensures Flatten(Weeks(data)) == data
    ensures data == [] <==> Weeks(data) == []
    ensures SplitAtSundays(Weeks(data))
  {
    if data != [] {
      GroupStateInvariant(data);
      var g := GroupState(data);
      CloseWeek(g.closed, g.open);
    }
  }

  /**
   * `groupDataByWeeks`: cuts the days into weeks, starting a new week at
   * each Sunday and closing the last week at the last day.
   */
  method GroupDataByWeeks(data: seq<HeatmapDay>) returns (weeks: seq<seq<HeatmapDay>>)
    ensures weeks == Weeks(data)
    ensures Flatten(weeks) == data
    ensures data == [] <==> weeks == []
    ensures SplitAtSundays(weeks)
  {
    weeks := [];
    var currentWeek: seq<HeatmapDay> := [];
    for index := 0 to |data|
      invariant index < |data| ==> Grouping(weeks, currentWeek) == GroupState(data[..index])
      invariant index == |data| ==> weeks == Weeks(data)
    {
      assert data[..index + 1][..index] == data[..index];
      if IsSunday(data[index]) && |currentWeek| > 0 {
        weeks := weeks + [currentWeek];
        currentWeek := [];
      }
      currentWeek := currentWeek + [data[index]];
      if index == |data| - 1 {
        assert Grouping(weeks, currentWeek) == GroupState(data[..index + 1]);
        assert data[..index + 1] == data;
        weeks := weeks + [currentWeek];
      }
    }
    WeeksMeaning(data);
  }

  /** A day that is not a Sunday extends a well-formed week. */
  lemma ExtendWeek(week: seq<HeatmapDay>, day: HeatmapDay, isFirst: bool)
    requires GoodWeek(week, isFirst) && !IsSunday(day)
    ensures GoodWeek(week + [day], isFirst)
  {
    var w := week + [day];
    forall j | 0 < j < |w| ensures !IsSunday(w[j]) {
      if j < |week| {
        assert w[j] == week[j];
      }
    }
  }

  /** Closing a well-formed week keeps the split. */
  lemma CloseWeek(weeks: seq<seq<HeatmapDay>>, week: seq<HeatmapDay>)
    requires SplitAtSundays(weeks) && GoodWeek(week, weeks == [])
    ensures SplitAtSundays(weeks + [week])
    ensures Flatten(weeks + [week]) == Flatten(weeks) + week
  {
    var w := weeks + [week];
    forall k | 0 <= k < |w| ensures GoodWeek(w[k], k == 0) {
      if k < |weeks| {
        assert w[k] == weeks[k];
      }
    }
    FlattenAppend(weeks, week);
  }

  /** A week split at Sundays that holds the days of `data` is the one `groupDataByWeeks` gives. */
  lemma {:induction false} SplitIsUnique(a: seq<seq<HeatmapDay>>, b: seq<seq<HeatmapDay>>)
    requires SplitAtSundays(a) && SplitAtSundays(b)
    requires Flatten(a) == Flatten(b)
    ensures a == b
    decreases |a| + |b|
  {
    if a != [] && b != [] {
      var a0, b0 := a[..|a| - 1], b[..|b| - 1];
      var la, lb := a[|a| - 1], b[|b| - 1];
      assert Flatten(a) == Flatten(a0) + la;
      assert Flatten(b) == Flatten(b0) + lb;
      LastWeekIsLastSundayRun(a);
      LastWeekIsLastSundayRun(b);
      assert la == Flatten(a)[|Flatten(a)| - |la|..];
      assert lb == Flatten(b)[|Flatten(b)| - |lb|..];
      assert Flatten(a0) == Flatten(a)[..|Flatten(a)| - |la|];
      assert Flatten(b0) == Flatten(b)[..|Flatten(b)| - |lb|];
      SplitOfPrefix(a);
      SplitOfPrefix(b);
      SplitIsUnique(a0, b0);
    }
  }

  /** Dropping the last week of a split leaves a split. */
  lemma SplitOfPrefix(weeks: seq<seq<HeatmapDay>>)
    requires SplitAtSundays(weeks) && weeks != []
    ensures SplitAtSundays(weeks[..|weeks| - 1])
  {
  }

  /** The last week of a split is non-empty and ends the flattened days. */
  lemma LastWeekIsLastSundayRun(weeks: seq<seq<HeatmapDay>>)
    requires SplitAtSundays(weeks) && weeks != []
    ensures |Flatten(weeks)| >= |weeks[|weeks| - 1]| > 0
    ensures Flatten(weeks[..|weeks| - 1]) == [] ==> Flatten(weeks) == weeks[|weeks| - 1]
  {
  }

  /** `totalCommits`: the sum of the counts. */
  function TotalCommits(days: seq<HeatmapDay>): nat
  {
    if days == [] then 0 else TotalCommits(days[..|days| - 1]) + days[|days| - 1].count
  }

  function Active(): HeatmapDay -> bool
  {
    (d: HeatmapDay) => d.count > 0
  }

  /** `streakDays`: the number of days with at least one commit. */
  function StreakDays(days: seq<HeatmapDay>): (n: nat)
    ensures n <= |days|
  {
    |Filter(days, Active())|
  }

  lemma {:induction false} FilterOfSnoc<T(!new)>(s: seq<T>, x: T, keep: T -> bool)
    ensures Filter(s + [x], keep) == Filter(s, keep) + Filter([x], keep)
  {
    FilterAppend(s, [x], keep);
  }

  /**
   * Every active day adds at least one commit, so there are never more
   * active days than commits, and there are none exactly when there are no
   * commits.
   */
  lemma {:induction false} StreakDaysBoundedByCommits(days: seq<HeatmapDay>)
    ensures StreakDays(days) <= TotalCommits(days)
    ensures StreakDays(days) == 0 <==> TotalCommits(days) == 0
  {
    if days != [] {
      var init, last := days[..|days| - 1], days[|days| - 1];
      assert days == init + [last];
      StreakDaysBoundedByCommits(init);
      FilterOfSnoc(init, last, Active());
    }
  }

  /** Grouping into weeks loses no commits: the weeks' totals add up to the total. */
  lemma {:induction false} WeekTotals(weeks: seq<seq<HeatmapDay>>)
    ensures TotalCommits(Flatten(weeks)) == SumWeekTotals(weeks)
  {
    if weeks != [] {
      WeekTotals(weeks[..|weeks| - 1]);
      TotalOfAppend(Flatten(weeks[..|weeks| - 1]), weeks[|weeks| - 1]);
    }
  }

  function SumWeekTotals(weeks: seq<seq<HeatmapDay>>): nat
  {
    if weeks == [] then 0 else SumWeekTotals(weeks[..|weeks| - 1]) + TotalCommits(weeks[|weeks| - 1])
  }

  lemma {:induction false} TotalOfAppend(a: seq<HeatmapDay>, b: seq<HeatmapDay>)
    ensures TotalCommits(a + b) == TotalCommits(a) + TotalCommits(b)
    decreases |b|
  {
    if b == [] {
      assert a + b == a;
    } else {
      var b0 := b[..|b| - 1];
      assert (a + b)[..|a + b| - 1] == a + b0;
      TotalOfAppend(a, b0);
    }
  }
}

=== FILE: habits_modal.dfy ===
/**
 * The derived views of `components/HabitsModal.tsx`: every habit of every
 * pillar tagged with its pillar, today's completion status, the filter and
 * search over that list, and the tick/untick toggle that goes through the
 * store.
 */
module HabitsModal {
  import opened Wrappers
  import opened Text
  import opened Lists
  import opened AppStore

  /** A habit with the name, icon and id of its pillar. */
  datatype TaggedHabit = TaggedHabit(habit: Habit, pillarName: string, pillarIcon: string, pillarId: string)

  /** `pillar.habits.map(...)`: one pillar's habits, tagged, in order. */
  function TaggedOf(p: PillarWithHabits): (r: seq<TaggedHabit>)
    ensures |r| == |p.habits|
    ensures forall j :: 0 <= j < |r| ==>
      r[j] == TaggedHabit(p.habits[j], p.pillar.name, p.pillar.icon, p.pillar.id)
  {
    seq(|p.habits|, j requires 0 <= j < |p.habits| => TaggedHabit(p.habits[j], p.pillar.name, p.pillar.icon, p.pillar.id))
  }

  /** `pillars.flatMap(...)`: the tagged habits of every pillar, pillar by pillar. */
  function AllHabits(ps: seq<PillarWithHabits>): (r: seq<TaggedHabit>)
    ensures |r| == HabitCount(ps)
  {
    if ps == [] then [] else TaggedOf(ps[0]) + AllHabits(ps[1..])
  }

  /** `flatMap` goes pillar by pillar: the habits of earlier pillars come first. */
  lemma {:induction false} AllHabitsAppend(ps: seq<PillarWithHabits>, qs: seq<PillarWithHabits>)
    ensures AllHabits(ps + qs) == AllHabits(ps) + AllHabits(qs)
  {
    if ps == [] {
      assert ps + qs == qs;
    } else {
      assert (ps + qs)[1..] == ps[1..] + qs;
      AllHabitsAppend(ps[1..], qs);
    }
  }

  /** A tagged habit is listed exactly when it is some pillar's habit carrying that pillar's tags. */
  lemma {:induction false} AllHabitsMembers(ps: seq<PillarWithHabits>, t: TaggedHabit)
    ensures t in AllHabits(ps) <==>
      exists i, j :: 0 <= i < |ps| && 0 <= j < |ps[i].habits| &&
        t == TaggedHabit(ps[i].habits[j], ps[i].pillar.name, ps[i].pillar.icon, ps[i].pillar.id)
  {
    if ps != [] {
      AllHabitsMembers(ps[1..], t);
      if t in AllHabits(ps[1..]) {
        var i, j :| 0 <= i < |ps[1..]| && 0 <= j < |ps[1..][i].habits| &&
          t == TaggedHabit(ps[1..][i].habits[j], ps[1..][i].pillar.name, ps[1..][i].pillar.icon, ps[1..][i].pillar.id);
        assert ps[1..][i] == ps[i + 1];
      }
      if exists i, j :: (0 <= i < |ps| && 0 <= j < |ps[i].habits| &&
        t == TaggedHabit(ps[i].habits[j], ps[i].pillar.name, ps[i].pillar.icon, ps[i].pillar.id))
      {
        var i, j :| 0 <= i < |ps| && 0 <= j < |ps[i].habits| &&
          t == TaggedHabit(ps[i].habits[j], ps[i].pillar.name, ps[i].pillar.icon, ps[i].pillar.id);
        if i == 0 {
          assert TaggedOf(ps[0])[j] == t;
        } else {
          assert ps[1..][i - 1] == ps[i];
        }
      }
    }
  }

  /** `getHabitCompletionStatus`: some action of today is for the habit. */
  predicate IsCompleted(todayActions: seq<Action>, habitId: string)
  {
    exists i :: 0 <= i < |todayActions| && todayActions[i].habitId == habitId
  }

  function Done(todayActions: seq<Action>): TaggedHabit -> bool
  {
    (t: TaggedHabit) => IsCompleted(todayActions, t.habit.id)
  }

  function NotDone(todayActions: seq<Action>): TaggedHabit -> bool
  {
    (t: TaggedHabit) => !IsCompleted(todayActions, t.habit.id)
  }

  /** The filter test: "all", a pillar id, "completed" or "pending". */
  predicate MatchesFilter(selected: string, t: TaggedHabit, todayActions: seq<Action>)
  {
    || selected == "all"
    || selected == t.pillarId
    || (selected == "completed" && IsCompleted(todayActions, t.habit.id))
    || (selected == "pending" && !IsCompleted(todayActions, t.habit.id))
  }

  /** The search test: an empty query, or a case-insensitive substring of the habit or pillar name. */
  predicate MatchesSearch(query: string, t: TaggedHabit)
  {
    || query == ""
    || Contains(Lower(t.habit.name), Lower(query))
    || Contains(Lower(t.pillarName), Lower(query))
  }

  function Shown(selected: string, query: string, todayActions: seq<Action>): TaggedHabit -> bool
  {
    (t: TaggedHabit) => MatchesFilter(selected, t, todayActions) && MatchesSearch(query, t)
  }

  /** `filteredHabits`: the habits passing both tests, in the order of `allHabits`. */
  function FilteredHabits(all: seq<TaggedHabit>, selected: string, query: string, todayActions: seq<Action>): (r: seq<TaggedHabit>)
    ensures |r| <= |all|
    ensures forall t :: t in r <==> t in all && MatchesFilter(selected, t, todayActions) && MatchesSearch(query, t)
  {
    Filter(all, Shown(selected, query, todayActions))
  }

  /** Filtering keeps the order of `allHabits`: it distributes over any split of the list. */
  lemma FilteredKeepsOrder(a: seq<TaggedHabit>, b: seq<TaggedHabit>, selected: string, query: string, todayActions: seq<Action>)
    ensures FilteredHabits(a + b, selected, query, todayActions)
         == FilteredHabits(a, selected, query, todayActions) + FilteredHabits(b, selected, query, todayActions)
  {
    FilterAppend(a, b, Shown(selected, query, todayActions));
  }

  /** The "all" filter with an empty search shows every habit. */
  lemma AllFilterShowsEverything(all: seq<TaggedHabit>, todayActions: seq<Action>)
    ensures FilteredHabits(all, "all", "", todayActions) == all
  {
    FilterKeepsAll(all, Shown("all", "", todayActions));
  }

  /**
   * With an empty search, the "completed" and "pending" filters split the
   * habits in two, provided no pillar has one of those words as its id.
   */
  lemma CompletedPendingPartition(all: seq<TaggedHabit>, todayActions: seq<Action>)
    requires forall i :: 0 <= i < |all| ==> all[i].pillarId != "completed" && all[i].pillarId != "pending"
    ensures FilteredHabits(all, "completed", "", todayActions) == Filter(all, Done(todayActions))
    ensures FilteredHabits(all, "pending", "", todayActions) == Filter(all, NotDone(todayActions))
    ensures |FilteredHabits(all, "completed", "", todayActions)| + |FilteredHabits(all, "pending", "", todayActions)| == |all|
    ensures forall t :: !(t in FilteredHabits(all, "completed", "", todayActions) && t in FilteredHabits(all, "pending", "", todayActions))
  {
    SameFilter(all, Shown("completed", "", todayActions), Done(todayActions));
    SameFilter(all, Shown("pending", "", todayActions), NotDone(todayActions));
    FilterSplits(all, Done(todayActions), NotDone(todayActions));
  }

  /** Two tests that agree on every element of `s` filter it alike. */
  lemma {:induction false} SameFilter(s: seq<TaggedHabit>, f: TaggedHabit -> bool, g: TaggedHabit -> bool)
    requires forall i :: 0 <= i < |s| ==> f(s[i]) == g(s[i])
    ensures Filter(s, f) == Filter(s, g)
  {
    if s != [] {
      SameFilter(s[1..], f, g);
    }
  }

  /** Search ignores case: a query and its lowercase form find the same habits. */
  lemma SearchIgnoresCase(query: string, t: TaggedHabit)
    ensures MatchesSearch(query, t) <==> MatchesSearch(Lower(query), t)
  {
    LowerIdempotent(query);
  }

  /** `completedCount`: the number of habits completed today, at most the number of habits. */
  function CompletedCount(all: seq<TaggedHabit>, todayActions: seq<Action>): (n: nat)
    ensures n <= |all|
  {
    |Filter(all, Done(todayActions))|
  }

  /**
   * `handleToggleHabit`: a habit completed today is unticked by removing its
   * actions dated today; any other habit is ticked by adding one action dated
   * today, the date part of the ISO timestamp `nowIso`. A failure of the
   * store call is caught: the actions stay as they were and the store's error
   * holds the failure message; a success clears the error.
   */
  method ToggleHabit(store: Store, habitId: string, nowIso: string, created: ApiResult<RowStamp>, removed: ApiResult<()>)
    modifies store
    ensures var today := BeforeFirst(nowIso, 'T');
      IsCompleted(old(store.todayActions), habitId) ==>
        store.todayActions == (if removed.Ok? then ActionsWithout(old(store.todayActions), habitId, today)
                               else old(store.todayActions))
    ensures var today := BeforeFirst(nowIso, 'T');
      !IsCompleted(old(store.todayActions), habitId) ==>
        store.todayActions == (if created.Ok? then old(store.todayActions) + [ActionRow(NewAction(habitId, today), created.value)]
                               else old(store.todayActions))
    ensures IsCompleted(old(store.todayActions), habitId) ==>
      store.error == (if removed.Ok? then None else Some(FailureMessage(removed, RemoveActionFailure)))
    ensures !IsCompleted(old(store.todayActions), habitId) ==>
      store.error == (if created.Ok? then None else Some(FailureMessage(created, CommitFailure)))
    ensures store.pillars == old(store.pillars) && store.selectedPillar == old(store.selectedPillar)
    ensures store.loading == old(store.loading)
  {
    var today := BeforeFirst(nowIso, 'T');
    if IsCompleted(store.todayActions, habitId) {
      var _ := store.RemoveAction(habitId, today, removed);
    } else {
      var _ := store.AddAction(NewAction(habitId, today), created);
    }
  }

  /** Ticking a habit makes it completed. */
  lemma TickCompletes(todayActions: seq<Action>, habitId: string, today: string, stamp: RowStamp)
    ensures IsCompleted(todayActions + [ActionRow(NewAction(habitId, today), stamp)], habitId)
  {
    var r := todayActions + [ActionRow(NewAction(habitId, today), stamp)];
    assert r[|todayActions|].habitId == habitId;
  }

  /**
   * Unticking a habit whose actions are all dated today makes it not
   * completed; an action of that habit with another date keeps it completed.
   */
  lemma UntickClears(todayActions: seq<Action>, habitId: string, today: string)
    ensures (forall i :: 0 <= i < |todayActions| && todayActions[i].habitId == habitId ==> todayActions[i].date == today)
        <==> !IsCompleted(ActionsWithout(todayActions, habitId, today), habitId)
  {
    var r := ActionsWithout(todayActions, habitId, today);
    if IsCompleted(r, habitId) {
      var i :| 0 <= i < |r| && r[i].habitId == habitId;
      assert r[i] in r;
      var k :| 0 <= k < |todayActions| && todayActions[k] == r[i];
      assert todayActions[k].date != today;
    }
    if exists i :: 0 <= i < |todayActions| && todayActions[i].habitId == habitId && todayActions[i].date != today {
      var i :| 0 <= i < |todayActions| && todayActions[i].habitId == habitId && todayActions[i].date != today;
      assert todayActions[i] in r;
      var k :| 0 <= k < |r| && r[k] == todayActions[i];
    }
  }
}

=== FILE: home_page.dfy ===
/**
 * The chore lists of the dashboard page, `app/page.tsx`: the habits still
 * due today and this week, taken from the habits of `getDashboardData` with
 * their freshly computed completion flag.
 */
module HomePage {
  import opened Wrappers
  import opened Records
  import opened Lists
  import opened Database

  function DueDaily(): HabitRow -> bool
  {
    (h: HabitRow) => h.frequency == "daily" && !h.completedToday
  }

  function DueWeekly(): HabitRow -> bool
  {
    (h: HabitRow) => h.frequency == "weekly" && !h.completedToday
  }

  /** `todaysChores`: the daily habits not completed, in order. */
  function TodaysChores(habits: seq<HabitRow>): (r: seq<HabitRow>)
    ensures forall h :: h in r <==> h in habits && h.frequency == "daily" && !h.completedToday
  {
    Filter(habits, DueDaily())
  }

  /** `weeklyChores`: the weekly habits not completed, in order. */
  function WeeklyChores(habits: seq<HabitRow>): (r: seq<HabitRow>)
    ensures forall h :: h in r <==> h in habits && h.frequency == "weekly" && !h.completedToday
  {
    Filter(habits, DueWeekly())
  }

  /**
   * No habit is listed twice, one-time and custom-frequency habits are never
   * listed, and together the lists hold at most all the habits.
   */
  lemma ChoreListsAreDisjoint(habits: seq<HabitRow>)
    ensures forall h :: !(h in TodaysChores(habits) && h in WeeklyChores(habits))
    ensures forall h :: h in habits && h.frequency != "daily" && h.frequency != "weekly" ==>
      h !in TodaysChores(habits) && h !in WeeklyChores(habits)
    ensures |TodaysChores(habits)| + |WeeklyChores(habits)| <= |habits|
  {
    ChoreCounts(habits);
  }

  lemma {:induction false} ChoreCounts(habits: seq<HabitRow>)
    ensures |TodaysChores(habits)| + |WeeklyChores(habits)| <= |habits|
  {
    if habits != [] {
      ChoreCounts(habits[1..]);
    }
  }

  /** The lists keep the order of the habits: they distribute over any split of them. */
  lemma ChoresKeepOrder(a: seq<HabitRow>, b: seq<HabitRow>)
    ensures TodaysChores(a + b) == TodaysChores(a) + TodaysChores(b)
    ensures WeeklyChores(a + b) == WeeklyChores(a) + WeeklyChores(b)
  {
    FilterAppend(a, b, DueDaily());
    FilterAppend(a, b, DueWeekly());
  }

  /**
   * A habit committed at `now` is no longer a chore when the dashboard is
   * read at the same moment: its recomputed completion flag is set.
   */
  lemma CommittedHabitLeavesChores(hs: seq<HabitRow>, i: nat, remark: Option<string>, now: int)
    requires i < |hs|
    ensures var shown := WithCompletion(hs[i := Committed(hs[i], remark, now)], now);
      shown[i] !in TodaysChores(shown) && shown[i] !in WeeklyChores(shown)
  {
    CommittedReadsAsCompleted(hs, i, remark, now);
  }
}

=== FILE: lists.dfy ===
/**
 * `Array.prototype.filter` on immutable sequences, shared by the client-side
 * modules: the kept elements, in their original order.
 */
module Lists {
  /** The elements of `s` that `keep` accepts, in order. */
  function Filter<T(!new)>(s: seq<T>, keep: T -> bool): (r: seq<T>)
    ensures |r| <= |s|
    ensures forall x :: x in r <==> x in s && keep(x)
  {
    if s == [] then []
    else (if keep(s[0]) then [s[0]] else []) + Filter(s[1..], keep)
  }

  /** Filtering distributes over concatenation, so the kept elements keep their order. */
  lemma {:induction false} FilterAppend<T(!new)>(a: seq<T>, b: seq<T>, keep: T -> bool)
    ensures Filter(a + b, keep) == Filter(a, keep) + Filter(b, keep)
  {
    if a != [] {
      var head := if keep(a[0]) then [a[0]] else [];
      assert (a + b)[0] == a[0] && (a + b)[1..] == a[1..] + b;
      FilterAppend(a[1..], b, keep);
      assert Filter(a + b, keep) == head + (Filter(a[1..], keep) + Filter(b, keep));
    } else {
      assert a + b == b;
    }
  }

  /** A filter that accepts every element gives the sequence back. */
  lemma {:induction false} FilterKeepsAll<T(!new)>(s: seq<T>, keep: T -> bool)
    requires forall i :: 0 <= i < |s| ==> keep(s[i])
    ensures Filter(s, keep) == s
  {
    if s != [] {
      FilterKeepsAll(s[1..], keep);
    }
  }

  /** Filtering twice with the same test is filtering once. */
  lemma {:induction false} FilterIdempotent<T(!new)>(s: seq<T>, keep: T -> bool)
    ensures Filter(Filter(s, keep), keep) == Filter(s, keep)
  {
    var r := Filter(s, keep);
    forall i | 0 <= i < |r| ensures keep(r[i]) {
      assert r[i] in r;
    }
    FilterKeepsAll(r, keep);
  }

  /** Splitting by a test and by its negation accounts for every element once. */
  lemma {:induction false} FilterSplits<T(!new)>(s: seq<T>, keep: T -> bool, drop: T -> bool)
    requires forall x :: drop(x) == !keep(x)
    ensures |Filter(s, keep)| + |Filter(s, drop)| == |s|
  {
    if s != [] {
      FilterSplits(s[1..], keep, drop);
    }
  }
}

=== FILE: pet_service.dfy ===
/**
 * The stand-alone leveling service of `lib/services/petService.ts`: 25 XP per
 * commit, a table of thresholds for levels 1 to 10 with 500 more per level
 * beyond, and a six-entry table of evolution stages. It computes a new pet
 * value and writes nothing; it is separate from the 10-XP rule of the commit
 * path (module Leveling).
 */
module PetService {
  import opened Wrappers
  import Records

  datatype Pet = Pet(
    id: string,
    name: string,
    stage: string,
    level: int,
    xp: int,
    xpToNextLevel: int,
    color: string,
    species: string,
    petType: string,
    rarity: string)

  const XpPerCommit: int := 25

  /** XP needed at level L (index L - 1) to reach the next level, for L in 1..10. */
  const LevelThresholds: seq<int> := [100, 200, 350, 500, 750, 1000, 1500, 2000, 3000, 5000]

  /** The threshold after reaching `level`: the table's entry, or 500 more than before past the table. */
  function NextThreshold(level: int, previous: int): (t: int)
    ensures 1 <= level <= |LevelThresholds| ==> t == LevelThresholds[level - 1]
    ensures !(1 <= level <= |LevelThresholds|) ==> t == previous + 500
    ensures previous > 0 ==> t > 0
  {
    if 1 <= level <= |LevelThresholds| then LevelThresholds[level - 1] else previous + 500
  }

  /** One entry of the stage table: the level from which a stage applies. */
  datatype StageStep = StageStep(level: int, stage: string)

  const StageThresholds: seq<StageStep> := [
    StageStep(1, "egg"), StageStep(2, "baby"), StageStep(4, "toddler"),
    StageStep(6, "child"), StageStep(9, "teen"), StageStep(12, "adult")]

  /** The three numbers the level-up loop updates. */
  datatype Progress = Progress(xp: int, level: int, xpToNext: int)

  /** The result of the level-up loop. */
  function Carry(p: Progress): (r: Progress)
    requires p.xpToNext > 0
    ensures r.xp < r.xpToNext && r.xpToNext > 0
    ensures p.xp >= 0 ==> r.xp >= 0
    ensures r.level >= p.level && r.xp <= p.xp
    ensures r.level == p.level <==> r == p
    decreases p.xp
  {
    if p.xp < p.xpToNext then p
    else Carry(Progress(p.xp - p.xpToNext, p.level + 1, NextThreshold(p.level + 1, p.xpToNext)))
  }

  /**
   * The threshold after `k` level-ups from `level` with threshold `t`: the
   * table's entry once a level in 1..10 is reached, 500 more per level past it.
   */
  function ThresholdAfter(level: int, t: int, k: nat): (r: int)
    ensures k > 0 && 1 <= level + k <= |LevelThresholds| ==> r == LevelThresholds[level + k - 1]
    ensures k > 0 && !(1 <= level + k <= |LevelThresholds|) ==> r == ThresholdAfter(level, t, k - 1) + 500
    ensures t > 0 ==> r > 0
    decreases k
  {
    if k == 0 then t else ThresholdAfter(level + 1, NextThreshold(level + 1, t), k - 1)
  }

  /** The threshold the loop ends with is the one reached through the levels gained. */
  lemma {:induction false} CarryThreshold(p: Progress)
    requires p.xpToNext > 0
    ensures Carry(p).xpToNext == ThresholdAfter(p.level, p.xpToNext, Carry(p).level - p.level)
    decreases p.xp
  {
    if p.xp >= p.xpToNext {
      CarryThreshold(Progress(p.xp - p.xpToNext, p.level + 1, NextThreshold(p.level + 1, p.xpToNext)));
    }
  }

  /** The XP paid for `k` level-ups from `level` with threshold `t`. */
  function Spent(level: int, t: int, k: nat): int
    decreases k
  {
    if k == 0 then 0 else t + Spent(level + 1, NextThreshold(level + 1, t), k - 1)
  }

  /** Each loop iteration adds exactly one level and pays exactly that level's threshold. */
  lemma {:induction false} CarryConserves(p: Progress)
    requires p.xpToNext > 0
    ensures p.xp == Carry(p).xp + Spent(p.level, p.xpToNext, Carry(p).level - p.level)
    decreases p.xp
  {
    if p.xp >= p.xpToNext {
      CarryConserves(Progress(p.xp - p.xpToNext, p.level + 1, NextThreshold(p.level + 1, p.xpToNext)));
    }
  }

  /** The stage the `for` loop leaves: every entry whose level is reached overrides the stage so far. */
  function StageAfter(ts: seq<StageStep>, level: int, stage: string): (r: string)
    ensures (forall k :: 0 <= k < |ts| ==> ts[k].level > level) ==> r == stage
  {
    if ts == [] then stage
    else
      var before := StageAfter(ts[..|ts| - 1], level, stage);
      if level >= ts[|ts| - 1].level then ts[|ts| - 1].stage else before
  }

  /** The stage walk yields the stage of the last entry whose level is reached. */
  lemma {:induction false} StageAfterIsLast(ts: seq<StageStep>, level: int, stage: string)
    requires exists k :: 0 <= k < |ts| && ts[k].level <= level
    ensures exists k :: 0 <= k < |ts| && ts[k].level <= level && StageAfter(ts, level, stage) == ts[k].stage
                      && forall j :: k < j < |ts| ==> ts[j].level > level
  {
    var last := |ts| - 1;
    if ts[last].level > level {
      var init := ts[..last];
      var k :| 0 <= k < |ts| && ts[k].level <= level;
      assert init[k] == ts[k];
      StageAfterIsLast(init, level, stage);
      var k' :| 0 <= k' < |init| && init[k'].level <= level && StageAfter(init, level, stage) == init[k'].stage
        && forall j :: k' < j < |init| ==> init[j].level > level;
      assert ts[k'] == init[k'];
      forall j | k' < j < |ts| ensures ts[j].level > level {
        if j < last {
          assert ts[j] == init[j];
        }
      }
    }
  }

  /** The new pet `addXP` returns, as a value. */
  function Added(pet: Pet, commits: nat): (r: Pet)
    requires pet.xpToNextLevel > 0
    ensures r.xpToNextLevel > 0
  {
    var p := Carry(Progress(pet.xp + XpPerCommit * commits, pet.level, pet.xpToNextLevel));
    pet.(xp := p.xp, level := p.level, xpToNextLevel := p.xpToNext,
         stage := StageAfter(StageThresholds, p.level, pet.stage))
  }

  /** The `while` loop of `addXP`: pays thresholds until the XP is below the current one. */
  method LevelUps(p: Progress) returns (r: Progress)
    requires p.xpToNext > 0
    ensures r == Carry(p)
  {
    var xp, level, xpToNextLevel := p.xp, p.level, p.xpToNext;
    while xp >= xpToNextLevel
      invariant xpToNextLevel > 0
      invariant Carry(Progress(xp, level, xpToNextLevel)) == Carry(p)
      decreases xp
    {
      xp := xp - xpToNextLevel;
      level := level + 1;
      xpToNextLevel := NextThreshold(level, xpToNextLevel);
    }
    r := Progress(xp, level, xpToNextLevel);
  }

  /**
   * `addXP`: credits 25 XP per commit, runs the level-up loop, then walks the
   * stage table. Only xp, level, xpToNextLevel and stage change.
   */
  method AddXP(pet: Pet, commits: nat) returns (r: Pet)
    requires pet.xpToNextLevel > 0
    ensures r == pet.(xp := r.xp, level := r.level, xpToNextLevel := r.xpToNextLevel, stage := r.stage)
    ensures Progress(r.xp, r.level, r.xpToNextLevel)
         == Carry(Progress(pet.xp + XpPerCommit * commits, pet.level, pet.xpToNextLevel))
    ensures r.stage == StageAfter(StageThresholds, r.level, pet.stage)
    ensures pet.xp >= 0 ==> 0 <= r.xp < r.xpToNextLevel
    ensures r.level >= pet.level
  {
    var p := LevelUps(Progress(pet.xp + XpPerCommit * commits, pet.level, pet.xpToNextLevel));
    var level := p.level;
    var stage := pet.stage;

    for i := 0 to |StageThresholds|
      invariant stage == StageAfter(StageThresholds[..i], level, pet.stage)
    {
      assert StageThresholds[..i + 1][..i] == StageThresholds[..i];
      if level >= StageThresholds[i].level {
        stage := StageThresholds[i].stage;
      }
    }
    assert StageThresholds[..|StageThresholds|] == StageThresholds;

    r := pet.(xp := p.xp, level := level, xpToNextLevel := p.xpToNext, stage := stage);
  }

  /** `getXPPerCommit`: the XP one commit is worth, the same amount `addXP` credits. */
  function GetXPPerCommit(): (r: int)
    ensures r > 0
    ensures forall pet: Pet :: pet.xpToNextLevel > 0 && pet.xp + r < pet.xpToNextLevel ==>
      Added(pet, 1).xp == pet.xp + r && Added(pet, 1).level == pet.level
  {
    XpPerCommit
  }

  /** Stage levels strictly increase and stage names are distinct. */
  lemma StageTableOrdered()
    ensures forall i, j :: 0 <= i < j < |StageThresholds| ==> StageThresholds[i].level < StageThresholds[j].level
    ensures forall i, j :: 0 <= i < j < |StageThresholds| ==> StageThresholds[i].stage != StageThresholds[j].stage
  {
  }

  /** Between entry `k`'s level and the next entry's, the table yields entry `k`'s stage. */
  lemma StageAtLevel(level: int, stage: string, k: nat)
    requires k < |StageThresholds| && StageThresholds[k].level <= level
    requires k + 1 < |StageThresholds| ==> level < StageThresholds[k + 1].level
    ensures StageAfter(StageThresholds, level, stage) == StageThresholds[k].stage
  {
    StageTableOrdered();
    StageAfterIsLast(StageThresholds, level, stage);
    var r := StageAfter(StageThresholds, level, stage);
    var k' :| 0 <= k' < |StageThresholds| && StageThresholds[k'].level <= level && r == StageThresholds[k'].stage
        && forall j :: k' < j < |StageThresholds| ==> StageThresholds[j].level > level;
    assert k' == k;
  }

  /** Every level from 12 on is adult; below level 1 the input stage is kept. */
  lemma StageTableBounds(level: int, stage: string)
    ensures level >= 12 ==> StageAfter(StageThresholds, level, stage) == "adult"
    ensures level < 1 ==> StageAfter(StageThresholds, level, stage) == stage
  {
    if level >= 12 {
      StageAtLevel(level, stage, 5);
    }
  }

  /** From level 1 on the stage depends on the level alone, and never regresses to an earlier table entry. */
  lemma StageMonotone(l1: int, l2: int, s1: string, s2: string, k1: nat, k2: nat)
    requires 1 <= l1 <= l2
    requires k1 < |StageThresholds| && StageAfter(StageThresholds, l1, s1) == StageThresholds[k1].stage
    requires k2 < |StageThresholds| && StageAfter(StageThresholds, l2, s2) == StageThresholds[k2].stage
    ensures k1 <= k2
  {
    StageTableOrdered();
    assert StageThresholds[0].level <= l1;
    StageAfterIsLast(StageThresholds, l1, s1);
    StageAfterIsLast(StageThresholds, l2, s2);
    var a :| 0 <= a < |StageThresholds| && StageThresholds[a].level <= l1
        && StageAfter(StageThresholds, l1, s1) == StageThresholds[a].stage
        && forall j :: a < j < |StageThresholds| ==> StageThresholds[j].level > l1;
    var b :| 0 <= b < |StageThresholds| && StageThresholds[b].level <= l2
        && StageAfter(StageThresholds, l2, s2) == StageThresholds[b].stage
        && forall j :: b < j < |StageThresholds| ==> StageThresholds[j].level > l2;
    assert a == k1 && b == k2;
  }

  /** The stage walk at a higher level absorbs an earlier walk. */
  lemma StageAfterAbsorbs(l1: int, l2: int, stage: string)
    requires l1 <= l2
    ensures StageAfter(StageThresholds, l2, StageAfter(StageThresholds, l1, stage))
         == StageAfter(StageThresholds, l2, stage)
  {
    StageTableBounds(l2, stage);
    StageTableBounds(l1, stage);
    if l2 >= 1 {
      assert StageThresholds[0].level <= l2;
      var s1 := StageAfter(StageThresholds, l2, StageAfter(StageThresholds, l1, stage));
      StageAfterIsLast(StageThresholds, l2, StageAfter(StageThresholds, l1, stage));
      var a :| 0 <= a < |StageThresholds| && StageThresholds[a].level <= l2 && s1 == StageThresholds[a].stage
          && forall j :: a < j < |StageThresholds| ==> StageThresholds[j].level > l2;
      StageAtLevel(l2, stage, a);
    }
  }

  /** Adds `gain` XP to a progress. */
  function Credit(p: Progress, gain: int): Progress
  {
    Progress(p.xp + gain, p.level, p.xpToNext)
  }

  /** Crediting XP all at once or in two parts gives the same progress. */
  lemma CarryAdditive(p: Progress, a: int, b: int)
    requires 0 <= p.xp && 0 < p.xpToNext && 0 <= a && 0 <= b
    ensures Carry(Credit(p, a + b)) == Carry(Credit(Carry(Credit(p, a)), b))
  {
    assert Credit(Credit(p, a), b) == Credit(p, a + b);
    CarrySettlesFirst(Credit(p, a), b);
  }

  /** Settling before a credit of `b` XP or only after it ends in the same progress. */
  lemma {:induction false} CarrySettlesFirst(q: Progress, b: int)
    requires 0 < q.xpToNext && 0 <= b
    ensures Carry(Credit(q, b)) == Carry(Credit(Carry(q), b))
    decreases q.xp
  {
    if q.xp >= q.xpToNext {
      var next := Progress(q.xp - q.xpToNext, q.level + 1, NextThreshold(q.level + 1, q.xpToNext));
      var qb := Credit(q, b);
      assert Progress(qb.xp - qb.xpToNext, qb.level + 1, NextThreshold(qb.level + 1, qb.xpToNext)) == Credit(next, b);
      calc {
        Carry(qb);
        Carry(Credit(next, b));
        { CarrySettlesFirst(next, b); }
        Carry(Credit(Carry(next), b));
        Carry(Credit(Carry(q), b));
      }
    } else {
      assert Carry(q) == q;
    }
  }

  /** `n` calls of `addXP` with one commit each. */
  function AddedOneByOne(pet: Pet, n: nat): (r: Pet)
    requires pet.xpToNextLevel > 0
    ensures r.xpToNextLevel > 0
    decreases n
  {
    if n == 0 then pet else AddedOneByOne(Added(pet, 1), n - 1)
  }

  /** `addXP` on a pet's numbers, as a credit followed by the level-up loop. */
  lemma AddedIsCarry(pet: Pet, commits: nat)
    requires pet.xpToNextLevel > 0
    ensures var r := Added(pet, commits);
      Progress(r.xp, r.level, r.xpToNextLevel)
        == Carry(Credit(Progress(pet.xp, pet.level, pet.xpToNextLevel), XpPerCommit * commits))
    ensures Added(pet, commits).stage == StageAfter(StageThresholds, Added(pet, commits).level, pet.stage)
    ensures Added(pet, commits) == pet.(xp := Added(pet, commits).xp, level := Added(pet, commits).level,
      xpToNextLevel := Added(pet, commits).xpToNextLevel, stage := Added(pet, commits).stage)
  {
  }

  /** One commit followed by `m` more is `m + 1` commits at once. */
  lemma SplitFirstCommit(pet: Pet, m: nat)
    requires pet.xpToNextLevel > 0 && pet.xp >= 0
    ensures Added(Added(pet, 1), m) == Added(pet, m + 1)
  {
    var one := Added(pet, 1);
    var p := Progress(pet.xp, pet.level, pet.xpToNextLevel);
    AddedIsCarry(pet, 1);
    AddedIsCarry(pet, m + 1);
    AddedIsCarry(one, m);
    var q := Progress(one.xp, one.level, one.xpToNextLevel);
    assert q == Carry(Credit(p, XpPerCommit));
    OneMoreCredit(p, m);
    var rest := Added(one, m);
    var all := Added(pet, m + 1);
    assert Progress(rest.xp, rest.level, rest.xpToNextLevel) == Progress(all.xp, all.level, all.xpToNextLevel);
    StageAfterAbsorbs(one.level, rest.level, pet.stage);
    assert rest.stage == all.stage;
  }

  /** One commit's credit, settled, then `m` commits' credit is `m + 1` commits' credit. */
  lemma OneMoreCredit(p: Progress, m: nat)
    requires 0 <= p.xp && 0 < p.xpToNext
    ensures Carry(Credit(Carry(Credit(p, XpPerCommit)), XpPerCommit * m)) == Carry(Credit(p, XpPerCommit * (m + 1)))
  {
    CarryAdditive(p, XpPerCommit, XpPerCommit * m);
    assert XpPerCommit + XpPerCommit * m == XpPerCommit * (m + 1);
  }

  /**
   * `addXP(pet, n)` is `n` successive `addXP(pet, 1)` for any `n >= 1`: the
   * loop is pure carrying, and the stage depends only on the final level.
   */
  lemma {:induction false} CommitsAreAdditive(pet: Pet, n: nat)
    requires pet.xpToNextLevel > 0 && pet.xp >= 0 && n >= 1
    ensures AddedOneByOne(pet, n) == Added(pet, n)
    decreases n
  {
    var one := Added(pet, 1);
    if n > 1 {
      AddedIsCarry(pet, 1);
      CommitsAreAdditive(one, n - 1);
      SplitFirstCommit(pet, n - 1);
    }
  }

  /** `findIndex` of a stage in the table. */
  function StageIndex(stage: string): (r: Option<nat>)
    ensures r.Some? ==> r.value < |StageThresholds| && StageThresholds[r.value].stage == stage
    ensures r.None? ==> forall k :: 0 <= k < |StageThresholds| ==> StageThresholds[k].stage != stage
  {
    Records.FirstIndex(StageThresholds, (t: StageStep) => t.stage == stage)
  }

  /** What `getNextEvolution` returns: the next stage and how many levels away it is. */
  datatype Evolution = Evolution(stage: string, levelsAway: int)

  /**
   * `getNextEvolution`: the entry after the pet's stage in the table (the
   * first entry when the stage is not in the table); nothing at the last.
   */
  function GetNextEvolution(pet: Pet): (r: Option<Evolution>)
    ensures r.None? <==> pet.stage == "adult"
    ensures (forall k :: 0 <= k < |StageThresholds| ==> StageThresholds[k].stage != pet.stage) ==>
      r == Some(Evolution("egg", 1 - pet.level))
    ensures forall k :: 0 <= k < |StageThresholds| - 1 && StageThresholds[k].stage == pet.stage ==>
      r == Some(Evolution(StageThresholds[k + 1].stage, StageThresholds[k + 1].level - pet.level))
  {
    StageTableOrdered();
    var index := StageIndex(pet.stage);
    var next := match index case None => 0 case Some(i) => i + 1;
    if next < |StageThresholds| then
      Some(Evolution(StageThresholds[next].stage, StageThresholds[next].level - pet.level))
    else None
  }

  /** The pet's stage is entry `k` of the table, reached at its level. */
  predicate AtEntry(pet: Pet, k: nat)
  {
    k < |StageThresholds| && StageThresholds[k].level <= pet.level && pet.stage == StageThresholds[k].stage
    && (k + 1 < |StageThresholds| ==> pet.level < StageThresholds[k + 1].level)
  }

  /**
   * For a pet whose stage is the one its level calls for, the next evolution
   * is `levelsAway` levels ahead: every level before it keeps the current
   * stage and that level reaches the announced one.
   */
  lemma NextEvolutionIsReached(pet: Pet, s: string)
    requires pet.level >= 1 && pet.stage == StageAfter(StageThresholds, pet.level, s)
    ensures GetNextEvolution(pet).None? <==> pet.level >= 12
    ensures GetNextEvolution(pet).Some? ==>
      var e := GetNextEvolution(pet).value;
      && e.levelsAway > 0
      && StageAfter(StageThresholds, pet.level + e.levelsAway, s) == e.stage
      && forall l :: pet.level <= l < pet.level + e.levelsAway ==> StageAfter(StageThresholds, l, s) == pet.stage
  {
    StageTableOrdered();
    assert StageThresholds[0].level <= pet.level;
    StageAfterIsLast(StageThresholds, pet.level, s);
    var k :| 0 <= k < |StageThresholds| && StageThresholds[k].level <= pet.level
        && pet.stage == StageThresholds[k].stage
        && forall j :: k < j < |StageThresholds| ==> StageThresholds[j].level > pet.level;
    assert AtEntry(pet, k);
    if k + 1 < |StageThresholds| {
      NextEvolutionFromEntry(pet, s, k);
    } else {
      StageTableBounds(pet.level, s);
    }
  }

  /** The case of a pet below the last entry, with the entry its stage comes from. */
  lemma NextEvolutionFromEntry(pet: Pet, s: string, k: nat)
    requires AtEntry(pet, k) && k + 1 < |StageThresholds|
    ensures GetNextEvolution(pet) == Some(Evolution(StageThresholds[k + 1].stage, StageThresholds[k + 1].level - pet.level))
    ensures StageThresholds[k + 1].level - pet.level > 0
    ensures StageAfter(StageThresholds, StageThresholds[k + 1].level, s) == StageThresholds[k + 1].stage
    ensures forall l :: pet.level <= l < StageThresholds[k + 1].level ==> StageAfter(StageThresholds, l, s) == pet.stage
  {
    assert 0 <= k < |StageThresholds| - 1 && StageThresholds[k].stage == pet.stage;
    StageAtLevel(StageThresholds[k + 1].level, s, k + 1);
    forall l | pet.level <= l < StageThresholds[k + 1].level
      ensures StageAfter(StageThresholds, l, s) == pet.stage
    {
      StageAtLevel(l, s, k);
    }
  }
}

=== FILE: pet_sprite.dfy ===
/**
 * The image choice of `PetSprite` in `components/ui/PetSprite.tsx`: a
 * free-text stage is lowercased and mapped to one of four canonical stages by
 * keyword, highest stage first, and the image is looked up in a per-species
 * table that falls back to the Chicken table.
 */
module PetSprite {
  import opened Text

  const AncientWords: seq<string> := ["ancient", "giant", "elder", "guardian"]
  const AdultWords: seq<string> := ["adult", "bloom", "teen", "tree"]
  const BabyWords: seq<string> := ["baby", "sprout", "chick", "toddler", "whelp", "sapling"]
  const EggWords: seq<string> := ["egg", "seed", "shard"]

  /** `s.includes(w1) || s.includes(w2) || ...` over the keywords `words`. */
  predicate MentionsAny(s: string, words: seq<string>)
  {
    words != [] && (Contains(s, words[0]) || MentionsAny(s, words[1..]))
  }

  /** A keyword list is mentioned exactly when one of its keywords occurs. */
  lemma {:induction false} MentionsAnyIff(s: string, words: seq<string>)
    ensures MentionsAny(s, words) <==> exists i :: 0 <= i < |words| && Contains(s, words[i])
  {
    if words != [] {
      MentionsAnyIff(s, words[1..]);
      assert forall i :: 0 < i < |words| ==> words[i] == words[1..][i - 1];
    }
  }

  /** The four canonical stages, the keys of every image table. */
  datatype Canonical = Egg | Baby | Adult | Ancient

  /**
   * The canonical stage of a free-text stage: the first keyword group, in
   * priority order ancient, adult, baby, egg, that the lowercased stage
   * mentions; baby when none does.
   */
  function CanonicalStage(stage: string): (r: Canonical)
    ensures var s := Lower(stage);
      && (r == Ancient <==> MentionsAny(s, AncientWords))
      && (r == Adult <==> !MentionsAny(s, AncientWords) && MentionsAny(s, AdultWords))
      && (r == Egg <==> !MentionsAny(s, AncientWords) && !MentionsAny(s, AdultWords)
                        && !MentionsAny(s, BabyWords) && MentionsAny(s, EggWords))
  {
    var lowerStage := Lower(stage);
    if MentionsAny(lowerStage, AncientWords) then Ancient
    else if MentionsAny(lowerStage, AdultWords) then Adult
    else if MentionsAny(lowerStage, BabyWords) then Baby
    else if MentionsAny(lowerStage, EggWords) then Egg
    else Baby
  }

  /** Whatever else a stage says, any ancient keyword in it, in any case, makes it ancient. */
  lemma AncientKeywordWins(stage: string, i: nat)
    requires i < |AncientWords| && Contains(Lower(stage), AncientWords[i])
    ensures CanonicalStage(stage) == Ancient
  {
    MentionsAnyIff(Lower(stage), AncientWords);
  }

  /** Matching ignores case: a stage and its lowercase form have the same canonical stage. */
  lemma CanonicalStageIgnoresCase(stage: string)
    ensures CanonicalStage(stage) == CanonicalStage(Lower(stage))
  {
    LowerIdempotent(stage);
  }

  /** A word with a letter that `s` lacks does not occur in `s`. */
  lemma LacksLetter(s: string, word: string, c: char)
    requires c in word && c !in s
    ensures !Contains(s, word)
  {
    var k :| 0 <= k < |word| && word[k] == c;
    forall i | 0 <= i && i + |word| <= |s| ensures !OccursAt(s, word, i) {
      assert s[i..i + |word|][k] == s[i + k];
      assert s[i + k] in s;
    }
  }

  /** A stage that lacks a letter of every keyword of a group mentions none of them. */
  lemma NoneMentioned(s: string, words: seq<string>, letters: seq<char>)
    requires |letters| == |words|
    requires forall i :: 0 <= i < |words| ==> letters[i] in words[i] && letters[i] !in s
    ensures !MentionsAny(s, words)
  {
    MentionsAnyIff(s, words);
    forall i | 0 <= i < |words| ensures !Contains(s, words[i]) {
      LacksLetter(s, words[i], letters[i]);
    }
  }

  /** "seed" mentions no ancient, adult or baby keyword. */
  lemma SeedLacksAncient(s: string)
    requires s == "seed"
    ensures !MentionsAny(s, AncientWords)
  {
    NoneMentioned(s, AncientWords, "agla");
  }

  lemma SeedLacksAdult(s: string)
    requires s == "seed"
    ensures !MentionsAny(s, AdultWords)
  {
    NoneMentioned(s, AdultWords, "abtt");
  }

  lemma SeedLacksBaby(s: string)
    requires s == "seed"
    ensures !MentionsAny(s, BabyWords)
  {
    NoneMentioned(s, BabyWords, "bpctwa");
  }

  /** Neither "sprout" nor "bloom" mentions an ancient keyword. */
  lemma SproutOrBloomLacksAncient(s: string)
    requires s == "sprout" || s == "bloom"
    ensures !MentionsAny(s, AncientWords)
  {
    NoneMentioned(s, AncientWords, "agea");
  }

  /** "sprout" mentions no adult keyword. */
  lemma SproutLacksAdult(s: string)
    requires s == "sprout"
    ensures !MentionsAny(s, AdultWords)
  {
    NoneMentioned(s, AdultWords, "abee");
  }

  /** "sprout" is itself a baby keyword. */
  lemma SproutMentionsBaby(s: string)
    requires s == "sprout"
    ensures MentionsAny(s, BabyWords)
  {
    Mentioned(s, BabyWords, 1);
  }

  /** "seed" matches only an egg keyword. */
  lemma SeedIsEgg(s: string)
    requires s == "seed"
    ensures CanonicalStage(s) == Egg
  {
    LowerOfLowercase(s);
    SeedLacksAncient(s);
    SeedLacksAdult(s);
    SeedLacksBaby(s);
    Mentioned(s, EggWords, 1);
  }

  /** "sprout" matches no ancient or adult keyword but a baby one. */
  lemma SproutIsBaby(s: string)
    requires s == "sprout"
    ensures CanonicalStage(s) == Baby
  {
    LowerOfLowercase(s);
    SproutOrBloomLacksAncient(s);
    SproutLacksAdult(s);
    SproutMentionsBaby(s);
  }

  /** "bloom" matches no ancient keyword but an adult one. */
  lemma BloomIsAdult(s: string)
    requires s == "bloom"
    ensures CanonicalStage(s) == Adult
  {
    LowerOfLowercase(s);
    SproutOrBloomLacksAncient(s);
    Mentioned(s, AdultWords, 1);
  }

  /** A keyword that starts the stage is mentioned. */
  lemma Mentioned(s: string, words: seq<string>, i: nat)
    requires i < |words| && |words[i]| <= |s| && s[..|words[i]|] == words[i]
    ensures MentionsAny(s, words)
  {
    MentionsAnyIff(s, words);
    assert OccursAt(s, words[i], 0);
  }

  /** A stage of lowercase letters is its own lowercase form. */
  lemma LowerOfLowercase(s: string)
    requires forall i :: 0 <= i < |s| ==> 'a' <= s[i] <= 'z'
    ensures Lower(s) == s
  {
  }

  /**
   * What `SPECIES_IMG[species] || SPECIES_IMG['Chicken']` finds: one of the
   * four tables, or, for a name the object literal inherits from
   * `Object.prototype`, that inherited member, which is truthy and holds none
   * of the four stage keys.
   */
  datatype Species = Chicken | Sunflower | Dragon | CrystalTree | Inherited

  /** The property names every plain object inherits from `Object.prototype`. */
  const PrototypeNames: set<string> := {
    "constructor", "hasOwnProperty", "isPrototypeOf", "propertyIsEnumerable",
    "toLocaleString", "toString", "valueOf", "__proto__",
    "__defineGetter__", "__defineSetter__", "__lookupGetter__", "__lookupSetter__"}

  /**
   * `SPECIES_IMG[species] || SPECIES_IMG['Chicken']`: the three named species
   * keep their table, an inherited name finds the inherited member, and any
   * other name is drawn as a Chicken.
   */
  function SpeciesNamed(species: string): (r: Species)
    ensures species == "Sunflower" <==> r == Sunflower
    ensures species == "Dragon" <==> r == Dragon
    ensures species == "CrystalTree" <==> r == CrystalTree
    ensures species in PrototypeNames <==> r == Inherited
  {
    if species == "Sunflower" then Sunflower
    else if species == "Dragon" then Dragon
    else if species == "CrystalTree" then CrystalTree
    else if species in PrototypeNames then Inherited
    else Chicken
  }

  /** `SPECIES_IMG`: the image table of each species. */
  function ImagesOf(sp: Species): map<Canonical, string>
  {
    match sp
    case Chicken => map[
      Egg := "/companions/chicken/egg.png", Baby := "/companions/chicken/baby.png",
      Adult := "/companions/chicken/adult.png", Ancient := "/companions/chicken/ancient.png"]
    case Sunflower => map[
      Egg := "/companions/sunflower/seed.png", Baby := "/companions/sunflower/sprout.png",
      Adult := "/companions/sunflower/bloom.png", Ancient := "/companions/sunflower/ancient.png"]
    case Dragon => map[
      Egg := "/companions/dragon/egg.png", Baby := "/companions/dragon/baby.png",
      Adult := "/companions/dragon/adult.png", Ancient := "/companions/dragon/ancient.png"]
    case CrystalTree => map[
      Egg := "/companions/crystaltree/egg.png", Baby := "/companions/crystaltree/baby.png",
      Adult := "/companions/crystaltree/adult.png", Ancient := "/companions/crystaltree/ancient.png"]
    case Inherited => map[]
  }

  const LastResortImage: string := "/companions/chicken/baby.png"

  /** `config[key] || fallback`: a missing or empty entry falls through. */
  function Entry(config: map<Canonical, string>, key: Canonical, fallback: string): (r: string)
    ensures key in config && config[key] != "" ==> r == config[key]
    ensures !(key in config && config[key] != "") ==> r == fallback
  {
    if key in config && config[key] != "" then config[key] else fallback
  }

  /** The image file of a species at a free-text stage, with the fallbacks of the source. */
  function ImageFile(species: string, stage: string): string
  {
    var config := ImagesOf(SpeciesNamed(species));
    Entry(config, CanonicalStage(stage), Entry(config, Baby, Entry(config, Adult, LastResortImage)))
  }

  /** Every species table has a non-empty file for each of the four canonical stages. */
  lemma TablesComplete(sp: Species, c: Canonical)
    requires sp != Inherited
    ensures c in ImagesOf(sp) && ImagesOf(sp)[c] != ""
  {
  }

  /**
   * For any name that is not an inherited property the image comes from the
   * species' own table, so the fallbacks of `ImageFile` are never used.
   */
  lemma ImageFromTable(species: string, stage: string)
    requires species !in PrototypeNames
    ensures var c := CanonicalStage(stage);
      c in ImagesOf(SpeciesNamed(species)) && ImageFile(species, stage) == ImagesOf(SpeciesNamed(species))[c]
  {
    TablesComplete(SpeciesNamed(species), CanonicalStage(stage));
  }

  /** Any other species without a table of its own is drawn with the Chicken images. */
  lemma UnknownSpeciesIsChicken(species: string, stage: string)
    requires species != "Sunflower" && species != "Dragon" && species != "CrystalTree"
    requires species !in PrototypeNames
    ensures ImageFile(species, stage) == ImageFile("Chicken", stage)
  {
    TableNamesNotInherited();
    ImageFromTable(species, stage);
    ImageFromTable("Chicken", stage);
  }

  /**
   * An inherited property name such as "constructor" finds no file at any
   * stage, so every fallback fails and the last-resort image is drawn.
   */
  lemma InheritedNameIsLastResort(species: string, stage: string)
    requires species in PrototypeNames
    ensures ImageFile(species, stage) == LastResortImage
    ensures CanonicalStage(stage) != Baby ==> ImageFile(species, stage) != ImageFile("Chicken", stage)
  {
    TableNamesNotInherited();
    ImageFromTable("Chicken", stage);
  }

  /** The names of the four tables are not inherited property names. */
  lemma TableNamesNotInherited()
    ensures "Chicken" !in PrototypeNames && "Sunflower" !in PrototypeNames
    ensures "Dragon" !in PrototypeNames && "CrystalTree" !in PrototypeNames
  {
  }

  /** A Sunflower at stage "seed" is drawn with the seed image. */
  lemma SunflowerSeedImage(seed: string)
    requires seed == "seed"
    ensures ImageFile("Sunflower", seed) == "/companions/sunflower/seed.png"
  {
    SeedIsEgg(seed);
    TableNamesNotInherited();
    ImageFromTable("Sunflower", seed);
  }

  /** A Sunflower at stage "sprout" is drawn with the sprout image. */
  lemma SunflowerSproutImage(sprout: string)
    requires sprout == "sprout"
    ensures ImageFile("Sunflower", sprout) == "/companions/sunflower/sprout.png"
  {
    SproutIsBaby(sprout);
    TableNamesNotInherited();
    ImageFromTable("Sunflower", sprout);
  }

  /** A Sunflower at stage "bloom" is drawn with the bloom image. */
  lemma SunflowerBloomImage(bloom: string)
    requires bloom == "bloom"
    ensures ImageFile("Sunflower", bloom) == "/companions/sunflower/bloom.png"
  {
    BloomIsAdult(bloom);
    TableNamesNotInherited();
    ImageFromTable("Sunflower", bloom);
  }
}

=== FILE: profile_page.dfy ===
/**
 * `calculateTotalStats` of `app/profile/page.tsx`: one pass over the user's
 * pillars adding up commits and a rough XP total, and keeping the highest
 * companion level and the first companion to reach it.
 */
module ProfilePage {
  import opened Wrappers
  import opened Records

  /** A pillar as the profile page loads it: its commit count and its companion, if any. */
  datatype ProfilePillar = ProfilePillar(totalCommits: int, pet: Option<PetRow>)

  /** The XP a pillar contributes: `pet.xp + pet.level * 100`, or nothing without a companion. */
  function PetXp(p: ProfilePillar): int
  {
    if p.pet.Some? then p.pet.value.xp + p.pet.value.level * 100 else 0
  }

  /** A companion whose level beats `level`. */
  predicate Beats(p: ProfilePillar, level: int)
  {
    p.pet.Some? && p.pet.value.level > level
  }

  function SumCommits(ps: seq<ProfilePillar>): int
  {
    if ps == [] then 0 else SumCommits(ps[..|ps| - 1]) + ps[|ps| - 1].totalCommits
  }

  function SumXp(ps: seq<ProfilePillar>): int
  {
    if ps == [] then 0 else SumXp(ps[..|ps| - 1]) + PetXp(ps[|ps| - 1])
  }

  /** The highest companion level, or 0 when no companion has a positive level. */
  function HighestLevel(ps: seq<ProfilePillar>): (h: int)
    ensures h >= 0
  {
    if ps == [] then 0
    else
      var h := HighestLevel(ps[..|ps| - 1]);
      if Beats(ps[|ps| - 1], h) then ps[|ps| - 1].pet.value.level else h
  }

  /** The companion that last raised the highest level. */
  function BestPet(ps: seq<ProfilePillar>): Option<PetRow>
  {
    if ps == [] then None
    else if Beats(ps[|ps| - 1], HighestLevel(ps[..|ps| - 1])) then ps[|ps| - 1].pet
    else BestPet(ps[..|ps| - 1])
  }

  /**
   * The highest level bounds every companion's level and, when positive, is
   * the level of some companion.
   */
  lemma {:induction false} HighestLevelIsMaximum(ps: seq<ProfilePillar>)
    ensures forall i :: 0 <= i < |ps| && ps[i].pet.Some? ==> ps[i].pet.value.level <= HighestLevel(ps)
    ensures HighestLevel(ps) > 0 ==>
      exists i :: 0 <= i < |ps| && ps[i].pet.Some? && ps[i].pet.value.level == HighestLevel(ps)
  {
    if ps != [] {
      var init := ps[..|ps| - 1];
      HighestLevelIsMaximum(init);
      forall i | 0 <= i < |init| ensures init[i] == ps[i] {
      }
    }
  }

  /** Whether pillar `k` holds the first companion at level `level`. */
  predicate FirstAtLevel(ps: seq<ProfilePillar>, k: int, level: int)
  {
    && 0 <= k < |ps| && ps[k].pet.Some? && ps[k].pet.value.level == level
    && forall j :: 0 <= j < k ==> !(ps[j].pet.Some? && ps[j].pet.value.level == level)
  }

  /**
   * The best companion is absent exactly when no companion has a positive
   * level; otherwise it is the first companion at the highest level, so a
   * later companion with the same level does not replace it.
   */
  lemma {:induction false} BestPetIsFirstAtHighest(ps: seq<ProfilePillar>)
    ensures BestPet(ps).None? <==> HighestLevel(ps) == 0
    ensures BestPet(ps).Some? ==>
      exists k :: FirstAtLevel(ps, k, HighestLevel(ps)) && ps[k].pet == BestPet(ps)
  {
    if ps != [] {
      var init := ps[..|ps| - 1];
      var n := |ps| - 1;
      BestPetIsFirstAtHighest(init);
      HighestLevelIsMaximum(init);
      var h := HighestLevel(init);
      if Beats(ps[n], h) {
        forall j | 0 <= j < n ensures !(ps[j].pet.Some? && ps[j].pet.value.level == ps[n].pet.value.level) {
          assert ps[j] == init[j];
        }
        assert FirstAtLevel(ps, n, HighestLevel(ps));
      } else if BestPet(init).Some? {
        var k :| FirstAtLevel(init, k, h) && init[k].pet == BestPet(init);
        assert ps[k] == init[k];
        forall j | 0 <= j < k ensures !(ps[j].pet.Some? && ps[j].pet.value.level == h) {
          assert ps[j] == init[j];
        }
        assert FirstAtLevel(ps, k, HighestLevel(ps));
      }
    }
  }

  /** `calculateTotalStats`. */
  method CalculateTotalStats(ps: seq<ProfilePillar>)
    returns (totalCommits: int, totalXp: int, highestLevel: int, bestPet: Option<PetRow>)
    ensures totalCommits == SumCommits(ps)
    ensures totalXp == SumXp(ps)
    ensures highestLevel == HighestLevel(ps)
    ensures bestPet == BestPet(ps)
  {
    totalCommits, totalXp, highestLevel, bestPet := 0, 0, 0, None;
    for i := 0 to |ps|
      invariant totalCommits == SumCommits(ps[..i])
      invariant totalXp == SumXp(ps[..i])
      invariant highestLevel == HighestLevel(ps[..i])
      invariant bestPet == BestPet(ps[..i])
    {
      assert ps[..i + 1][..i] == ps[..i];
      totalCommits := totalCommits + ps[i].totalCommits;
      if ps[i].pet.Some? {
        totalXp := totalXp + ps[i].pet.value.xp + ps[i].pet.value.level * 100;
        if ps[i].pet.value.level > highestLevel {
          highestLevel := ps[i].pet.value.level;
          bestPet := ps[i].pet;
        }
      }
    }
    assert ps[..|ps|] == ps;
  }

  /** Every pillar counts towards the commits, with or without a companion; only companions add XP. */
  lemma {:induction false} TotalsOfAppend(ps: seq<ProfilePillar>, p: ProfilePillar)
    ensures SumCommits(ps + [p]) == SumCommits(ps) + p.totalCommits
    ensures p.pet.None? ==> SumXp(ps + [p]) == SumXp(ps)
    ensures p.pet.Some? ==> SumXp(ps + [p]) == SumXp(ps) + p.pet.value.xp + 100 * p.pet.value.level
  {
    assert (ps + [p])[..|ps|] == ps;
  }
}

=== FILE: streak_card.dfy ===
/**
 * The tiers of `components/StreakCard.tsx`: a streak of at least 30 days is
 * on fire, 14 a star, 7 a flexed arm and anything shorter a seedling, with a
 * text colour per tier; the unit reads "day" only for a one-day streak.
 */
module StreakCard {
  /** `getStreakColor`. */
  function StreakColor(streak: int): (r: string)
    ensures r == "text-yellow-500" <==> streak >= 30
    ensures r == "text-green-500" <==> 14 <= streak < 30
    ensures r == "text-blue-500" <==> 7 <= streak < 14
    ensures r == "text-gray-500" <==> streak < 7
  {
    if streak >= 30 then "text-yellow-500"
    else if streak >= 14 then "text-green-500"
    else if streak >= 7 then "text-blue-500"
    else "text-gray-500"
  }

  /** `getStreakEmoji`. */
  function StreakEmoji(streak: int): (r: string)
    ensures r == "\U{1F525}" <==> streak >= 30
    ensures r == "\U{2B50}" <==> 14 <= streak < 30
    ensures r == "\U{1F4AA}" <==> 7 <= streak < 14
    ensures r == "\U{1F331}" <==> streak < 7
  {
    if streak >= 30 then "\U{1F525}"
    else if streak >= 14 then "\U{2B50}"
    else if streak >= 7 then "\U{1F4AA}"
    else "\U{1F331}"
  }

  /** The tier of a streak, 0 (seedling) to 3 (fire). */
  function Tier(streak: int): (t: nat)
    ensures t <= 3
  {
    if streak >= 30 then 3 else if streak >= 14 then 2 else if streak >= 7 then 1 else 0
  }

  const TierColors: seq<string> := ["text-gray-500", "text-blue-500", "text-green-500", "text-yellow-500"]
  const TierEmojis: seq<string> := ["\U{1F331}", "\U{1F4AA}", "\U{2B50}", "\U{1F525}"]

  /**
   * Colour and emoji always come from the same tier, and a longer streak
   * never drops to a lower tier.
   */
  lemma ColourAndEmojiShareTier(streak: int, longer: int)
    requires streak <= longer
    ensures StreakColor(streak) == TierColors[Tier(streak)]
    ensures StreakEmoji(streak) == TierEmojis[Tier(streak)]
    ensures Tier(streak) <= Tier(longer)
  {
  }

  /** The unit under the count. */
  function DayLabel(streak: int): (r: string)
    ensures r == "day" <==> streak == 1
    ensures r == "days" <==> streak != 1
  {
    if streak == 1 then "day" else "days"
  }
}

=== FILE: streaks.dfy ===
/**
 * The bookkeeping of `actionsApi` in `lib/api.ts` after the rows are fetched:
 * the current and best streaks of `getStreakData`, computed on the distinct
 * action days sorted newest first, and the per-date counts of
 * `getHeatmapData`. A day is an integer day number (see module Calendar).
 */
module Streaks {
  import opened Text

  predicate StrictlyDescending(u: seq<int>)
  {
    forall i, j :: 0 <= i < j < |u| ==> u[i] > u[j]
  }

  /** Inserts `d` into a strictly descending sequence, unless it is already there. */
  function InsertDescending(u: seq<int>, d: int): (r: seq<int>)
    requires StrictlyDescending(u)
    ensures StrictlyDescending(r)
    ensures forall x :: x in r <==> x in u || x == d
  {
    if u == [] then [d]
    else if d == u[0] then u
    else if d > u[0] then [d] + u
    else
      var rest := InsertDescending(u[1..], d);
      assert forall x :: x in u[1..] ==> x < u[0];
      assert forall j :: 0 <= j < |rest| ==> rest[j] in rest;
      [u[0]] + rest
  }

  /**
   * `[...new Set(...)]` sorted newest first: every day once, in strictly
   * descending order.
   */
  function UniqueDescending(days: seq<int>): (u: seq<int>)
    ensures StrictlyDescending(u)
    ensures forall x :: x in u <==> x in days
  {
    if days == [] then [] else InsertDescending(UniqueDescending(days[1..]), days[0])
  }

  /** The days at indices `lo..hi` of `u` follow each other one day apart. */
  predicate Consecutive(u: seq<int>, lo: int, hi: int)
  {
    0 <= lo <= hi <= |u| && forall j :: lo < j < hi ==> u[j - 1] - u[j] == 1
  }

  /** The length of the longest run of consecutive days that ends just before index `n`. */
  function RunEndingAt(u: seq<int>, n: nat): (r: nat)
    requires 0 < n <= |u|
    ensures 1 <= r <= n
  {
    if n == 1 then 1
    else if u[n - 2] - u[n - 1] == 1 then RunEndingAt(u, n - 1) + 1
    else 1
  }

  /** `RunEndingAt` is a run, and no run ending at the same place is longer. */
  lemma {:induction false} RunEndingAtIsMaximal(u: seq<int>, n: nat)
    requires 0 < n <= |u|
    ensures Consecutive(u, n - RunEndingAt(u, n), n)
    ensures forall lo :: 0 <= lo < n && Consecutive(u, lo, n) ==> n - lo <= RunEndingAt(u, n)
  {
    if n > 1 {
      if u[n - 2] - u[n - 1] == 1 {
        RunEndingAtIsMaximal(u, n - 1);
        assert forall lo :: 0 <= lo < n - 1 && Consecutive(u, lo, n) ==> Consecutive(u, lo, n - 1);
      } else {
        forall lo | 0 <= lo < n - 1 ensures !Consecutive(u, lo, n) {
          assert lo < n - 1 < n;
        }
      }
    }
  }

  /** The longest run of consecutive days among the first `n` entries (0 when there are none). */
  function LongestRun(u: seq<int>, n: nat): (r: nat)
    requires n <= |u|
    ensures r <= n && (n > 0 ==> r >= 1)
  {
    if n == 0 then 0
    else
      var before := LongestRun(u, n - 1);
      var here := RunEndingAt(u, n);
      if here > before then here else before
  }

  /** `LongestRun` is the length of a run, and no run among the first `n` entries is longer. */
  lemma {:induction false} LongestRunIsLongest(u: seq<int>, n: nat)
    requires n <= |u|
    ensures forall lo, hi :: Consecutive(u, lo, hi) && hi <= n ==> hi - lo <= LongestRun(u, n)
    ensures exists lo, hi :: Consecutive(u, lo, hi) && hi <= n && hi - lo == LongestRun(u, n)
  {
    if n == 0 {
      assert Consecutive(u, 0, 0);
    } else {
      LongestRunIsLongest(u, n - 1);
      RunEndingAtIsMaximal(u, n);
      var r := LongestRun(u, n);
      forall lo, hi | Consecutive(u, lo, hi) && hi <= n ensures hi - lo <= r {
        if hi == n && lo < n {
        } else if hi < n {
        }
      }
      if RunEndingAt(u, n) <= LongestRun(u, n - 1) {
        var lo, hi :| Consecutive(u, lo, hi) && hi <= n - 1 && hi - lo == LongestRun(u, n - 1);
        assert Consecutive(u, lo, hi) && hi <= n && hi - lo == r;
      } else {
        assert Consecutive(u, n - r, n);
      }
    }
  }

  /**
   * `getStreakData` on the days of the fetched actions: `current` counts the
   * days from today backwards without a gap, `best` is the longest run of
   * days one apart.
   */
  method StreakData(days: seq<int>, today: int) returns (current: nat, best: nat)
    ensures var u := UniqueDescending(days);
      && current <= |u|
      && (forall i :: 0 <= i < current ==> u[i] == today - i)
      && (current < |u| ==> u[current] != today - current)
    ensures best == LongestRun(UniqueDescending(days), |UniqueDescending(days)|)
  {
    var uniqueDates := UniqueDescending(days);
    current := CurrentStreak(uniqueDates, today);
    best := BestStreak(uniqueDates);
  }

  /** The first loop of `getStreakData`: days matching today, yesterday, ... from the front. */
  method CurrentStreak(uniqueDates: seq<int>, today: int) returns (current: nat)
    ensures current <= |uniqueDates|
    ensures forall i :: 0 <= i < current ==> uniqueDates[i] == today - i
    ensures current < |uniqueDates| ==> uniqueDates[current] != today - current
  {
    current := 0;
    var i := 0;
    while i < |uniqueDates|
      invariant 0 <= i <= |uniqueDates| && current == i
      invariant forall j :: 0 <= j < i ==> uniqueDates[j] == today - j
    {
      if uniqueDates[i] == today - i {
        current := current + 1;
      } else {
        break;
      }
      i := i + 1;
    }
  }

  /** The second loop of `getStreakData`: the longest run of days one apart. */
  method BestStreak(uniqueDates: seq<int>) returns (best: nat)
    ensures best == LongestRun(uniqueDates, |uniqueDates|)
  {
    best := 0;
    var temp := 0;
    var i := 0;
    while i < |uniqueDates|
      invariant 0 <= i <= |uniqueDates|
      invariant i == 0 ==> best == 0 && temp == 0
      invariant i > 0 ==> temp == RunEndingAt(uniqueDates, i)
      invariant i > 0 ==> (if best > temp then best else temp) == LongestRun(uniqueDates, i)
      invariant best <= LongestRun(uniqueDates, i)
    {
      if i == 0 {
        temp := 1;
      } else if uniqueDates[i - 1] - uniqueDates[i] == 1 {
        temp := temp + 1;
      } else {
        best := if best > temp then best else temp;
        temp := 1;
      }
      i := i + 1;
    }
    best := if best > temp then best else temp;
  }

  /**
   * The current streak is itself a run of consecutive days, so it never
   * exceeds the best streak, which never exceeds the number of distinct days;
   * an empty history gives 0 and 0, any other history a best of at least 1.
   */
  lemma {:induction false} CurrentAtMostBest(u: seq<int>, today: int, current: nat)
    requires current <= |u| && forall i :: 0 <= i < current ==> u[i] == today - i
    ensures current <= LongestRun(u, |u|) <= |u|
    ensures |u| == 0 <==> LongestRun(u, |u|) == 0
  {
    LongestRunIsLongest(u, |u|);
    assert Consecutive(u, 0, current) by {
      forall j | 0 < j < current ensures u[j - 1] - u[j] == 1 {
        assert u[j - 1] == today - (j - 1);
      }
    }
  }

  /** No action at all: no streak; a single action today: both streaks are one. */
  lemma StreakExamples(today: int)
    ensures LongestRun(UniqueDescending([]), 0) == 0
    ensures UniqueDescending([today, today]) == [today]
    ensures LongestRun([today], 1) == 1
  {
    assert UniqueDescending([today]) == [today];
    assert [today, today][1..] == [today];
  }

  // ---------------------------------------------------------------------------
  // getHeatmapData: grouping the fetched rows by date

  /** The number of occurrences of `k` in `xs`. */
  function Count(xs: seq<string>, k: string): (n: nat)
    ensures n <= |xs|
    ensures n == 0 <==> k !in xs
  {
    if xs == [] then 0
    else Count(xs[..|xs| - 1], k) + (if xs[|xs| - 1] == k then 1 else 0)
  }

  /** The sum of the counts of `keys` in `acc`. */
  function SumCounts(keys: seq<string>, acc: map<string, nat>): nat
    requires forall k :: k in keys ==> k in acc
  {
    if keys == [] then 0
    else SumCounts(keys[..|keys| - 1], acc) + acc[keys[|keys| - 1]]
  }

  predicate Distinct(keys: seq<string>)
  {
    forall i, j :: 0 <= i < j < |keys| ==> keys[i] != keys[j]
  }

  /** Raising the count of one listed key raises the sum by one. */
  lemma {:induction false} SumCountsIncrement(keys: seq<string>, acc: map<string, nat>, k: string)
    requires forall x :: x in keys ==> x in acc
    requires Distinct(keys) && k in keys
    ensures SumCounts(keys, acc[k := acc[k] + 1]) == SumCounts(keys, acc) + 1
  {
    var last := keys[|keys| - 1];
    var init := keys[..|keys| - 1];
    if last == k {
      assert k !in init;
      SumCountsUnlisted(init, acc, k, acc[k] + 1);
    } else {
      assert k in init;
      SumCountsIncrement(init, acc, k);
    }
  }

  /** Setting the count of a key that is not listed leaves the sum as it was. */
  lemma {:induction false} SumCountsUnlisted(keys: seq<string>, acc: map<string, nat>, k: string, v: nat)
    requires forall x :: x in keys ==> x in acc
    requires k !in keys
    ensures SumCounts(keys, acc[k := v]) == SumCounts(keys, acc)
  {
    if keys != [] {
      var init := keys[..|keys| - 1];
      assert forall x :: x in init ==> x in keys;
      SumCountsUnlisted(init, acc, k, v);
    }
  }

  /** One `{ date, count }` entry of the heatmap data. */
  datatype DayCount = DayCount(date: string, count: nat)

  /** The date part of each row's date: the text before the first "T". */
  function DateKeys(dates: seq<string>): (r: seq<string>)
    ensures |r| == |dates|
    ensures forall i :: 0 <= i < |dates| ==> r[i] == BeforeFirst(dates[i], 'T')
  {
    if dates == [] then [] else DateKeys(dates[..|dates| - 1]) + [BeforeFirst(dates[|dates| - 1], 'T')]
  }

  function Total(entries: seq<DayCount>): nat
  {
    if entries == [] then 0 else Total(entries[..|entries| - 1]) + entries[|entries| - 1].count
  }

  lemma {:induction false} TotalIsSumCounts(keys: seq<string>, acc: map<string, nat>, entries: seq<DayCount>)
    requires forall k :: k in keys ==> k in acc
    requires |entries| == |keys| && forall j :: 0 <= j < |keys| ==> entries[j] == DayCount(keys[j], acc[keys[j]])
    ensures Total(entries) == SumCounts(keys, acc)
  {
    if keys != [] {
      var n := |keys| - 1;
      assert forall k :: k in keys[..n] ==> k in keys;
      TotalIsSumCounts(keys[..n], acc, entries[..n]);
    }
  }

  /** `order` and `acc` hold the grouping of the date keys `xs`. */
  ghost predicate Grouped(xs: seq<string>, order: seq<string>, acc: map<string, nat>)
  {
    && Distinct(order)
    && SameKeys(order, acc)
    && KeysOf(acc, xs)
    && CountsMatch(acc, xs)
    && SumCounts(order, acc) == |xs|
  }

  /** `order` lists exactly the keys of `acc`. */
  ghost predicate SameKeys(order: seq<string>, acc: map<string, nat>)
  {
    forall k :: k in order <==> k in acc
  }

  /** The keys of `acc` are exactly the dates occurring in `xs`. */
  ghost predicate KeysOf(acc: map<string, nat>, xs: seq<string>)
  {
    forall k :: k in acc <==> k in xs
  }

  /** Each key of `acc` maps to the number of its occurrences in `xs`. */
  ghost predicate CountsMatch(acc: map<string, nat>, xs: seq<string>)
  {
    forall k :: k in acc ==> acc[k] == Count(xs, k)
  }

  /** The position of the first occurrence of `k` in `xs`. */
  function FirstIndexOf(xs: seq<string>, k: string): (i: nat)
    requires k in xs
    ensures i < |xs| && xs[i] == k
    ensures forall j :: 0 <= j < i ==> xs[j] != k
  {
    if xs[0] == k then 0 else 1 + FirstIndexOf(xs[1..], k)
  }

  /** `order` lists keys of `xs` in the order of their first occurrence there. */
  ghost predicate InFirstSeenOrder(xs: seq<string>, order: seq<string>)
  {
    && (forall i :: 0 <= i < |order| ==> order[i] in xs)
    && forall i, j :: 0 <= i < j < |order| ==> FirstIndexOf(xs, order[i]) < FirstIndexOf(xs, order[j])
  }

  /** Appending a date does not move the first occurrence of a date already present. */
  lemma FirstIndexOfAppend(xs: seq<string>, date: string, k: string)
    requires k in xs
    ensures FirstIndexOf(xs + [date], k) == FirstIndexOf(xs, k) < |xs|
  {
    assert (xs + [date])[FirstIndexOf(xs, k)] == k;
  }

  /** A date not present before first occurs at the end. */
  lemma FirstIndexOfNew(xs: seq<string>, date: string)
    requires date !in xs
    ensures FirstIndexOf(xs + [date], date) == |xs|
  {
  }

  /** One step of the reduce keeps the keys in order of first appearance. */
  lemma OrderStep(xs: seq<string>, order: seq<string>, acc: map<string, nat>, date: string)
    requires Grouped(xs, order, acc) && InFirstSeenOrder(xs, order)
    ensures date in acc ==> InFirstSeenOrder(xs + [date], order)
    ensures date !in acc ==> InFirstSeenOrder(xs + [date], order + [date])
  {
    var ys := xs + [date];
    forall i | 0 <= i < |order| ensures order[i] in ys && FirstIndexOf(ys, order[i]) == FirstIndexOf(xs, order[i]) < |xs| {
      FirstIndexOfAppend(xs, date, order[i]);
    }
    if date !in acc {
      assert date !in xs;
      FirstIndexOfNew(xs, date);
      var order' := order + [date];
      forall i | 0 <= i < |order'| ensures order'[i] in ys {
        if i < |order| {
          assert order'[i] == order[i];
        }
      }
      forall i, j | 0 <= i < j < |order'| ensures FirstIndexOf(ys, order'[i]) < FirstIndexOf(ys, order'[j]) {
        assert order'[i] == order[i];
        if j < |order| {
          assert order'[j] == order[j];
        }
      }
    }
  }

  /** One step of the reduce keeps the grouping, whether the date is new or already seen. */
  lemma GroupedStep(xs: seq<string>, order: seq<string>, acc: map<string, nat>, date: string)
    requires Grouped(xs, order, acc)
    ensures date in acc ==> Grouped(xs + [date], order, acc[date := acc[date] + 1])
    ensures date !in acc ==> Grouped(xs + [date], order + [date], acc[date := 1])
  {
    if date in acc {
      GroupedSeen(xs, order, acc, date);
    } else {
      GroupedNew(xs, order, acc, date);
    }
  }

  /** A date seen before: its count goes up by one and the order stays. */
  lemma GroupedSeen(xs: seq<string>, order: seq<string>, acc: map<string, nat>, date: string)
    requires Grouped(xs, order, acc) && date in acc
    ensures Grouped(xs + [date], order, acc[date := acc[date] + 1])
  {
    var ys, acc' := xs + [date], acc[date := acc[date] + 1];
    CountAppend(xs, date);
    assert forall k :: k in acc' <==> k in ys by {
      forall k ensures k in ys <==> k in xs || k == date {
        InAppend(xs, date, k);
      }
    }
    SumCountsIncrement(order, acc, date);
  }

  /** A new date: it is listed last with a count of one. */
  lemma GroupedNew(xs: seq<string>, order: seq<string>, acc: map<string, nat>, date: string)
    requires Grouped(xs, order, acc) && date !in acc
    ensures Grouped(xs + [date], order + [date], acc[date := 1])
  {
    var ys, order', acc' := xs + [date], order + [date], acc[date := 1];
    assert Distinct(order') by {
      assert date !in order;
      forall i, j | 0 <= i < j < |order'| ensures order'[i] != order'[j] {
        if j == |order| {
          assert order'[i] == order[i];
        }
      }
    }
    assert SameKeys(order', acc') by {
      forall k ensures k in order' <==> k in order || k == date {
        InAppend(order, date, k);
      }
    }
    assert KeysOf(acc', ys) by {
      forall k ensures k in ys <==> k in xs || k == date {
        InAppend(xs, date, k);
      }
    }
    assert CountsMatch(acc', ys) by {
      CountAppend(xs, date);
    }
    assert SumCounts(order', acc') == |ys| by {
      SumCountsUnlisted(order, acc, date, 1);
      assert order'[..|order|] == order;
    }
  }

  /** Appending a date adds one to its count and leaves every other count alone. */
  lemma CountAppend(xs: seq<string>, date: string)
    ensures forall k :: Count(xs + [date], k) == Count(xs, k) + (if k == date then 1 else 0)
  {
    assert (xs + [date])[..|xs|] == xs;
  }

  /** Membership in a sequence with one more element. */
  lemma InAppend(xs: seq<string>, date: string, k: string)
    ensures k in xs + [date] <==> k in xs || k == date
  {
  }

  /**
   * The callback of the `reduce`: a date seen before gets one more count, a
   * new date is appended to the order with a count of one.
   */
  method Record(order: seq<string>, acc: map<string, nat>, date: string, ghost seen: seq<string>)
    returns (order': seq<string>, acc': map<string, nat>)
    requires Grouped(seen, order, acc)
    ensures Grouped(seen + [date], order', acc')
    ensures date in acc ==> order' == order && acc' == acc[date := acc[date] + 1]
    ensures date !in acc ==> order' == order + [date] && acc' == acc[date := 1]
  {
    GroupedStep(seen, order, acc, date);
    if date in acc {
      order', acc' := order, acc[date := acc[date] + 1];
    } else {
      order', acc' := order + [date], acc[date := 1];
    }
  }

  /** The `reduce` of `getHeatmapData`: counts per date key, keys kept in order of first appearance. */
  method Tally(keys: seq<string>) returns (order: seq<string>, acc: map<string, nat>)
    ensures Grouped(keys, order, acc)
    ensures InFirstSeenOrder(keys, order)
  {
    acc := map[];
    order := [];
    ghost var seen: seq<string> := [];
    var i := 0;
    while i < |keys|
      invariant 0 <= i <= |keys| && seen == keys[..i]
      invariant Grouped(seen, order, acc)
      invariant InFirstSeenOrder(seen, order)
    {
      assert keys[..i + 1] == keys[..i] + [keys[i]];
      OrderStep(seen, order, acc, keys[i]);
      order, acc := Record(order, acc, keys[i], seen);
      seen := seen + [keys[i]];
      i := i + 1;
    }
    assert seen == keys;
  }

  /**
   * The grouping of `getHeatmapData`: one entry per distinct date part, in
   * order of first appearance (the order of `Object.entries`), with the
   * number of rows of that date; the counts add up to the number of rows.
   */
  method GroupByDate(dates: seq<string>) returns (entries: seq<DayCount>)
    ensures forall i, j :: 0 <= i < j < |entries| ==> entries[i].date != entries[j].date
    ensures forall e :: e in entries ==> e.count == Count(DateKeys(dates), e.date) && e.count > 0
    ensures forall i :: 0 <= i < |dates| ==> exists e :: e in entries && e.date == BeforeFirst(dates[i], 'T')
    ensures Total(entries) == |dates|
    ensures forall i :: 0 <= i < |entries| ==> entries[i].date in DateKeys(dates)
    ensures forall i, j :: 0 <= i < j < |entries| ==>
      FirstIndexOf(DateKeys(dates), entries[i].date) < FirstIndexOf(DateKeys(dates), entries[j].date)
  {
    var keys := DateKeys(dates);
    var order, acc := Tally(keys);
    entries := seq(|order|, j requires 0 <= j < |order| => DayCount(order[j], acc[order[j]]));
    GroupedEntries(keys, order, acc, entries);
    forall i | 0 <= i < |dates| ensures exists e :: e in entries && e.date == BeforeFirst(dates[i], 'T') {
      assert keys[i] in keys;
    }
  }

  /**
   * The entries listed from a finished grouping are what `GroupByDate`
   * promises, and they keep the order of the grouping.
   */
  lemma GroupedEntries(keys: seq<string>, order: seq<string>, acc: map<string, nat>, entries: seq<DayCount>)
    requires Grouped(keys, order, acc)
    requires |entries| == |order| && forall j :: 0 <= j < |order| ==> entries[j] == DayCount(order[j], acc[order[j]])
    ensures forall i, j :: 0 <= i < j < |entries| ==> entries[i].date != entries[j].date
    ensures forall e :: e in entries ==> e.count == Count(keys, e.date) && e.count > 0
    ensures forall k :: k in keys ==> exists e :: e in entries && e.date == k
    ensures Total(entries) == |keys|
    ensures InFirstSeenOrder(keys, order) ==>
      && (forall i :: 0 <= i < |entries| ==> entries[i].date in keys)
      && forall i, j :: 0 <= i < j < |entries| ==> FirstIndexOf(keys, entries[i].date) < FirstIndexOf(keys, entries[j].date)
  {
    TotalIsSumCounts(order, acc, entries);
    forall k | k in keys ensures exists e :: e in entries && e.date == k {
      var j :| 0 <= j < |order| && order[j] == k;
      assert entries[j] in entries;
    }
  }
}

=== FILE: text.dfy ===
/**
 * The JavaScript string operations the core relies on: `toLowerCase`,
 * `includes`, `trim`, `slice(0, n)`, `split("T")[0]` and number-to-string
 * formatting. Strings are sequences of characters; case folding covers the
 * ASCII letters only.
 */
module Text {

  /** Lower-cases one ASCII capital letter; every other character is kept. */
  function LowerChar(c: char): (r: char)
    ensures ('A' <= c <= 'Z') ==> 'a' <= r <= 'z' && r as int == c as int + 32
    ensures !('A' <= c <= 'Z') ==> r == c
    ensures !('A' <= r <= 'Z')
  {
    if 'A' <= c <= 'Z' then (c as int + 32) as char else c
  }

  /** `s.toLowerCase()`, restricted to ASCII letters. */
  function Lower(s: string): (r: string)
    ensures |r| == |s|
    ensures forall i :: 0 <= i < |s| ==> r[i] == LowerChar(s[i])
  {
    if s == [] then [] else [LowerChar(s[0])] + Lower(s[1..])
  }

  /** Lower-casing twice is lower-casing once. */
  lemma LowerIdempotent(s: string)
    ensures Lower(Lower(s)) == Lower(s)
  {
    var l := Lower(s);
    assert forall i :: 0 <= i < |l| ==> LowerChar(l[i]) == l[i];
  }

  /** True iff `sub` occurs in `s` starting at index `i`. */
  predicate OccursAt(s: string, sub: string, i: int)
  {
    0 <= i && i + |sub| <= |s| && s[i..i + |sub|] == sub
  }

  /** `s.includes(sub)`: some contiguous slice of `s` equals `sub`. */
  function Contains(s: string, sub: string): (b: bool)
    ensures b <==> exists i :: OccursAt(s, sub, i)
    decreases |s|
  {
    if |sub| > |s| then
      false
    else if s[..|sub|] == sub then
      assert OccursAt(s, sub, 0);
      true
    else
      ContainsShift(s, sub);
      Contains(s[1..], sub)
  }

  /** When `sub` is not at the front of `s`, it occurs in `s` iff it occurs in `s[1..]`. */
  lemma ContainsShift(s: string, sub: string)
    requires |sub| <= |s| && s[..|sub|] != sub
    ensures |s| >= 1
    ensures (exists i :: OccursAt(s, sub, i)) <==> (exists i :: OccursAt(s[1..], sub, i))
  {
    if exists i :: OccursAt(s, sub, i) {
      var i :| OccursAt(s, sub, i);
      assert i != 0;
      assert s[1..][i - 1..i - 1 + |sub|] == s[i..i + |sub|];
      assert OccursAt(s[1..], sub, i - 1);
    }
    if exists i :: OccursAt(s[1..], sub, i) {
      var i :| OccursAt(s[1..], sub, i);
      assert s[1..][i..i + |sub|] == s[i + 1..i + 1 + |sub|];
      assert OccursAt(s, sub, i + 1);
    }
  }

  /**
   * The characters JavaScript's `trim` removes: the white space and line
   * terminators of the ECMAScript grammar, that is tab, vertical tab, form
   * feed, the byte order mark, the Unicode space separators (category Zs)
   * and the four line terminators.
   */
  predicate IsSpace(c: char)
  {
    c == '\t' || c == '\U{0B}' || c == '\U{0C}' || c == '\U{FEFF}'
    || c == ' ' || c == '\U{A0}' || c == '\U{1680}' || '\U{2000}' <= c <= '\U{200A}'
    || c == '\U{202F}' || c == '\U{205F}' || c == '\U{3000}'
    || c == '\n' || c == '\r' || c == '\U{2028}' || c == '\U{2029}'
  }

  /** An ideographic space alone is blank, so it trims to the empty text. */
  lemma IdeographicSpaceIsBlank()
    ensures Trim("\U{3000}") == []
  {
    TrimEmptyIffBlank("\U{3000}");
  }

  /** Drops leading white space: what remains is a suffix that does not start with a space. */
  function TrimStart(s: string): (r: string)
    ensures |r| <= |s| && r == s[|s| - |r|..]
    ensures forall i :: 0 <= i < |s| - |r| ==> IsSpace(s[i])
    ensures r != [] ==> !IsSpace(r[0])
  {
    if s != [] && IsSpace(s[0]) then TrimStart(s[1..]) else s
  }

  /** Drops trailing white space: what remains is a prefix that does not end with a space. */
  function TrimEnd(s: string): (r: string)
    ensures |r| <= |s| && r == s[..|r|]
    ensures forall i :: |r| <= i < |s| ==> IsSpace(s[i])
    ensures r != [] ==> !IsSpace(r[|r| - 1])
  {
    if s != [] && IsSpace(s[|s| - 1]) then TrimEnd(s[..|s| - 1]) else s
  }

  /** `s.trim()`. */
  function Trim(s: string): string
  {
    TrimEnd(TrimStart(s))
  }

  /** All white space (or empty). */
  predicate Blank(s: string)
  {
    forall i :: 0 <= i < |s| ==> IsSpace(s[i])
  }

  /** Neither starting nor ending with white space. */
  predicate Trimmed(s: string)
  {
    s != [] ==> !IsSpace(s[0]) && !IsSpace(s[|s| - 1])
  }

  /** A string trims to the empty string exactly when it is all white space. */
  lemma TrimEmptyIffBlank(s: string)
    ensures Trim(s) == [] <==> Blank(s)
  {
    if Blank(s) {
      TrimStartOfBlank(s);
    }
    if Trim(s) == [] {
      assert TrimStart(s) == [];
    }
  }

  lemma {:induction false} TrimStartOfBlank(s: string)
    requires forall i :: 0 <= i < |s| ==> IsSpace(s[i])
    ensures TrimStart(s) == []
  {
    if s != [] {
      TrimStartOfBlank(s[1..]);
    }
  }

  /** A trimmed text neither starts nor ends with white space. */
  lemma TrimIsTrimmed(s: string)
    ensures Trimmed(Trim(s))
  {
    var t := TrimStart(s);
    var r := TrimEnd(t);
    if r != [] {
      assert r[0] == t[0];
    }
  }

  /** Trimming leaves text without surrounding white space unchanged. */
  lemma TrimKeepsTrimmed(s: string)
    requires Trimmed(s)
    ensures Trim(s) == s
  {
  }

  /** `s.slice(0, n)`: the first `n` characters, or all of them when there are fewer. */
  function Take(s: string, n: nat): (r: string)
    ensures |r| <= n && |r| <= |s| && r == s[..|r|]
    ensures |r| == if |s| <= n then |s| else n
  {
    if |s| <= n then s else s[..n]
  }

  /** `s.split(sep)[0]`: everything before the first `sep`, or `s` when it has none. */
  function BeforeFirst(s: string, sep: char): (r: string)
    ensures |r| <= |s| && r == s[..|r|]
    ensures sep !in r
    ensures |r| < |s| ==> s[|r|] == sep
  {
    if s == [] || s[0] == sep then [] else [s[0]] + BeforeFirst(s[1..], sep)
  }

  /** Cutting at the first separator a second time changes nothing. */
  lemma {:induction false} BeforeFirstIdempotent(s: string, sep: char)
    ensures BeforeFirst(BeforeFirst(s, sep), sep) == BeforeFirst(s, sep)
  {
    var r := BeforeFirst(s, sep);
    BeforeFirstOfFree(r, sep);
  }

  /** A string without the separator is its own first piece. */
  lemma {:induction false} BeforeFirstOfFree(s: string, sep: char)
    requires sep !in s
    ensures BeforeFirst(s, sep) == s
  {
    if s != [] {
      BeforeFirstOfFree(s[1..], sep);
    }
  }

  /** The decimal digit character for `d`. */
  function DigitChar(d: nat): (c: char)
    requires d < 10
    ensures '0' <= c <= '9' && c as int - '0' as int == d
  {
    (d + '0' as int) as char
  }

  predicate AllDigits(s: string)
  {
    forall i :: 0 <= i < |s| ==> '0' <= s[i] <= '9'
  }

  /** JavaScript's decimal rendering of a non-negative integer, as in a template literal. */
  function NatToString(n: nat): (r: string)
    ensures r != [] && AllDigits(r)
  {
    if n < 10 then [DigitChar(n)] else NatToString(n / 10) + [DigitChar(n % 10)]
  }

  /** The rendering is canonical: one digit below 10, and no leading zero. */
  lemma {:induction false} NatToStringCanonical(n: nat)
    ensures |NatToString(n)| == 1 <==> n < 10
    ensures n > 0 ==> NatToString(n)[0] != '0'
    ensures |NatToString(n)| > 1 ==> NatToString(n)[0] != '0'
  {
    if n >= 10 {
      NatToStringCanonical(n / 10);
    }
  }

  /** The value of a string of decimal digits. */
  function DigitsValue(s: string): nat
    requires AllDigits(s)
  {
    if s == [] then 0 else DigitsValue(s[..|s| - 1]) * 10 + (s[|s| - 1] as int - '0' as int)
  }

  /** Rendering loses nothing: reading the digits back gives the number. */
  lemma {:induction false} NatToStringRoundTrip(n: nat)
    ensures DigitsValue(NatToString(n)) == n
  {
    if n >= 10 {
      NatToStringRoundTrip(n / 10);
      var s := NatToString(n);
      assert s[..|s| - 1] == NatToString(n / 10);
    }
  }
}

=== FILE: todays_habits.dfy ===
/**
 * The dashboard card of `components/TodaysHabits.tsx`: the first three habits
 * not yet completed today, the completed and unfinished counts, the "See
 * All" button and the all-done banner, and the commit button of each habit.
 */
module TodaysHabits {
  import opened Wrappers
  import opened Lists
  import opened AppStore
  import opened HabitsModal

  /** How many unfinished habits the card lists. */
  const ListedUnfinished: nat := 3

  /** `totalUnfinishedCount`: the habits with no action today. */
  function TotalUnfinished(all: seq<TaggedHabit>, todayActions: seq<Action>): (n: nat)
    ensures n <= |all|
  {
    |Filter(all, NotDone(todayActions))|
  }

  /** `unfinishedHabits`: `filter(...).slice(0, 3)`. */
  function UnfinishedHabits(all: seq<TaggedHabit>, todayActions: seq<Action>): (r: seq<TaggedHabit>)
    ensures |r| <= ListedUnfinished
  {
    var pending := Filter(all, NotDone(todayActions));
    pending[..if |pending| < ListedUnfinished then |pending| else ListedUnfinished]
  }

  /**
   * The listed habits are the first unfinished ones in the order of
   * `allHabits`: as many as there are, up to three, each one listed and not
   * completed, and together a prefix of the unfinished habits.
   */
  lemma UnfinishedAreFirstPending(all: seq<TaggedHabit>, todayActions: seq<Action>)
    ensures var r := UnfinishedHabits(all, todayActions);
      var total := TotalUnfinished(all, todayActions);
      && |r| == (if total < ListedUnfinished then total else ListedUnfinished)
      && r == Filter(all, NotDone(todayActions))[..|r|]
      && forall t :: t in r ==> t in all && !IsCompleted(todayActions, t.habit.id)
  {
    var pending := Filter(all, NotDone(todayActions));
    var r := UnfinishedHabits(all, todayActions);
    forall t | t in r ensures t in pending {
      var k :| 0 <= k < |r| && r[k] == t;
      assert pending[k] == t;
    }
  }

  /** Completed and unfinished habits add up to all habits. */
  lemma CountsAddUp(all: seq<TaggedHabit>, todayActions: seq<Action>)
    ensures CompletedCount(all, todayActions) + TotalUnfinished(all, todayActions) == |all|
  {
    FilterSplits(all, Done(todayActions), NotDone(todayActions));
  }

  /** The "See All Habits" button: more than three unfinished, or some completed. */
  predicate ShowSeeAll(all: seq<TaggedHabit>, todayActions: seq<Action>)
  {
    TotalUnfinished(all, todayActions) > ListedUnfinished || CompletedCount(all, todayActions) > 0
  }

  /** The all-done banner: every habit completed, and there is at least one. */
  predicate ShowBanner(all: seq<TaggedHabit>, todayActions: seq<Action>)
  {
    CompletedCount(all, todayActions) == |all| && |all| > 0
  }

  /** "See All" appears exactly when the card's list leaves some habit out. */
  lemma SeeAllIffSomethingHidden(all: seq<TaggedHabit>, todayActions: seq<Action>)
    ensures ShowSeeAll(all, todayActions) <==> |UnfinishedHabits(all, todayActions)| < |all|
  {
    CountsAddUp(all, todayActions);
    UnfinishedAreFirstPending(all, todayActions);
  }

  /** The banner appears exactly when there are habits and each has an action today. */
  lemma BannerIffAllDone(all: seq<TaggedHabit>, todayActions: seq<Action>)
    ensures ShowBanner(all, todayActions) <==>
      |all| > 0 && forall i :: 0 <= i < |all| ==> IsCompleted(todayActions, all[i].habit.id)
    ensures ShowBanner(all, todayActions) ==> ShowSeeAll(all, todayActions)
  {
    CountsAddUp(all, todayActions);
    var pending := Filter(all, NotDone(todayActions));
    if |pending| == 0 {
      forall i | 0 <= i < |all| ensures IsCompleted(todayActions, all[i].habit.id) {
        assert all[i] in all;
        assert all[i] !in pending;
      }
    } else {
      assert pending[0] in pending;
      var k :| 0 <= k < |all| && all[k] == pending[0];
      assert !IsCompleted(todayActions, all[k].habit.id);
    }
  }

  /**
   * `handleCommitHabit`: adds one action for the habit through the store,
   * dated with the full ISO timestamp `nowIso`. On a failure the store
   * records it: the actions stay as they were and the store's error holds
   * the message; the component itself neither awaits nor catches the call.
   */
  method HandleCommitHabit(store: Store, habitId: string, nowIso: string, created: ApiResult<RowStamp>)
    modifies store
    ensures created.Ok? ==> store.todayActions == old(store.todayActions) + [ActionRow(NewAction(habitId, nowIso), created.value)]
    ensures created.Ok? ==> IsCompleted(store.todayActions, habitId)
    ensures created.Failed? ==> store.todayActions == old(store.todayActions)
    ensures store.error == (if created.Ok? then None else Some(FailureMessage(created, CommitFailure)))
    ensures store.pillars == old(store.pillars) && store.selectedPillar == old(store.selectedPillar)
    ensures store.loading == old(store.loading)
  {
    var _ := store.AddAction(NewAction(habitId, nowIso), created);
    if created.Ok? {
      TickCompletes(old(store.todayActions), habitId, nowIso, created.value);
    }
  }

  /** `HabitItem.handleCommit`: a habit already completed today is left alone. */
  method PressCommit(store: Store, habitId: string, isCompleted: bool, nowIso: string, created: ApiResult<RowStamp>)
    modifies store
    ensures isCompleted ==> && store.todayActions == old(store.todayActions) && store.pillars == old(store.pillars)
                            && store.selectedPillar == old(store.selectedPillar)
                            && store.loading == old(store.loading) && store.error == old(store.error)
    ensures !isCompleted && created.Ok? ==>
      store.todayActions == old(store.todayActions) + [ActionRow(NewAction(habitId, nowIso), created.value)]
    ensures !isCompleted && created.Failed? ==> store.todayActions == old(store.todayActions)
    ensures !isCompleted ==>
      store.error == (if created.Ok? then None else Some(FailureMessage(created, CommitFailure)))
    ensures store.pillars == old(store.pillars) && store.selectedPillar == old(store.selectedPillar)
    ensures store.loading == old(store.loading)
  {
    if isCompleted {
      return;
    }
    HandleCommitHabit(store, habitId, nowIso, created);
  }
}

=== FILE: wrappers.dfy ===
/** Failure-carrying values shared by every module of the model. */
module Wrappers {

  /** A value that may be absent: the source's `null` / `undefined`. */
  datatype Option<+T> = None | Some(value: T) {
    function GetOr(default: T): T {
      match this
      case Some(v) => v
      case None => default
    }
  }

  /** The outcome of an operation that either returns a value or throws. */
  datatype Result<+T, +E> = Success(value: T) | Failure(error: E)
}
